=== FILE: README.md ===
# Mawaqit prayer times — a Dafny model of the extension's core

The extension shows the five daily prayers, sunrise, an optional Duha window and
an optional night midpoint for one city. The times come from a month-long
timetable fetched from a prayer-times API and cached per month. On top of that
table it does several things:

- applies per-prayer minute adjustments;
- keeps a sorted list of the day's events and derives from it the active and
  next prayer and the countdown;
- plays the adhan once per prayer;
- raises desktop notifications from the page;
- raises them from a background worker woken by alarms, which also drives an
  offscreen audio document.

This project models that core as pure Dafny functions over immutable data and
proves what each step promises.

Instants are integers of milliseconds and days are day indices. `DayOf`, `At`
and `WeekDay` in `clock.dfy` replace the time-zone-local `Date` arithmetic.
Strings are `seq<char>`, and the JavaScript string built-ins (`split`, `trim`,
`padStart`, `Number`, `parseInt`) are defined in `text.dfy`. They come with
their own round-trip lemmas.

Modules, in dependency order:

| file | module | models |
|---|---|---|
| `wrappers.dfy` | `Wrappers` | `Option` and `Result` |
| `text.dfy` | `Text` | `split`/`join`, `trim`, digits, `padStart`, `Number` and `parseInt` on strings |
| `clock.dfy` | `Clock` | day/minute arithmetic, `HH:MM` formatting and parsing, the 12-hour dial |
| `calendar.dfy` | `Calendar` | civil dates and "tomorrow" |
| `prayers.dfy` | `Prayers` | prayer keys, the `PRAYER_NAMES` and `ADHAN_SOUNDS` tables, settings, events |
| `adjust.dfy` | `Adjust` | `adjustedPrayersToday`: adjusted times, Duha window, night midpoint |
| `schedule.dfy` | `Schedule` | `prayerSchedule`: the sorted list of the day's events |
| `tracker.dfy` | `Tracker` | active/next prayer, countdown and elapsed time |
| `adhan.dfy` | `Adhan` | the once-per-prayer adhan trigger and the pruning of played keys |
| `notifications.dfy` | `Notifications` | the page's rate-limited desktop notifications |
| `background.dfy` | `Background` | the worker's triggers, next alarm, and what it sends when woken |
| `offscreen.dfy` | `Offscreen` | the offscreen audio channel |
| `panel.dfy` | `Panel` | the adjustment panel: minute steps, test audio, sounds, mute, displayed time |
| `settings.dfy` | `SettingsForm` | the settings form: location field, auto-saved switches, pre-adhan lead |
| `hijri.dfy` | `HijriDate` | the tags of the date banner (Eids, Ramadan, Friday, white days, fasting) |
| `grid.dfy` | `Grid` | the prayer-card grid and its 12-hour display |
| `cache.dfy` | `PrayerCache` | the month cache keys and entries |
| `mawaqit.dfy` | `Mawaqit` | `getPrayerTimes`: cache, fetch, day lookup, mapping of the API timings |

## Model

| member | source | states |
|---|---|---|
| Text.Split | components/SettingsPanel.tsx:121 | `split` always yields at least one piece |
| Text.SplitPieces | App.tsx:190 | no piece returned by `split` contains the separator |
| Text.JoinSplit | components/SettingsPanel.tsx:123 | joining the pieces of a split with the same separator gives back the original string |
| Text.SplitJoin | components/SettingsPanel.tsx:121-123 | splitting a join of separator-free pieces gives back exactly those pieces |
| Text.SplitConcat | services/mawaqitService.ts:45-51 | splitting `a + sep + b` is splitting `a` followed by splitting `b` |
| Text.SplitNoSeparator | services/mawaqitService.ts:45 | a string without the separator splits into itself alone |
| Text.SplitHead | App.tsx:190 | the first piece is the text before the first separator |
| Text.TrimStart | components/SettingsPanel.tsx:121 | the result is a suffix, starts with a non-space, and only spaces were dropped |
| Text.TrimEnd | components/SettingsPanel.tsx:121 | the result is a prefix, ends with a non-space, and only spaces were dropped |
| Text.Trim | components/SettingsPanel.tsx:121 | the result is the middle of the input with only white space before and after it, and has no white space at either end |
| Text.TrimFixpoint | components/SettingsPanel.tsx:121-123 | `trim` leaves a string unchanged exactly when it has no surrounding white space |
| Text.TrimLeadingSpace | components/SettingsPanel.tsx:31 | trimming `" " + s` for a trimmed `s` gives `s`, as after the comma of `"city, country"` |
| Text.DigitChar | App.tsx:197 | the digit character of `d` is a digit whose value is `d` |
| Text.NatToString | App.tsx:197 | the decimal text of `n` is all digits, one digit exactly below ten, at most two below a hundred, no leading zero |
| Text.IntToString | services/prayerCacheService.ts:16 | the decimal text of an integer starts with `-` exactly when it is negative |
| Text.Pad2 | App.tsx:197 | `String(n).padStart(2, '0')` is all digits, of length two below a hundred |
| Text.PadStart2 | App.tsx:197 | `padStart(2, '0')` keeps the text as a suffix and fills only with zeros up to length two |
| Text.PadStartOfNat | App.tsx:197 | padding the decimal text of `n` is the two-digit form `Pad2(n)` |
| Text.TwoDigits | App.tsx:416 | below a hundred, the padded form is exactly two digit characters |
| Text.Pad2TwoDigits | App.tsx:416 | below a hundred, `Pad2` and `TwoDigits` agree |
| Text.TwoDigitsValue | App.tsx:190 | `Number` of the two-digit text of `n` is `n` |
| Text.ParseNat | App.tsx:190 | a whole-string decimal parse succeeds exactly on a non-empty all-digit string |
| Text.NatToStringRoundTrip | App.tsx:190-197 | parsing the decimal text of `n` gives `n` back |
| Text.Pad2RoundTrip | App.tsx:190-197 | parsing the padded two-digit text of `n` gives `n` back |
| Text.LeadingDigits | services/mawaqitService.ts:99 | the digit prefix `parseInt` reads is all digits and stops at the first non-digit |
| Text.ParseIntOfDigits | services/mawaqitService.ts:99 | `parseInt` of an all-digit string is its decimal value |
| Text.AllDigitsLeading | services/mawaqitService.ts:99 | an all-digit string is its own digit prefix |
| Text.ParseIntStopsAtNonDigit | components/DateDisplay.tsx:14 | `parseInt` of digits followed by a non-digit reads just the digits |
| Text.DigitsThenStop | components/DateDisplay.tsx:14 | the digit prefix of digits followed by a non-digit is those digits |
| Clock.DayOf | App.tsx:307 | an instant lies within the day `DayOf` gives it |
| Clock.WeekDay | hooks/useNotifications.ts:153 | `getDay()` is one of the seven weekdays, 0 to 6 |
| Clock.MinuteOfDay | App.tsx:197 | the minute of the day of an instant is in 0..1439 |
| Clock.FormatIsPadded | App.tsx:196-198 | the `HH:MM` text of minute `x` is the padded hour, a colon, the padded minute |
| Clock.ParseHM | App.tsx:189-194 | a parsed `H:M` text contains a colon |
| Clock.ParseHMSplit | App.tsx:190 | `split(':').map(Number)` succeeds exactly when the first two pieces are numerals, and gives their values |
| Clock.MinuteOfDayAt | App.tsx:189-194 | `setHours(h, m + offset)` lands on minute `(60h + m + offset)` mod 1440 of the day |
| Clock.DayAndMinute | App.tsx:196-198 | an instant lies in the minute its day and minute-of-day name |
| Clock.ParseFormatted | App.tsx:190-198 | parsing the `HH:MM` text of minute `x` gives hour `x / 60` and minute `x % 60` |
| Clock.ParseHoursMinutes | App.tsx:460 | an unpadded hour, a colon and two minute digits parse back to that hour and minute |
| Clock.FormatInjective | App.tsx:196-198 | two minutes of the day with the same `HH:MM` text are the same minute |
| Clock.Hour12 | components/PrayerTimesGrid.tsx:53 | the 12-hour hour (`hours % 12`, or 12 when that is zero) is in 1..12 and agrees with the hour modulo 12 |
| Clock.Hour12Inverse | components/PrayerTimesGrid.tsx:53-58 | the 12-hour value together with the am/pm mark recovers the 24-hour hour |
| Calendar.DaysInMonth | services/mawaqitService.ts:61-63 | every month has between 28 and 31 days |
| Calendar.NextDay | services/mawaqitService.ts:61-63 | tomorrow is a valid date after today; it is the first of a month or in the same month |
| Calendar.NextDayIsSuccessor | services/mawaqitService.ts:61-63 | no valid date lies strictly between today and tomorrow |
| Prayers.Raw | App.tsx:201-208 | a usable raw time belongs to a key that is present in the table |
| Prayers.FindByAr | App.tsx:301 | `PRAYER_NAMES.find` by Arabic name returns an entry with that name, or none exists |
| Prayers.FindByArIn | App.tsx:301 | `find` over any table: a match is an entry carrying the name, preceded by no other such entry; none exactly when no entry carries it |
| Prayers.OrFull | public/background.js:163 | the volume-or-full-volume fallback keeps a non-zero volume and turns zero into full volume |
| Prayers.FindSound | App.tsx:319 | `ADHAN_SOUNDS.find` by name returns a listed sound of that name, or none exists |
| Prayers.SoundOrFirst | App.tsx:319 | the sound played is a listed one: the named one when listed, else the first |
| Adjust.Wrap | App.tsx:189-194 | a shifted minute count folds back into one day |
| Adjust.Shifted | App.tsx:201-208 | an adjusted prayer falls in some minute of the day |
| Adjust.AdjustEntry | App.tsx:201-208 | an entry is kept exactly when its raw time parses, and then shows the raw minute plus the offset, folded into the day |
| Adjust.MinutesOfFormatted | App.tsx:189-198 | reading an `HH:MM` text back and adding `o` minutes gives `x + o` |
| Adjust.AdjustFormatted | App.tsx:201-208 | adjusting the `HH:MM` text of `x` by `o` shows the text of `x + o` folded into the day |
| Adjust.AdjustInverse | App.tsx:201-208 | adjusting by `o` and then by `-o` gives the original text back |
| Adjust.AdjustKeys | App.tsx:201-208 | the adjusted keys are exactly the listed keys with a usable raw time, each showing its shifted minute |
| Adjust.AdjustedBase | App.tsx:201-208 | every key with a usable raw time, and no other, is adjusted |
| Adjust.DuhaWindow | App.tsx:211-219 | the Duha window exists exactly when sunrise and noon parse, and runs from sunrise +15 to noon −10 |
| Adjust.MidpointInstant | App.tsx:222-234 | the night midpoint is equidistant from adjusted sunset and tomorrow's adjusted dawn, and lies between them |
| Adjust.MidnightValue | App.tsx:222-234 | the midpoint is computed exactly when sunset today and dawn tomorrow are usable |
| Adjust.WithDuha | App.tsx:211-219 | only the Duha entry changes; it is added exactly when shown and its window exists |
| Adjust.WithMidnight | App.tsx:222-234 | only the midnight entry changes; when shown and computable it holds the midpoint |
| Adjust.AdjustedPrayersToday | App.tsx:183-187 | without prayer data the adjusted table is empty |
| Adjust.AdjustedKeys | App.tsx:183-238 | every key other than Duha and midnight appears exactly when its raw time is usable, showing its shifted minute |
| Adjust.AdjustedMidnight | App.tsx:222-234 | midnight appears when the source has it, or when shown with sunset and tomorrow's dawn usable |
| Adjust.DuhaWindowFormatted | App.tsx:211-219 | on formatted times the Duha window is the text of the two shifted minutes |
| Adjust.WithDuhaFormatted | App.tsx:211-219 | with Duha shown and formatted sunrise and noon, the Duha entry is their window |
| Adjust.DuhaFromAdjusted | App.tsx:211-219 | with Duha shown, its window is computed from the adjusted, not the raw, sunrise and noon |
| Adjust.DuhaSurvivesMidnight | App.tsx:222-234 | adding the midpoint does not disturb the Duha entry |
| Adjust.DuhaOnlyWhenShown | App.tsx:211 | Duha is absent when the switch is off or sunrise or noon is unusable |
| Adjust.MidnightExample | App.tsx:222-234 | sunset 19:00 and dawn 05:00 give a midpoint of 00:00 |
| Schedule.Insert | App.tsx:289 | inserting into a sorted list keeps it sorted and adds exactly the one event |
| Schedule.SortByTime | App.tsx:289 | the sort returns a sorted permutation of its input |
| Schedule.SortSortedIsIdentity | App.tsx:289 | the stable sort leaves an already ordered list unchanged |
| Schedule.TodayEvents | App.tsx:258-268 | exactly one event per entry whose raw time is usable, each the event of a usable entry: its Arabic name at its raw time today moved by its adjustment |
| Schedule.TodayEventsOnePerName | App.tsx:258-268 | when the table's names are distinct, as in `PRAYER_NAMES`, no two of today's events share a name |
| Schedule.MidnightEvent | App.tsx:270-278 | the midpoint event is placed today, or tomorrow when it would fall before the last pushed event |
| Schedule.PrayerSchedule | App.tsx:241-290 | the schedule is sorted, empty without data, and otherwise a permutation of the day's events |
| Schedule.TodayEventPresent | App.tsx:258-268 | each usable prayer becomes an event at its adjusted instant |
| Schedule.PrayerInSchedule | App.tsx:258-268 | every usable prayer of today is in the schedule at its adjusted instant |
| Schedule.TomorrowFajrInSchedule | App.tsx:280-287 | tomorrow's dawn, when usable, is in the schedule at tomorrow's adjusted instant |
| Schedule.ScheduleLength | App.tsx:241-290 | the schedule has one event per usable prayer, plus the midpoint and tomorrow's dawn when present |
| Schedule.MidnightSecondToLast | App.tsx:270-289 | in the usual evening order, the midpoint comes second-to-last and dawn last |
| Schedule.MidnightInAdjustedSchedule | App.tsx:229-233 | built from the table `adjustedPrayersToday` makes, with the midpoint shown and today's sunset and tomorrow's dawn usable, the schedule holds a midpoint event and two events beyond the usable prayers |
| Schedule.NoMidnightWhenHidden | App.tsx:270-278 | with the midpoint hidden the schedule holds only the usable prayers and tomorrow's dawn, and no midpoint event |
| Schedule.UnsortedEndsWithMidnightAndFajr | App.tsx:270-287 | before sorting, the list ends with the midpoint and then dawn |
| Tracker.NextIndex | App.tsx:369 | `findIndex` gives the first event strictly after now, or −1 when none is |
| Tracker.FindNext | App.tsx:369 | the loop that scans for the next event finds the same index as the specification |
| Tracker.FirstAfterIsNextIndex | App.tsx:369 | the first event after now, with none before it, is the one `findIndex` returns |
| Tracker.FindEvent | App.tsx:372-373 | `find` returns the first matching event, or none matches |
| Tracker.Element | App.tsx:377-382 | indexing is defined exactly within bounds and returns that element |
| Tracker.ActiveNext | App.tsx:365-385 | there is a next event exactly when the schedule is non-empty; the events picked come from the schedule |
| Tracker.ActiveNextBrackets | App.tsx:369-382 | within the day's span, the active event is the latest one not after now and the next is the earliest one after now |
| Tracker.BeforeFirst | App.tsx:377-382 | before the first event the next is the first and the active is the second-to-last |
| Tracker.AfterLast | App.tsx:372-375 | after the last event the next is tomorrow's dawn (else the last event) and the active is today's isha (else the second-to-last event) |
| Tracker.WraparoundIsMidnight | App.tsx:270-289 | before the day's first event, the midpoint is the active event |
| Tracker.TimeToNext | App.tsx:387-390 | the countdown is the time left to the next event, never negative |
| Tracker.TimeSinceActive | App.tsx:392-395 | the elapsed time is the time since the active event, never negative |
| Tracker.CountdownPlusElapsed | App.tsx:387-395 | elapsed time plus countdown is the gap between the active and the next event |
| Tracker.CountdownWithinGap | App.tsx:365-395 | on a sorted day, elapsed plus countdown equals the gap around now |
| Tracker.CountdownParts | App.tsx:410-414 | hours, minutes and seconds with minutes and seconds below 60 make up the whole seconds |
| Tracker.CountdownPartsBounds | App.tsx:410-414 | the countdown shown is the time left rounded down to the second |
| Tracker.FormatElapsedReadsBack | App.tsx:456-461 | the elapsed text reads back as the whole minutes elapsed |
| Tracker.WholeMinutes | App.tsx:457-460 | whole hours plus the whole minutes of the remaining part of the hour give the whole minutes |
| Adhan.SoundFor | App.tsx:314-319 | the adhan sound is listed: the prayer's own choice when set, else the global one |
| Adhan.Trigger | App.tsx:300-310 | an event plays exactly when `PRAYER_NAMES` names it, its own switch in `adhanFor` is on, it is due within the last minute and unplayed |
| Adhan.Triggers | App.tsx:300-322 | each adhan started comes from one event's trigger and was not played before |
| Adhan.KeysOf | App.tsx:307 | the recorded keys are exactly the keys of the adhans started |
| Adhan.AdhanTick | App.tsx:293-339 | nothing plays when the adhan is off or there are no events; played keys only grow, by exactly those started |
| Adhan.QualifyingEventPlays | App.tsx:300-322 | every qualifying event starts its adhan and has its key recorded on this tick |
| Adhan.TriggersComplete | App.tsx:300 | every triggering event appears among the adhans started |
| Adhan.AtMostOnce | App.tsx:307-308 | a key played on one tick never plays on a later tick |
| Adhan.SunriseAndMidnight | App.tsx:301-305 | sunrise plays exactly when its own switch is on, it is due and unplayed; the midpoint, which `PRAYER_NAMES` lacks, never starts an adhan |
| Adhan.PrunePlayed | App.tsx:349-360 | pruning only removes keys |
| Adhan.PruneKeepsToday | App.tsx:351-356 | a played key survives the reset exactly when it is dated today |
| Adhan.PruneIdempotent | App.tsx:349-360 | pruning twice is pruning once |
| Notifications.InitialOk | hooks/useNotifications.ts:19-20 | the freshly mounted state keeps the notification invariant |
| Notifications.Send | hooks/useNotifications.ts:42-57 | a notification is shown exactly when permission is granted and a minute has passed; only then does the last time move |
| Notifications.Fire | hooks/useNotifications.ts:99-104 | the key is always recorded; a notification is shown exactly when the key is new, permission granted and the rate limit open, so it is shown only for a new key and a new key is shown whenever the channel is open |
| Notifications.Compose | hooks/useNotifications.ts:42-57 | two steps that each show at most one notification now show at most one together |
| Notifications.ComposePrompt | hooks/useNotifications.ts:42-57 | two steps that each show only newly recorded keys, and show one when the channel is open, do so together |
| Notifications.FireOk | hooks/useNotifications.ts:42-57 | firing keeps notifications a minute apart, each recorded and none repeated |
| Notifications.SuppressedStillRecorded | hooks/useNotifications.ts:101-103 | a notification suppressed by permission or the rate limit still has its key recorded |
| Notifications.PreDueWindow | hooks/useNotifications.ts:63-68 | the pre-adhan fires during the minute when exactly the lead minutes remain |
| Notifications.PreCheck | hooks/useNotifications.ts:60-77 | inert when off or without data; fires only the next event's key when due, and when notifications are on and the lead minutes remain it records that key, showing it when the channel is open |
| Notifications.CheckOne | hooks/useNotifications.ts:92-106 | a prayer fires only when its raw time is due, with its own key; when it is due its key is recorded, and shown when new and the channel is open |
| Notifications.CheckEach | hooks/useNotifications.ts:108-112 | everything shown or newly recorded belongs to a due prayer of the list, and every due prayer's key is recorded; a new key is shown when the channel is open |
| Notifications.PrayerCheck | hooks/useNotifications.ts:80-145 | the adhan and adhkar checks are inert when off and show only due prayers; when on (adhkar also needing its switch) every due prayer's key is recorded |
| Notifications.JumuahCheck | hooks/useNotifications.ts:149-170 | the Friday reminder fires only on Fridays in the minute one hour before noon prayer, and when its switches are on it records the key in that minute |
| Notifications.QiyamCheck | hooks/useNotifications.ts:173-210 | as written: fires only in a minute where `now` opens the last third of the span from today's maghrib to the next date's dawn, both placed relative to `now`'s own day, and with its switches on records every key so due |
| Notifications.QiyamAsWrittenSilent | hooks/useNotifications.ts:185-202 | as written, when maghrib plus twice fajr (minutes of the day) reaches a full day, the check never fires at any instant |
| Notifications.NightQiyamCheck | hooks/useNotifications.ts:173-210 | corrected: fires only in the minute opening the last third of the night `now` belongs to, with that night's maghrib date as key, and records every due night key |
| Notifications.NightOfLastThird | hooks/useNotifications.ts:185-197 | with fajr before maghrib on the clock, an instant opening the last third of the night from day d belongs to night d, whose maghrib is dated d |
| Notifications.NightQiyamFires | hooks/useNotifications.ts:199-206 | the corrected check records the night key in the minute the last third opens, and shows it when new and the channel is open |
| Notifications.QiyamExample | hooks/useNotifications.ts:185-202 | for the night 18:00 to 06:00 the last third opens at 02:00 the next day and not a millisecond earlier; as written nothing fires then, while the corrected check records the night's key |
| Notifications.Tick | hooks/useNotifications.ts:60-210 | one tick of the hook as written, qiyam included: it only adds keys, is inert when off or without data, records every key a check finds due, and shows exactly one notification when a due key is new and the channel is open |
| Notifications.DayChecks | hooks/useNotifications.ts:60-170 | the four daytime checks together only add keys, are inert when off, show at most one notification and only for a new key, and record every key they find due |
| Notifications.NightTick | hooks/useNotifications.ts:60-210 | corrected: the same tick with the night-prayer check of the night `now` belongs to, recording every due key and showing exactly one when a due key is new and the channel is open |
| Notifications.CheckOneOk | hooks/useNotifications.ts:92-106 | a single prayer check keeps the notification invariant |
| Notifications.CheckEachOk | hooks/useNotifications.ts:108-112 | checking a list of prayers keeps the notification invariant |
| Notifications.TickOk | hooks/useNotifications.ts:42-210 | every tick as written keeps notifications a minute apart, recorded and unrepeated |
| Notifications.DayChecksOk | hooks/useNotifications.ts:60-170 | the four daytime checks keep the notification invariant |
| Notifications.NightTickOk | hooks/useNotifications.ts:42-210 | the corrected tick keeps the notification invariant as well |
| Notifications.NightQiyamCheckOk | hooks/useNotifications.ts:173-210 | the corrected night-prayer check keeps the notification invariant |
| Notifications.AtMostOnePerTick | hooks/useNotifications.ts:42-57 | one tick shows at most one notification, whatever falls due |
| Notifications.InertWhenOff | hooks/useNotifications.ts:61 | with notifications off or no data, nothing at all changes |
| Background.PrayerCandidates | public/background.js:226-246 | a prayer without a usable time yields no trigger |
| Background.JumuahCandidate | public/background.js:249-256 | there is one Friday trigger exactly when the switch is on, it is Friday and noon is usable |
| Background.After | public/background.js:258 | exactly the triggers strictly after the given instant are kept |
| Background.UpcomingTriggers | public/background.js:206-259 | the upcoming triggers are exactly the candidates strictly after the instant |
| Background.EachCandidatesExpected | public/background.js:226-246 | every candidate is one the settings call for |
| Background.UpcomingSound | public/background.js:206-259 | every upcoming trigger is later than the instant and expected |
| Background.EachCandidatesComplete | public/background.js:226 | the candidates of each prayer are among those of the whole list |
| Background.InPrayerCandidates | public/background.js:228-246 | an enabled trigger of a usable prayer at its shifted instant is a candidate |
| Background.CandidateComplete | public/background.js:206-256 | every expected trigger is a candidate |
| Background.UpcomingComplete | public/background.js:206-259 | every expected trigger after the instant is upcoming |
| Background.NoSunriseTrigger | public/background.js:218-224 | sunrise never raises a trigger |
| Background.Earliest | public/background.js:100-109 | the earliest instant belongs to a trigger and is not after any |
| Background.FindEarliest | public/background.js:100-109 | the scan finds the earliest instant |
| Background.EarliestUnique | public/background.js:100-109 | any attained lower bound is the earliest instant |
| Background.TomorrowStart | public/background.js:88-98 | tomorrow's midnight is after now |
| Background.AlarmTriggers | public/background.js:88-98 | every trigger considered for the alarm is in the future |
| Background.NextAlarm | public/background.js:75-116 | the alarm is cleared exactly when settings, times or notifications are missing, and is otherwise armed at the earliest future trigger or left alone when none exists |
| Background.TomorrowOnlyWhenTodayDone | public/background.js:88-98 | tomorrow's triggers are consulted only when none are left today |
| Background.PlayAdhan | public/background.js:150-171 | the worker plays a listed sound, the global one when listed, at the set volume or full when zero |
| Background.PlayAdhanIgnoresOverrides | public/background.js:161 | the worker ignores per-prayer sound choices |
| Background.SentFor | public/background.js:132-145 | each notification sent keeps its trigger's key and plays audio exactly for an adhan with the adhan on |
| Background.SendEach | public/background.js:129-145 | everything sent comes from a trigger near now |
| Background.Wake | public/background.js:118-148 | the wake sends nothing without settings, times or notifications |
| Background.SendEachComplete | public/background.js:129-145 | every trigger near now is sent |
| Background.SentOnEveryNearWake | public/background.js:118-148 | a trigger is sent again on each wake within its window, as there is no dedup set |
| Background.SentOnWake | public/background.js:118-148 | an expected trigger near now is sent when the worker wakes |
| Offscreen.StopAudio | public/offscreen.js:27-33 | stopping leaves nothing playing and rewinds and pauses the current audio |
| Offscreen.PlayAudio | public/offscreen.js:15-25 | playing stops the previous audio first and starts the new one at the given volume, or full volume when zero |
| Offscreen.Ended | public/offscreen.js:19-21 | when the audio ends the channel becomes idle |
| Offscreen.HandleOk | public/offscreen.js:4-13 | every message keeps the channel invariant |
| Offscreen.RunOk | public/offscreen.js:4-13 | any sequence of messages from idle keeps the invariant |
| Offscreen.PlayThenStatus | public/offscreen.js:10-18 | right after a play the status reports playing, and zero volume plays at full |
| Offscreen.PlayStopsPrevious | public/offscreen.js:16 | a play pauses and rewinds the audio that was playing |
| Offscreen.StopIdempotent | public/offscreen.js:27-33 | stopping twice is stopping once, and then nothing plays |
| Panel.SetAdjustment | components/AdjustmentPanel.tsx:96-101 | only the chosen prayer's adjustment changes, to the new value |
| Panel.Press | components/AdjustmentPanel.tsx:56-67 | minus and plus move only that prayer's offset by one minute |
| Panel.PressUndo | components/AdjustmentPanel.tsx:56-67 | minus then plus, or plus then minus, restores every offset |
| Panel.PressShiftsTime | components/AdjustmentPanel.tsx:56-67 | one press moves the displayed time by one minute, wrapping around the day |
| Panel.WrapStep | components/AdjustmentPanel.tsx:182-187 | a one-minute step commutes with folding into the day |
| Panel.Mount | components/AdjustmentPanel.tsx:74 | the panel mounts with no test audio playing and the saved volume as the pre-mute level |
| Panel.TestEnded | components/AdjustmentPanel.tsx:116 | the end of the test audio clears it and changes nothing else |
| Panel.PlayTest | components/AdjustmentPanel.tsx:103-127 | the test button stops playing audio, or starts the chosen listed sound, or does nothing for an unknown name |
| Panel.PlayTestToggles | components/AdjustmentPanel.tsx:103-127 | pressing the test button twice returns to the starting state |
| Panel.SetGlobalSound | components/AdjustmentPanel.tsx:139-146 | choosing the global sound stops the test and changes only that setting |
| Panel.SetSpecificSound | components/AdjustmentPanel.tsx:148-161 | "default" removes the prayer's override, any other name sets it; no other prayer is affected |
| Panel.SpecificSoundIsUsed | components/AdjustmentPanel.tsx:148-161 | after a choice the adhan of that prayer plays the chosen sound, or the global one for "default" |
| Panel.MuteToggle | components/AdjustmentPanel.tsx:168-179 | muting saves the volume and sets zero; unmuting restores the saved volume, or 0.1 when none |
| Panel.Unmuted | components/AdjustmentPanel.tsx:176 | the restored volume is positive and is the saved one when there is one |
| Panel.MuteUnmute | components/AdjustmentPanel.tsx:168-179 | muting then unmuting restores the settings |
| Panel.ToggleAdhanFor | components/AdjustmentPanel.tsx:129-137 | the switch flips only that prayer's adhan |
| Panel.ToggleTwice | components/AdjustmentPanel.tsx:129-137 | flipping a switch twice reads back every switch as before, and restores the same object when the key was already written |
| Panel.DisplayedTime | components/AdjustmentPanel.tsx:264-282 | a time is displayed exactly when the raw time parses |
| Panel.DisplayedMatchesAdjusted | components/AdjustmentPanel.tsx:182-190 | in 24-hour mode the panel shows the same text as the adjusted table |
| Panel.TwelveHourReadsBack | components/AdjustmentPanel.tsx:276-280 | in 12-hour mode the panel shows the dial hour and the minute of the adjusted time |
| SettingsForm.TrimAll | components/SettingsPanel.tsx:121 | each piece is trimmed, and the count is unchanged |
| SettingsForm.ParseLocation | components/SettingsPanel.tsx:120-125 | the city is the trimmed text before the first comma, the country is empty without one, and both are trimmed |
| SettingsForm.LocationRoundTrip | components/SettingsPanel.tsx:120-125 | saving the shown `"city, country"` text gives back the same city and country |
| SettingsForm.LocationPieces | components/SettingsPanel.tsx:121 | the shown location splits at its comma into the city and `" " + country` |
| SettingsForm.AgreeSwitchesEach | components/SettingsPanel.tsx:75-117 | form and settings agree on the switches exactly when each of the eleven switches agrees |
| SettingsForm.DisplayDifference | components/SettingsPanel.tsx:77-97 | when the display options disagree, a switch is named that differs |
| SettingsForm.NotificationDifference | components/SettingsPanel.tsx:98-112 | when only notification options disagree, a switch is named that differs |
| SettingsForm.FormOf | components/SettingsPanel.tsx:31-44 | the form is initialised to agree with the settings, location shown as `"city, country"` |
| SettingsForm.AutoSave | components/SettingsPanel.tsx:75-117 | a save happens exactly when some switch or the lead differs; it copies every switch and the lead and touches nothing else |
| SettingsForm.MountSavesNothing | components/SettingsPanel.tsx:75-117 | a freshly initialised form triggers no save |
| SettingsForm.AutoSaveSettles | components/SettingsPanel.tsx:75-117 | after one save, the re-run of the effect saves nothing more |
| SettingsForm.FlipSavesOne | components/SettingsPanel.tsx:75-117 | flipping one switch saves exactly that switch flipped and nothing else |
| SettingsForm.Flip | components/SettingsPanel.tsx:17 | a toggle flips one switch and leaves the rest of the form alone |
| SettingsForm.FlipOthers | components/SettingsPanel.tsx:17 | flipping one switch leaves every other switch alone |
| SettingsForm.ApplyEdit | components/SettingsPanel.tsx:318-321 | only the lead buttons change the lead, to the value pressed |
| SettingsForm.LeadStaysAChoice | components/SettingsPanel.tsx:318-321 | after any edits the lead is still one of 5, 10 or 15 |
| SettingsForm.SaveLocation | components/SettingsPanel.tsx:120-125 | saving the location writes the parsed city and country, method, clock and school, and nothing else |
| SettingsForm.SaveUnchangedForm | components/SettingsPanel.tsx:120-125 | saving an untouched form changes nothing |
| HijriDate.TagsFor | components/DateDisplay.tsx:17-51 | each tag is shown exactly under its own condition, fasting excluded on white days, Ramadan and the Eids, in display order |
| HijriDate.TagsOf | components/DateDisplay.tsx:30-51 | each condition shows its own tag, Eid al-Fitr taking precedence over Eid al-Adha, fasting only on an ordinary Monday or Thursday, in display order |
| HijriDate.TagsExclusive | components/DateDisplay.tsx:20-51 | white days and voluntary fasting never show together, nor do the two Eids |
| HijriDate.AsWrittenTags | components/DateDisplay.tsx:13-28 | as written, Eid al-Adha is never tagged, whatever the label |
| HijriDate.FastingShownOnEidAlAdha | components/DateDisplay.tsx:13-51 | as written, 10 Dhu al-Hijjah on a Monday or Thursday shows voluntary fasting and no Eid |
| HijriDate.DayOfLabel | components/DateDisplay.tsx:13-14 | the day read from the label is its leading numeral |
| HijriDate.MonthOfLabel | components/DateDisplay.tsx:13-15 | the corrected month read from the label is the whole month name, even when it has two words |
| HijriDate.Tags | components/DateDisplay.tsx:13-28 | with the month read whole, Eid al-Adha is tagged exactly on day 10 of Dhu al-Hijjah |
| HijriDate.EidAlAdhaShown | components/DateDisplay.tsx:28 | with the month read correctly, 10 Dhu al-Hijjah shows Eid al-Adha and no fasting |
| HijriDate.LabelTags | components/DateDisplay.tsx:13-51 | the corrected banner's tags are those of the day, month and weekday in the label |
| Grid.JsRem | components/PrayerTimesGrid.tsx:53 | `%` truncates: it agrees with the modulus on non-negatives and is non-positive on negatives |
| Grid.HourOnDial | components/PrayerTimesGrid.tsx:53 | the dial hour is never zero and is the 12-hour hour for non-negative input |
| Grid.Mark | components/PrayerTimesGrid.tsx:54 | the mark is PM exactly for a parsed hour of 12 or more |
| Grid.RenderItem | components/PrayerTimesGrid.tsx:17-93 | a card is empty exactly without a time; it is active exactly when named, shows its switch when the adhan is on with that key's own value, and is verbatim for Duha and in 24-hour mode |
| Grid.Cells | components/PrayerTimesGrid.tsx:95-119 | one cell per name, in order |
| Grid.Render | components/PrayerTimesGrid.tsx:95-119 | nine names are laid out four then five; otherwise one grid, dense beyond six |
| Grid.AtMostOneActive | components/PrayerTimesGrid.tsx:23 | with distinct names at most one card is highlighted |
| Grid.OnAdhanToggle | App.tsx:555-562 | the grid's toggle flips the switch of the card's key, whatever the key, and changes nothing else in the settings |
| Grid.SunriseSwitchPlays | App.tsx:301-305 | after the sunrise card's switch is turned on, its card shows it on and a due, unplayed sunrise starts the adhan |
| Grid.TwelveHourOfFormatted | components/PrayerTimesGrid.tsx:49-58 | an `HH:MM` time is shown as the dial hour, the padded minute and the am/pm mark |
| Grid.TwelveHourOfNumbers | components/PrayerTimesGrid.tsx:49-58 | the 12-hour text depends only on the two numbers read from the time |
| Grid.TwelveHourReadsBack | components/PrayerTimesGrid.tsx:49-58 | the 12-hour text reads back as the dial hour and minute, and with the mark recovers the hour |
| Grid.GridAgreesWithPanel | components/PrayerTimesGrid.tsx:49-58 | the grid and the adjustment panel show the same 12-hour time |
| PrayerCache.SchoolDigit | services/prayerCacheService.ts:16 | the school field is "1" exactly for the Hanafi school |
| PrayerCache.CacheKey | services/prayerCacheService.ts:11-17 | every cache key starts with the cache prefix |
| PrayerCache.GetCachedMonth | services/prayerCacheService.ts:19-31 | a month is found exactly when a readable entry is stored under its key, and then its data is returned |
| PrayerCache.SetCachedMonth | services/prayerCacheService.ts:33-47 | storing adds exactly the month's key and leaves every other entry alone |
| PrayerCache.SameMonthSameKey | services/prayerCacheService.ts:11-17 | two dates of one month share a key |
| PrayerCache.SetThenGet | services/prayerCacheService.ts:19-47 | after storing a month, any date of that month reads it back |
| PrayerCache.SchoolsKeptApart | services/prayerCacheService.ts:16 | the two schools never share a key |
| PrayerCache.KeyFieldsPlain | services/prayerCacheService.ts:16 | the numeric key fields contain no underscore |
| PrayerCache.KeyFieldsReadBack | services/prayerCacheService.ts:11-17 | for names without underscores the key splits back into its six fields |
| PrayerCache.KeyInjective | services/prayerCacheService.ts:11-17 | for names without underscores, equal keys mean the same city, country, method, school, month and year |
| PrayerCache.IntToStringInjective | services/prayerCacheService.ts:16 | distinct integers have distinct decimal texts |
| PrayerCache.OtherMonthsUntouched | services/prayerCacheService.ts:33-47 | storing one month does not change what another month or location reads |
| Mawaqit.FirstWord | services/mawaqitService.ts:45-51 | the first word is a prefix without spaces, cut at the first space |
| Mawaqit.FirstWordOfTimed | services/mawaqitService.ts:45-51 | a time followed by a space and a comment maps to the time alone |
| Mawaqit.MapTimings | services/mawaqitService.ts:44-52 | the seven prayer keys each receive the first word of their API timing |
| Mawaqit.DayNumbers | services/mawaqitService.ts:99 | each day of the month is read with `parseInt` of its Gregorian day |
| Mawaqit.FindFirst | services/mawaqitService.ts:99 | the search returns the first index holding the target, or none holds it |
| Mawaqit.FindDay | services/mawaqitService.ts:98-104 | the day found is the first whose day number is the target, or no day has it |
| Mawaqit.RequestFor | services/mawaqitService.ts:72-76 | the request asks for the 1-based month of the date, its year, and school 1 exactly for Hanafi |
| Mawaqit.DataForDate | services/mawaqitService.ts:66-105 | a cached month is used as is, and otherwise the fetched one; the result is an error of failed fetch exactly when neither exists, and succeeds exactly when that month holds the day, giving its first entry for that day |
| Mawaqit.GetPrayerTimes | services/mawaqitService.ts:59-138 | the result succeeds exactly when today and tomorrow are both found, and then maps their timings; a failure reports the error of a lookup that failed |
| Mawaqit.Merge | services/mawaqitService.ts:108-111 | the combined store holds both writes, the second winning on a shared key |
| Mawaqit.FetchedIsStored | services/mawaqitService.ts:78-93 | a fetched month is stored under its key and reads back |
| Mawaqit.OnlyFailureReported | services/mawaqitService.ts:108-111 | when exactly one of the two lookups fails, its error is the one reported, today's or tomorrow's |
| Mawaqit.BothFoundOk | services/mawaqitService.ts:108-138 | when both months hold their days, the timetable is produced |
| Mawaqit.CachedDay | services/mawaqitService.ts:68 | with the month cached, the network answer is irrelevant |
| Mawaqit.CachedNeedsNoFetch | services/mawaqitService.ts:66-111 | with both months cached, the result does not depend on the network |
| Mawaqit.TomorrowSameMonth | services/mawaqitService.ts:61-68 | when tomorrow is in the same month, today's stored month serves it |
| Mawaqit.MissingDayFails | services/mawaqitService.ts:98-104 | a cached month without today's day reports that day as not found |

## Left out

- Browser and extension services are not modelled: `chrome.storage`, `chrome.alarms`, `chrome.notifications`, runtime messaging, notification clicks and `setupOffscreenDocument`. The stored settings and times are inputs, and alarms and notifications are outputs (`AlarmAction`, `Sent`).
- The routing of stop and status messages between page, worker and offscreen document is not modelled (`background.js` lines 37-58 and 173-178). It only forwards messages.
- The offscreen `GET_STATUS` branch calls a `sendResponse` that the listener never receives as a parameter. Its reply is modelled as the `Offscreen.Playing` predicate, which is the value it would send.
- The clock is the parameter `now`. Every `Date.now()` read within one tick is taken to be that same instant.
- Local `Date` arithmetic is fixed-length days of 86 400 000 ms, days numbered from the epoch, day 0 being a Thursday. Time zones and daylight-saving changes are not modelled. Neither is `getDate()` comparing only the day of the month; it is modelled as a comparison of whole days.
- `Number` and `parseInt` are modelled on decimal digits only. For `Number` (`Text.ParseNat`), signs, white space, exponents and `NaN` values are the `None` branch. `parseInt` (`Text.ParseIntPrefix`) skips leading white space, reads an optional `+` or `-` sign, then the leading digits, and is `None` only when no digit follows. An empty piece (`Number("")` is 0 in JavaScript) is treated as unparsable. The panel's "NaN:NaN" display for an unparsable time is the `None` branch of `Panel.DisplayedTime`.
- `parseInt` without a radix (services/mawaqitService.ts:99, components/DateDisplay.tsx:14) reads a `0x` prefix as hexadecimal; the model reads `"0x10"` as 0 where JavaScript gives 16. Day numbers from the API never carry that prefix.
- `prayerSchedule` reads `schedule[schedule.length - 1]` when placing the midpoint. On an empty list that would throw; the model treats that case as "no previous event". The throw cannot happen when any prayer is usable.
- Adjust.AdjustEntry: a present time that `split(':').map(Number)` cannot read has no entry; App.tsx:190-206 stores "NaN:NaN" from the Invalid Date. The model has no NaN value.
- Adjust.AdjustKeys: drops a key whose present value is unreadable, where App.tsx:206 keeps it as "NaN:NaN".
- Adjust.AdjustedBase: leaves out the "NaN:NaN" entries App.tsx:201-208 stores for unreadable times.
- Adjust.DuhaWindow: is None when sunrise or noon is unreadable, where App.tsx:214-218 builds a window with "NaN:NaN" in it.
- Adjust.WithDuha: sets no Duha entry where App.tsx:218 stores a window containing "NaN:NaN".
- Adjust.MidnightValue: is None when maghrib or tomorrow's fajr is unreadable, where App.tsx:229-233 stores "NaN:NaN".
- Adjust.AdjustedKeys: ties a base key's presence to a readable raw value, so the "NaN:NaN" entries of App.tsx:201-208 are absent.
- Schedule.TodayEvents: leaves out the event App.tsx:260-265 pushes with an Invalid Date for an unreadable time; the comparator at App.tsx:289 then returns NaN and the sorted position of that event is left to the JavaScript engine.
- Mawaqit.OnlyFailureReported: covers one failing lookup only. When both fail, `Promise.all` at services/mawaqitService.ts:108-111 rejects with whichever fails first in time; the model has no timing and reports today's error, and `Mawaqit.GetPrayerTimes` promises only that the error is one of the two.
- Panel.ToggleTwice: a key never written before holds `false` after two flips, where the source had no entry; both read as off, so the promise is per switch and not object equality in that case.
- Notifications.NightQiyamFires: assumes fajr is not after maghrib on the clock and maghrib is a time of the day (below 24:00), as real timetables are.
- Notifications.NightTick: its night-prayer keys are the `QiyamDue` ones, so they carry the same premise.
- Tracker.CountdownParts: takes a `nat`, the already clamped countdown, instead of a possibly negative number.
- Tracker.FormatElapsedReadsBack: takes a `nat`, the already clamped elapsed time.
- The countdown label text, all JSX and styling, themes, fonts, the analog clock and the header are not modelled.
- Notification titles and bodies are not modelled. Only their keys and instants are.
- The settings panel's `?? default` fallbacks for fields missing from old stored settings are not modelled; every settings field is present.
- The calculation-method selector, theme buttons and geolocation lookup of the settings panel are not modelled. They call the network or only set one field.
- Persisting settings and adjustments to `localStorage`, and the effect that reapplies the volume to audio already playing, are not modelled.
- The global adhan switch and the volume slider of the adjustment panel are not modelled. Each sets one field.
- `requestPermission` is the `granted` parameter.
- `fetch` and the API are the `fetched` parameters. A failed request and an unsuccessful response are both `None`.
- JSON parsing of a cached month is abstract. A stored entry is readable data, unparsable text or empty text.
- The two cache writes of `Promise.all` are combined with `Mawaqit.Merge` in a fixed order: tomorrow's write wins on a shared key. The source does not order them, and on a shared key both write the same month.
- `toLocaleDateString` is the `gregorianLabel` parameter.
- `cleanupOldCaches` has an empty body and is not modelled.
- Real numbers model the volume. The browser's clamping of audio volume to 0..1 is not modelled.

## Findings

| source | as written | input that shows it | evidently intended | confidence | as-written member | corrected member |
|---|---|---|---|---|---|---|
| components/DateDisplay.tsx:15 | the month is `hijri.split(' ')[1]`, only the first word of the month name, so the two-word "ذو الحجة" reads as "ذو" and the Eid al-Adha test on line 28 never matches; on 10 Dhu al-Hijjah on a Monday or Thursday the banner shows voluntary fasting instead of the Eid | label "10 ذو الحجة 1446 هـ" on a Monday | the month is the whole name between the day and the year, so the Eid is tagged and fasting is not | not executed | HijriDate.FastingShownOnEidAlAdha | HijriDate.Tags |
| hooks/useNotifications.ts:185-190 | maghrib is set on `now`'s own day and dawn on the day after it, so after midnight both anchors have already moved on by a day; whenever maghrib plus twice fajr (in minutes of the day) is 1440 or more, the last third of the night starts after midnight and the reminder never fires | maghrib "18:00", fajr "06:00", at 02:00: the window computed then starts at 02:00 of the following day | after midnight and before dawn the night is the one that began at the previous day's maghrib (the comment at line 192), so the reminder fires at the start of that night's last third | not executed | Notifications.QiyamAsWrittenSilent | Notifications.NightTick |

=== FILE: adhan.dfy ===
/**
 * The foreground adhan trigger of App.tsx: on each tick, every event of the
 * schedule that `PRAYER_NAMES` names and whose key's switch in `adhanFor` is
 * on (sunrise too, once its card's switch has been turned on), whose instant
 * passed less than a minute ago and whose key has not been played starts the
 * adhan once; the played keys are pruned to today's when new prayer data arrives.
 */
module Adhan {
  import opened Wrappers
  import opened Clock
  import opened Prayers

  /**
   * The dedup key `${name}-${time.toDateString()}`: the event's display name and
   * its day (the date string is one-to-one with the day).
   */
  datatype Key = Key(name: string, day: int)

  function KeyOf(e: Event): Key
  {
    Key(e.name, DayOf(e.time))
  }

  /** One adhan started: its key, the sound and the volume it plays at. */
  datatype Play = Play(key: Key, sound: Sound, volume: real)

  /**
   * The sound of a prayer: its own override when set to a non-empty name,
   * otherwise the global sound; an unknown name plays the first sound.
   */
  function SoundFor(settings: Settings, k: PrayerKey): (s: Sound)
    ensures s in AdhanSounds
    ensures k in settings.adhanSounds && settings.adhanSounds[k] != "" && FindSound(settings.adhanSounds[k]).Some? ==>
              s.name == settings.adhanSounds[k]
    ensures (k !in settings.adhanSounds || settings.adhanSounds[k] == "") && FindSound(settings.adhanSound).Some? ==>
              s.name == settings.adhanSound
  {
    var name := if k in settings.adhanSounds && settings.adhanSounds[k] != "" then settings.adhanSounds[k] else settings.adhanSound;
    SoundOrFirst(name)
  }

  /** The window test: the event's instant has passed, by less than a minute. */
  predicate InWindow(t: int, now: int)
  {
    t <= now < t + MinuteMs
  }

  /**
   * What one event triggers on this tick against the played set of the
   * previous render: nothing, or one adhan.
   */
  function Trigger(settings: Settings, e: Event, now: int, played: set<Key>): (r: Option<Play>)
    ensures r.Some? <==>
              (FindByAr(e.name).Some? && settings.adhanFor.Get(FindByAr(e.name).value.key) &&
               InWindow(e.time, now) && KeyOf(e) !in played)
    ensures r.Some? ==> r.value.key == KeyOf(e) && r.value.volume == settings.volume
    ensures r.Some? ==> r.value.sound == SoundFor(settings, FindByAr(e.name).value.key)
  {
    match FindByAr(e.name)
    case None => None
    case Some(p) =>
      if settings.adhanFor.Get(p.key) && InWindow(e.time, now) && KeyOf(e) !in played then
        Some(Play(KeyOf(e), SoundFor(settings, p.key), settings.volume))
      else None
  }

  /** The triggers of the events in order. */
  function Triggers(settings: Settings, s: seq<Event>, now: int, played: set<Key>): (r: seq<Play>)
    ensures |r| <= |s|
    ensures forall i :: 0 <= i < |r| ==> r[i].key !in played
    ensures forall i :: 0 <= i < |r| ==> exists j :: 0 <= j < |s| && Trigger(settings, s[j], now, played) == Some(r[i])
  {
    if |s| == 0 then []
    else
      var rest := Triggers(settings, s[1..], now, played);
      assert forall i :: 0 <= i < |rest| ==> exists j :: 0 <= j < |s| && Trigger(settings, s[j], now, played) == Some(rest[i]) by {
        forall i | 0 <= i < |rest|
          ensures exists j :: 0 <= j < |s| && Trigger(settings, s[j], now, played) == Some(rest[i])
        {
          var j :| 0 <= j < |s[1..]| && Trigger(settings, s[1..][j], now, played) == Some(rest[i]);
          assert s[j + 1] == s[1..][j];
        }
      }
      match Trigger(settings, s[0], now, played)
      case Some(p) => [p] + rest
      case None => rest
  }

  function KeysOf(plays: seq<Play>): (ks: set<Key>)
    ensures forall i :: 0 <= i < |plays| ==> plays[i].key in ks
    ensures forall k :: k in ks ==> exists i :: 0 <= i < |plays| && plays[i].key == k
  {
    set i | 0 <= i < |plays| :: plays[i].key
  }

  /**
   * The adhan effect on one tick: nothing when the adhan is off or the
   * schedule is empty; otherwise the adhans started and the played set with
   * their keys added.
   */
  function AdhanTick(settings: Settings, s: seq<Event>, now: int, played: set<Key>): (r: (seq<Play>, set<Key>))
    ensures played <= r.1
    ensures !settings.isAdhanEnabled || |s| == 0 ==> r.0 == [] && r.1 == played
    ensures forall i :: 0 <= i < |r.0| ==> r.0[i].key !in played && r.0[i].key in r.1
    ensures forall k :: k in r.1 && k !in played ==> exists i :: 0 <= i < |r.0| && r.0[i].key == k
    ensures forall i :: 0 <= i < |r.0| ==> exists j :: 0 <= j < |s| && Trigger(settings, s[j], now, played) == Some(r.0[i])
  {
    if !settings.isAdhanEnabled || |s| == 0 then ([], played)
    else
      var plays := Triggers(settings, s, now, played);
      (plays, played + KeysOf(plays))
  }

  /**
   * With the adhan on, every event of an enabled prayer that is due and whose
   * key is unplayed starts its adhan on this tick and has its key recorded.
   */
  lemma {:induction false} QualifyingEventPlays(settings: Settings, s: seq<Event>, now: int, played: set<Key>, j: int)
    requires settings.isAdhanEnabled && 0 <= j < |s|
    requires FindByAr(s[j].name).Some? && settings.adhanFor.Get(FindByAr(s[j].name).value.key)
    requires InWindow(s[j].time, now) && KeyOf(s[j]) !in played
    ensures Play(KeyOf(s[j]), SoundFor(settings, FindByAr(s[j].name).value.key), settings.volume)
            in AdhanTick(settings, s, now, played).0
    ensures KeyOf(s[j]) in AdhanTick(settings, s, now, played).1
  {
    TriggersComplete(settings, s, now, played);
  }

  /** Every event that qualifies has its adhan among the triggers. */
  lemma {:induction false} TriggersComplete(settings: Settings, s: seq<Event>, now: int, played: set<Key>)
    ensures forall j :: 0 <= j < |s| && Trigger(settings, s[j], now, played).Some? ==>
              Trigger(settings, s[j], now, played).value in Triggers(settings, s, now, played)
  {
    if |s| > 0 {
      TriggersComplete(settings, s[1..], now, played);
      forall j | 0 <= j < |s| && Trigger(settings, s[j], now, played).Some?
        ensures Trigger(settings, s[j], now, played).value in Triggers(settings, s, now, played)
      {
        if j > 0 {
          assert s[j] == s[1..][j - 1];
        }
      }
    }
  }

  /** Once played, a key never plays again: the next tick sees it in the played set. */
  lemma AtMostOnce(settings: Settings, s: seq<Event>, now: int, played: set<Key>, s': seq<Event>, later: int)
    ensures var r := AdhanTick(settings, s, now, played);
      var r' := AdhanTick(settings, s', later, r.1);
      forall i, k :: 0 <= i < |r.0| && 0 <= k < |r'.0| ==> r'.0[k].key != r.0[i].key
  {
  }

  /**
   * Sunrise starts an adhan exactly when its switch is on (only the grid's
   * toggle can turn it on); the night midpoint never does, having no entry in
   * the names table.
   */
  lemma {:induction false} SunriseAndMidnight(settings: Settings, now: int, played: set<Key>, t: int)
    ensures Trigger(settings, Event(ShourouqAr, t), now, played).Some? <==>
              settings.adhanFor.Get(Shourouq) && InWindow(t, now) && KeyOf(Event(ShourouqAr, t)) !in played
    ensures Trigger(settings, Event(MidnightAr, t), now, played).None?
  {
    assert PrayerNames[1].ar == ShourouqAr;
    assert FindByAr(ShourouqAr) == Some(PrayerNames[1]) by {
      assert PrayerNames[0].ar != ShourouqAr;
    }
    assert forall i :: 0 <= i < |PrayerNames| ==> PrayerNames[i].ar != MidnightAr;
  }

  /**
   * The reset on new prayer data: only the keys dated today survive.
   */
  function PrunePlayed(played: set<Key>, today: int): (r: set<Key>)
    ensures r <= played
  {
    set k | k in played && k.day == today
  }

  /** Pruning keeps today's keys, so an adhan already played today does not play again after a reload. */
  lemma PruneKeepsToday(played: set<Key>, today: int, k: Key)
    requires k in played
    ensures k in PrunePlayed(played, today) <==> k.day == today
  {
  }

  /** Pruning twice is pruning once. */
  lemma PruneIdempotent(played: set<Key>, today: int)
    ensures PrunePlayed(PrunePlayed(played, today), today) == PrunePlayed(played, today)
  {
  }
}

=== FILE: adjust.dfy ===
/**
 * The adjusted prayer-time table (`adjustedPrayersToday` in App.tsx): every
 * raw "HH:MM" value moved by its per-prayer minute offset, plus the derived
 * Duha window and night midpoint.
 */
module Adjust {
  import opened Wrappers
  import opened Text
  import opened Clock
  import opened Prayers

  /** A minute count wrapped into one day. */
  function Wrap(x: int): (w: int)
    ensures 0 <= w < MinutesPerDay
  {
    x % MinutesPerDay
  }

  /** The adjusted minute of the day of a usable raw entry. */
  function Shifted(t: Times, adj: Adjustments, k: PrayerKey): (x: int)
    requires Raw(t, k).Some?
    ensures 0 <= x < MinutesPerDay
  {
    Wrap(Minutes(Raw(t, k).value, Offset(adj, k)))
  }

  /**
   * One adjusted entry: `formatHHMM(createDateFromHHMM(raw, today, offset))`.
   * The result is the offset-shifted minute count wrapped to one day.
   */
  function AdjustEntry(raw: string, today: int, offset: int): (r: Option<string>)
    ensures r.Some? <==> ParseHM(raw).Some?
    ensures r.Some? ==> r.value == FormatMinuteOfDay(Wrap(Minutes(ParseHM(raw).value, offset)))
  {
    match ParseHM(raw)
    case None => None
    case Some(hm) =>
      MinuteOfDayAt(today, hm, offset);
      Some(FormatHHMM(At(today, hm, offset)))
  }

  /** A canonical "HH:MM" value parses back to its minute of the day, here moved by `o`. */
  lemma {:induction false} MinutesOfFormatted(x: int, o: int)
    requires 0 <= x < MinutesPerDay
    ensures ParseHM(FormatMinuteOfDay(x)).Some?
    ensures Minutes(ParseHM(FormatMinuteOfDay(x)).value, o) == x + o
  {
    ParseFormatted(x);
  }

  /** Adjusting a canonical "HH:MM" value by `o` formats the shifted, wrapped minute `y`. */
  lemma {:induction false} AdjustFormatted(x: int, today: int, o: int, y: int)
    requires 0 <= x < MinutesPerDay
    requires y == Wrap(x + o)
    ensures AdjustEntry(FormatMinuteOfDay(x), today, o) == Some(FormatMinuteOfDay(y))
  {
    MinutesOfFormatted(x, o);
  }

  /** Adjusting by `o` and then by `-o` gives back a canonical "HH:MM" value. */
  lemma {:induction false} AdjustInverse(x: int, today: int, o: int)
    requires 0 <= x < MinutesPerDay
    ensures AdjustEntry(FormatMinuteOfDay(x), today, o).Some?
    ensures AdjustEntry(AdjustEntry(FormatMinuteOfDay(x), today, o).value, today, -o)
         == Some(FormatMinuteOfDay(x))
  {
    AdjustFormatted(x, today, o, Wrap(x + o));
    AdjustShiftedBack(x, today, o);
  }

  /** Adjusting the shifted value by `-o` gives the canonical original. */
  lemma AdjustShiftedBack(x: int, today: int, o: int)
    requires 0 <= x < MinutesPerDay
    ensures AdjustEntry(FormatMinuteOfDay(Wrap(x + o)), today, -o) == Some(FormatMinuteOfDay(x))
  {
    ModShiftBack(x, o);
    AdjustFormatted(Wrap(x + o), today, -o, x);
  }

  lemma ModShiftBack(x: int, o: int)
    requires 0 <= x < MinutesPerDay
    ensures Wrap(Wrap(x + o) + -o) == x
  {
    var q := (x + o) / MinutesPerDay;
    assert (x + o) % MinutesPerDay - o == x - MinutesPerDay * q;
    DivModUnique(x - MinutesPerDay * q, MinutesPerDay, -q, x);
  }

  /** Every key a prayer-time table can carry. */
  const AllKeys: seq<PrayerKey> := [Imsak, Fajr, Shourouq, Dhuhr, Asr, Maghrib, Isha, Duha, Midnight]

  lemma AllKeysComplete(k: PrayerKey)
    ensures k in AllKeys
  {
  }

  /**
   * The `forEach` over the raw table's keys: each key in `keys` whose raw
   * value is present and well-formed gets its shifted value.
   */
  function AdjustKeys(raw: Times, keys: seq<PrayerKey>, today: int, adj: Adjustments): (r: Times)
    ensures forall k :: k in r <==> k in keys && Raw(raw, k).Some?
    ensures forall k :: k in r ==> r[k] == FormatMinuteOfDay(Shifted(raw, adj, k))
  {
    if |keys| == 0 then map[]
    else
      var rest := AdjustKeys(raw, keys[1..], today, adj);
      var k := keys[0];
      if Present(raw, k) then
        match AdjustEntry(raw[k], today, Offset(adj, k))
        case Some(v) => rest[k := v]
        case None => rest
      else rest
  }

  /** The table of adjusted base entries: every present, well-formed raw value, shifted. */
  function AdjustedBase(raw: Times, today: int, adj: Adjustments): (r: Times)
    ensures forall k :: k in r <==> Raw(raw, k).Some?
    ensures forall k :: k in r ==> r[k] == FormatMinuteOfDay(Shifted(raw, adj, k))
  {
    var r := AdjustKeys(raw, AllKeys, today, adj);
    assert forall k :: k in AllKeys by {
      forall k {
        AllKeysComplete(k);
      }
    }
    r
  }

  /** The text "start - end" of a window between two minutes of the day. */
  function WindowText(start: int, end: int): string
    requires 0 <= start < MinutesPerDay && 0 <= end < MinutesPerDay
  {
    FormatMinuteOfDay(start) + " - " + FormatMinuteOfDay(end)
  }

  /** The Duha window text for a sunrise and a noon minute: 15 minutes after to 10 minutes before. */
  function DuhaText(sunrise: int, noon: int): string
  {
    WindowText(Wrap(sunrise + 15), Wrap(noon - 10))
  }

  /**
   * The Duha window "start - end": 15 minutes after the adjusted sunrise to
   * 10 minutes before the adjusted noon prayer.
   */
  function DuhaWindow(shourouq: string, dhuhr: string, today: int): (r: Option<string>)
    ensures r.Some? <==> ParseHM(shourouq).Some? && ParseHM(dhuhr).Some?
    ensures r.Some? ==>
      r.value == WindowText(Wrap(Minutes(ParseHM(shourouq).value, 15)), Wrap(Minutes(ParseHM(dhuhr).value, -10)))
  {
    match (ParseHM(shourouq), ParseHM(dhuhr))
    case (Some(s), Some(d)) =>
      var start := At(today, s, 0) + 15 * MinuteMs;
      var end := At(today, d, 0) - 10 * MinuteMs;
      assert start == At(today, s, 15);
      assert end == At(today, d, -10);
      MinuteOfDayAt(today, s, 15);
      MinuteOfDayAt(today, d, -10);
      Some(FormatHHMM(start) + " - " + FormatHHMM(end))
    case _ => None
  }

  /**
   * The night midpoint instant: adjusted sunset today plus half the span to
   * tomorrow's adjusted dawn. The span is a whole number of minutes, so the
   * halving is exact.
   */
  function MidpointInstant(maghrib: HM, maghribOffset: int, fajr: HM, fajrOffset: int, today: int): (mid: int)
    ensures 2 * (mid - At(today, maghrib, maghribOffset)) == At(today + 1, fajr, fajrOffset) - At(today, maghrib, maghribOffset)
    ensures At(today, maghrib, maghribOffset) <= At(today + 1, fajr, fajrOffset) ==>
      At(today, maghrib, maghribOffset) <= mid <= At(today + 1, fajr, fajrOffset)
  {
    var m := At(today, maghrib, maghribOffset);
    var f := At(today + 1, fajr, fajrOffset);
    var span := f - m;
    assert span == 2 * ((Minutes(fajr, fajrOffset) + MinutesPerDay - Minutes(maghrib, maghribOffset)) * 30_000);
    m + span / 2
  }

  /** `adjusted.midnight`: the midpoint's clock time, when both raw inputs are usable. */
  function MidnightValue(data: PrayerData, adj: Adjustments, today: int): (r: Option<string>)
    ensures r.Some? <==> Raw(data.today, Maghrib).Some? && Raw(data.tomorrow, Fajr).Some?
  {
    match (Raw(data.today, Maghrib), Raw(data.tomorrow, Fajr))
    case (Some(m), Some(f)) =>
      Some(FormatHHMM(MidpointInstant(m, Offset(adj, Maghrib), f, Offset(adj, Fajr), today)))
    case _ => None
  }

  /** Two tables agree on every key other than `k`. */
  predicate AgreeExcept(a: Times, b: Times, k: PrayerKey)
  {
    forall j :: j != k ==> (j in a <==> j in b) && (j in a ==> a[j] == b[j])
  }

  /**
   * The Duha step: when shown and both adjusted inputs are set, the window
   * computed from them is stored under Duha; nothing else changes.
   */
  function WithDuha(base: Times, showDuha: bool, today: int): (r: Times)
    ensures AgreeExcept(r, base, Duha)
    ensures Duha in r <==>
      (Duha in base ||
       (showDuha && Present(base, Shourouq) && Present(base, Dhuhr) && DuhaWindow(base[Shourouq], base[Dhuhr], today).Some?))
  {
    if showDuha && Present(base, Shourouq) && Present(base, Dhuhr) then
      match DuhaWindow(base[Shourouq], base[Dhuhr], today)
      case Some(w) => base[Duha := w]
      case None => base
    else base
  }

  /**
   * The midnight step: when shown and the raw sunset and tomorrow's dawn are
   * usable, the midpoint is stored under Midnight; nothing else changes.
   */
  function WithMidnight(t: Times, data: PrayerData, adj: Adjustments, showMidnight: bool, today: int): (r: Times)
    ensures AgreeExcept(r, t, Midnight)
    ensures Midnight in r <==> Midnight in t || (showMidnight && MidnightValue(data, adj, today).Some?)
    ensures showMidnight && MidnightValue(data, adj, today).Some? ==> r[Midnight] == MidnightValue(data, adj, today).value
  {
    if showMidnight then
      match MidnightValue(data, adj, today)
      case Some(mid) => t[Midnight := mid]
      case None => t
    else t
  }

  /**
   * `adjustedPrayersToday`: the adjusted base table, then Duha (when shown and
   * both adjusted inputs exist), then the night midpoint (when shown and the
   * raw sunset and tomorrow's dawn exist). No data gives an empty table.
   */
  function AdjustedPrayersToday(data: Option<PrayerData>, adj: Adjustments, showDuha: bool,
                                showMidnight: bool, today: int): (r: Times)
    ensures data.None? ==> r == map[]
  {
    match data
    case None => map[]
    case Some(d) =>
      WithMidnight(WithDuha(AdjustedBase(d.today, today, adj), showDuha, today), d, adj, showMidnight, today)
  }

  /**
   * Every key other than Duha and Midnight holds exactly the adjusted base
   * value: present iff the raw value parses, and then the shifted, wrapped time.
   */
  lemma {:induction false} AdjustedKeys(data: PrayerData, adj: Adjustments, showDuha: bool, showMidnight: bool,
                                        today: int, k: PrayerKey)
    requires k != Duha && k != Midnight
    ensures var r := AdjustedPrayersToday(Some(data), adj, showDuha, showMidnight, today);
      (k in r <==> Raw(data.today, k).Some?) &&
      (k in r ==> r[k] == FormatMinuteOfDay(Shifted(data.today, adj, k)))
  {
    var base := AdjustedBase(data.today, today, adj);
    var w := WithDuha(base, showDuha, today);
    var r := WithMidnight(w, data, adj, showMidnight, today);
    assert AgreeExcept(w, base, Duha);
    assert AgreeExcept(r, w, Midnight);
  }

  /** Midnight is set when shown and computable, and otherwise only if the raw table had one. */
  lemma {:induction false} AdjustedMidnight(data: PrayerData, adj: Adjustments, showDuha: bool, showMidnight: bool, today: int)
    ensures var r := AdjustedPrayersToday(Some(data), adj, showDuha, showMidnight, today);
      Midnight in r <==>
        (Raw(data.today, Midnight).Some? ||
         (showMidnight && Raw(data.today, Maghrib).Some? && Raw(data.tomorrow, Fajr).Some?))
  {
    var base := AdjustedBase(data.today, today, adj);
    var w := WithDuha(base, showDuha, today);
    assert AgreeExcept(w, base, Duha);
    assert Midnight in w <==> Midnight in base;
  }

  /** On canonical "HH:MM" inputs the Duha window is "sunrise+15 - noon-10", wrapped to the day. */
  lemma {:induction false} DuhaWindowFormatted(s: int, d: int, today: int)
    requires 0 <= s < MinutesPerDay && 0 <= d < MinutesPerDay
    ensures DuhaWindow(FormatMinuteOfDay(s), FormatMinuteOfDay(d), today) ==
      Some(DuhaText(s, d))
  {
    MinutesOfFormatted(s, 15);
    MinutesOfFormatted(d, -10);
  }

  /** The Duha step on canonical sunrise and noon values stores their window. */
  lemma {:induction false} WithDuhaFormatted(base: Times, s: int, d: int, today: int)
    requires 0 <= s < MinutesPerDay && 0 <= d < MinutesPerDay
    requires Shourouq in base && base[Shourouq] == FormatMinuteOfDay(s)
    requires Dhuhr in base && base[Dhuhr] == FormatMinuteOfDay(d)
    ensures Duha in WithDuha(base, true, today)
    ensures WithDuha(base, true, today)[Duha] == DuhaText(s, d)
  {
    DuhaWindowFormatted(s, d, today);
    assert |base[Shourouq]| >= 1 && |base[Dhuhr]| >= 1;
  }

  /** With both adjusted inputs present and Duha shown, the window is "sunrise+15 - noon-10". */
  lemma {:induction false} DuhaFromAdjusted(data: PrayerData, adj: Adjustments, today: int, showMidnight: bool)
    requires Raw(data.today, Shourouq).Some? && Raw(data.today, Dhuhr).Some?
    ensures Duha in AdjustedPrayersToday(Some(data), adj, true, showMidnight, today)
    ensures AdjustedPrayersToday(Some(data), adj, true, showMidnight, today)[Duha] ==
      DuhaText(Shifted(data.today, adj, Shourouq), Shifted(data.today, adj, Dhuhr))
  {
    var base := AdjustedBase(data.today, today, adj);
    WithDuhaFormatted(base, Shifted(data.today, adj, Shourouq), Shifted(data.today, adj, Dhuhr), today);
    DuhaSurvivesMidnight(data, adj, today, showMidnight);
  }

  /** The midnight step keeps the Duha entry of the Duha step. */
  lemma DuhaSurvivesMidnight(data: PrayerData, adj: Adjustments, today: int, showMidnight: bool)
    requires Duha in WithDuha(AdjustedBase(data.today, today, adj), true, today)
    ensures Duha in AdjustedPrayersToday(Some(data), adj, true, showMidnight, today)
    ensures AdjustedPrayersToday(Some(data), adj, true, showMidnight, today)[Duha] ==
      WithDuha(AdjustedBase(data.today, today, adj), true, today)[Duha]
  {
    var w := WithDuha(AdjustedBase(data.today, today, adj), true, today);
    assert AgreeExcept(WithMidnight(w, data, adj, showMidnight, today), w, Midnight);
  }

  /** Without the Duha switch, or with a missing input, the table has no Duha entry. */
  lemma {:induction false} DuhaOnlyWhenShown(data: PrayerData, adj: Adjustments, showDuha: bool, showMidnight: bool, today: int)
    requires !Present(data.today, Duha)
    requires !showDuha || Raw(data.today, Shourouq).None? || Raw(data.today, Dhuhr).None?
    ensures Duha !in AdjustedPrayersToday(Some(data), adj, showDuha, showMidnight, today)
  {
    var base := AdjustedBase(data.today, today, adj);
    var w := WithDuha(base, showDuha, today);
    var r := WithMidnight(w, data, adj, showMidnight, today);
    assert AgreeExcept(r, w, Midnight);
  }

  /** Sunset 19:00 and tomorrow's dawn 05:00 put the night midpoint at "00:00". */
  lemma MidnightExample(today: int)
    ensures FormatHHMM(MidpointInstant(HM(19, 0), 0, HM(5, 0), 0, today)) == "00:00"
  {
    var mid := MidpointInstant(HM(19, 0), 0, HM(5, 0), 0, today);
    assert mid == DayStart(today + 1);
    DivModUnique(mid, DayMs, today + 1, 0);
    assert MinuteOfDay(mid) == 0;
    assert FormatMinuteOfDay(0) == "00:00";
  }
}

=== FILE: background.dfy ===
/**
 * The background worker of the extension (public/background.js): the list of
 * upcoming notification triggers, the choice of the next alarm, what a wake-up
 * sends, and the adhan audio it asks for. It reads the raw, unadjusted times.
 */
module Background {
  import opened Wrappers
  import opened Clock
  import opened Prayers

  /** The trigger keys: `adhan-name`, `pre-name`, `adhkar-name` and `jumuah`. */
  datatype TKey = AdhanT(name: string) | PreT(name: string) | AdhkarT(name: string) | JumuahT

  /** A trigger: its instant and key (the title and message text are not modelled). */
  datatype Trigger = Trigger(time: int, key: TKey)

  const AdhkarDelayMs: int := 15 * MinuteMs

  /** A prayer's instant: its raw clock time on the calendar day of `from`, seconds zero. */
  function PrayerAt(hm: HM, from: int): int
  {
    At(DayOf(from), hm, 0)
  }

  // ---------------------------------------------------------------------------
  // Enumerating triggers
  // ---------------------------------------------------------------------------

  /** The triggers one prayer contributes, before the `time > fromTime` filter: adhan, pre-adhan, adhkar. */
  function PrayerCandidates(settings: Settings, p: PrayerName, times: Times, from: int): (r: seq<Trigger>)
    ensures Raw(times, p.key).None? ==> r == []
  {
    match Raw(times, p.key)
    case None => []
    case Some(hm) =>
      var t := PrayerAt(hm, from);
      [Trigger(t, AdhanT(p.ar))]
      + (if settings.adhanPreNotification != 0 then [Trigger(t - settings.adhanPreNotification * MinuteMs, PreT(p.ar))] else [])
      + (if settings.showAdhkar then [Trigger(t + AdhkarDelayMs, AdhkarT(p.ar))] else [])
  }

  /** The candidates of each name in turn. */
  function EachCandidates(settings: Settings, names: seq<PrayerName>, times: Times, from: int): seq<Trigger>
  {
    if |names| == 0 then []
    else PrayerCandidates(settings, names[0], times, from) + EachCandidates(settings, names[1..], times, from)
  }

  /** The jumuah reminder: on a Friday with a usable noon time, one hour before it. */
  function JumuahCandidate(settings: Settings, times: Times, from: int): (r: seq<Trigger>)
    ensures |r| <= 1
    ensures |r| == 1 <==> settings.showJumuah && WeekDay(DayOf(from)) == 5 && Raw(times, Dhuhr).Some?
  {
    if settings.showJumuah && WeekDay(DayOf(from)) == 5 && Present(times, Dhuhr) then
      match Raw(times, Dhuhr)
      case Some(hm) => [Trigger(PrayerAt(hm, from) - HourMs, JumuahT)]
      case None => []
    else []
  }

  /** Every trigger `getUpcomingTriggers` considers, in the order it considers them. */
  function Candidates(settings: Settings, times: Times, from: int): seq<Trigger>
  {
    EachCandidates(settings, FivePrayers, times, from) + JumuahCandidate(settings, times, from)
  }

  /** `addTrigger`'s filter: the triggers strictly after `from`, in order. */
  function After(ts: seq<Trigger>, from: int): (r: seq<Trigger>)
    ensures |r| <= |ts|
    ensures forall x :: x in r <==> x in ts && x.time > from
  {
    if |ts| == 0 then []
    else
      var rest := After(ts[1..], from);
      assert forall x :: x in ts <==> x == ts[0] || x in ts[1..];
      if ts[0].time > from then [ts[0]] + rest else rest
  }

  /** `getUpcomingTriggers(settings, prayerTimes, fromTime)`. */
  function UpcomingTriggers(settings: Settings, times: Times, from: int): (r: seq<Trigger>)
    ensures forall x :: x in r <==> x in Candidates(settings, times, from) && x.time > from
  {
    After(Candidates(settings, times, from), from)
  }

  /** Whether a per-prayer trigger kind is switched on: the pre-adhan needs a lead, the adhkar its switch. */
  predicate Enabled(settings: Settings, k: TKey)
  {
    match k
    case AdhanT(_) => true
    case PreT(_) => settings.adhanPreNotification != 0
    case AdhkarT(_) => settings.showAdhkar
    case JumuahT => settings.showJumuah
  }

  /** How far a per-prayer trigger lies from the prayer's instant. */
  function Shift(settings: Settings, k: TKey): int
  {
    match k
    case AdhanT(_) => 0
    case PreT(_) => -settings.adhanPreNotification * MinuteMs
    case AdhkarT(_) => AdhkarDelayMs
    case JumuahT => -HourMs
  }

  /**
   * What a trigger can be: for an obligatory prayer with a usable raw time,
   * its adhan at the prayer's instant, its pre-adhan `lead` minutes earlier
   * when the lead is set, its adhkar 15 minutes later when adhkar is on; the
   * jumuah reminder on a Friday an hour before noon.
   */
  predicate Expected(settings: Settings, times: Times, from: int, x: Trigger)
  {
    Enabled(settings, x.key) &&
    match x.key
    case JumuahT =>
      WeekDay(DayOf(from)) == 5 && Raw(times, Dhuhr).Some? &&
      x.time == PrayerAt(Raw(times, Dhuhr).value, from) + Shift(settings, x.key)
    case _ => PrayerTrigger(times, from, x.key.name, x.time, Shift(settings, x.key))
  }

  /** `name` is one of the five prayers, with a usable time, and `t` is its instant moved by `shift`. */
  predicate PrayerTrigger(times: Times, from: int, name: string, t: int, shift: int)
  {
    exists i :: 0 <= i < |FivePrayers| && FivePrayers[i].ar == name && Raw(times, FivePrayers[i].key).Some? &&
      t == PrayerAt(Raw(times, FivePrayers[i].key).value, from) + shift
  }

  /** Each candidate of the named prayers is an expected trigger. */
  lemma {:induction false} EachCandidatesExpected(settings: Settings, names: seq<PrayerName>, times: Times, from: int)
    requires forall i :: 0 <= i < |names| ==> names[i] in FivePrayers
    ensures forall x :: x in EachCandidates(settings, names, times, from) ==> Expected(settings, times, from, x)
    decreases |names|
  {
    if |names| > 0 {
      EachCandidatesExpected(settings, names[1..], times, from);
      var p := names[0];
      var i :| 0 <= i < |FivePrayers| && FivePrayers[i] == p;
      forall x | x in PrayerCandidates(settings, p, times, from)
        ensures Expected(settings, times, from, x)
      {
        assert FivePrayers[i].ar == p.ar;
      }
    }
  }

  /** Every upcoming trigger is an expected one, strictly after `from`; sunrise never has one. */
  lemma UpcomingSound(settings: Settings, times: Times, from: int)
    ensures forall x :: x in UpcomingTriggers(settings, times, from) ==> x.time > from && Expected(settings, times, from, x)
  {
    EachCandidatesExpected(settings, FivePrayers, times, from);
  }

  /** Each named prayer with a usable time contributes all of its candidates. */
  lemma {:induction false} EachCandidatesComplete(settings: Settings, names: seq<PrayerName>, times: Times, from: int, j: int)
    requires 0 <= j < |names|
    ensures forall x :: x in PrayerCandidates(settings, names[j], times, from) ==> x in EachCandidates(settings, names, times, from)
    decreases |names|
  {
    if j > 0 {
      EachCandidatesComplete(settings, names[1..], times, from, j - 1);
      assert names[1..][j - 1] == names[j];
    }
  }

  /** A switched-on trigger of a prayer with a usable time is among that prayer's candidates. */
  lemma InPrayerCandidates(settings: Settings, p: PrayerName, times: Times, from: int, x: Trigger)
    requires !x.key.JumuahT? && x.key.name == p.ar && Enabled(settings, x.key)
    requires Raw(times, p.key).Some? && x.time == PrayerAt(Raw(times, p.key).value, from) + Shift(settings, x.key)
    ensures x in PrayerCandidates(settings, p, times, from)
  {
  }

  /** Every expected trigger is a candidate. */
  lemma CandidateComplete(settings: Settings, times: Times, from: int, x: Trigger)
    requires Expected(settings, times, from, x)
    ensures x in Candidates(settings, times, from)
  {
    if x.key.JumuahT? {
      assert JumuahCandidate(settings, times, from) == [x];
    } else {
      var i :| 0 <= i < |FivePrayers| && FivePrayers[i].ar == x.key.name && Raw(times, FivePrayers[i].key).Some? &&
        x.time == PrayerAt(Raw(times, FivePrayers[i].key).value, from) + Shift(settings, x.key);
      InPrayerCandidates(settings, FivePrayers[i], times, from, x);
      EachCandidatesComplete(settings, FivePrayers, times, from, i);
    }
  }

  /**
   * Every expected trigger strictly after `from` is upcoming: with the
   * soundness lemma, the upcoming list is exactly the expected triggers after `from`.
   */
  lemma UpcomingComplete(settings: Settings, times: Times, from: int, x: Trigger)
    requires Expected(settings, times, from, x) && x.time > from
    ensures x in UpcomingTriggers(settings, times, from)
  {
    CandidateComplete(settings, times, from, x);
  }

  /** Sunrise is not among the five prayers, so no trigger ever names it. */
  lemma NoSunriseTrigger(settings: Settings, times: Times, from: int)
    ensures forall x :: x in UpcomingTriggers(settings, times, from) ==> !x.key.JumuahT? ==> x.key.name != ShourouqAr
  {
    UpcomingSound(settings, times, from);
  }

  // ---------------------------------------------------------------------------
  // The next alarm
  // ---------------------------------------------------------------------------

  /** The earliest instant of a non-empty trigger list (the head after the sort by time). */
  function Earliest(ts: seq<Trigger>): (t: int)
    requires |ts| > 0
    ensures exists i :: 0 <= i < |ts| && ts[i].time == t
    ensures forall i :: 0 <= i < |ts| ==> t <= ts[i].time
  {
    if |ts| == 1 then ts[0].time
    else
      var m := Earliest(ts[1..]);
      assert forall i :: 1 <= i < |ts| ==> ts[1..][i - 1] == ts[i];
      if ts[0].time <= m then ts[0].time else m
  }

  /**
   * The same minimum as a scan over the list, as the sort followed by taking
   * the first element computes it.
   */
  method FindEarliest(ts: seq<Trigger>) returns (t: int)
    requires |ts| > 0
    ensures t == Earliest(ts)
  {
    t := ts[0].time;
    var i := 1;
    var at := 0;
    while i < |ts|
      invariant 1 <= i <= |ts|
      invariant 0 <= at < i && ts[at].time == t
      invariant forall j :: 0 <= j < i ==> t <= ts[j].time
    {
      if ts[i].time < t {
        t := ts[i].time;
        at := i;
      }
      i := i + 1;
    }
    EarliestUnique(ts, t, at);
  }

  /** A time that is in the list and at or below every entry is the earliest one. */
  lemma EarliestUnique(ts: seq<Trigger>, t: int, at: int)
    requires 0 <= at < |ts| && ts[at].time == t
    requires forall j :: 0 <= j < |ts| ==> t <= ts[j].time
    ensures Earliest(ts) == t
  {
  }

  /** What `scheduleNextAlarm` does to the alarm. */
  datatype AlarmAction = ClearAlarm | Arm(when: int) | KeepAlarm

  /** The instant the enumeration of tomorrow starts from: tomorrow at 00:00. */
  function TomorrowStart(now: int): (t: int)
    ensures now < t
  {
    DayStart(DayOf(now) + 1)
  }

  /** The triggers the alarm is chosen from: today's, or tomorrow's from its midnight when today has none left. */
  function AlarmTriggers(settings: Settings, today: Times, tomorrow: Option<Times>, now: int): (r: seq<Trigger>)
    ensures forall i :: 0 <= i < |r| ==> r[i].time > now
  {
    var ts := UpcomingTriggers(settings, today, now);
    if |ts| == 0 && tomorrow.Some? then
      var ts' := UpcomingTriggers(settings, tomorrow.value, TomorrowStart(now));
      assert forall i :: 0 <= i < |ts'| ==> ts'[i] in ts';
      ts'
    else
      assert forall i :: 0 <= i < |ts| ==> ts[i] in ts;
      ts
  }

  /**
   * `scheduleNextAlarm`: cleared when settings or today's times are missing or
   * notifications are off; otherwise armed at the earliest trigger; left as it
   * is when there is none.
   */
  function NextAlarm(settings: Option<Settings>, today: Option<Times>, tomorrow: Option<Times>, now: int): (r: AlarmAction)
    ensures r.ClearAlarm? <==> settings.None? || today.None? || !settings.value.desktopNotifications
    ensures r.Arm? ==> r.when > now
    ensures r.Arm? ==> exists i :: 0 <= i < |AlarmTriggers(settings.value, today.value, tomorrow, now)| &&
                         AlarmTriggers(settings.value, today.value, tomorrow, now)[i].time == r.when
    ensures r.Arm? ==> forall x :: x in AlarmTriggers(settings.value, today.value, tomorrow, now) ==> r.when <= x.time
    ensures r.KeepAlarm? ==> AlarmTriggers(settings.value, today.value, tomorrow, now) == []
  {
    if settings.None? || today.None? || !settings.value.desktopNotifications then ClearAlarm
    else
      var ts := AlarmTriggers(settings.value, today.value, tomorrow, now);
      if |ts| > 0 then Arm(Earliest(ts)) else KeepAlarm
  }

  /** Tomorrow's times are read only when nothing is left today. */
  lemma TomorrowOnlyWhenTodayDone(settings: Settings, today: Times, tomorrow: Option<Times>, now: int)
    requires UpcomingTriggers(settings, today, now) != []
    ensures AlarmTriggers(settings, today, tomorrow, now) == UpcomingTriggers(settings, today, now)
  {
  }

  // ---------------------------------------------------------------------------
  // A wake-up
  // ---------------------------------------------------------------------------

  /** The half-width of the window a wake-up sends in. */
  const DueWindowMs: int := 10 * MinuteMs

  /** The request sent to the audio document. */
  datatype AudioRequest = AudioRequest(url: string, volume: real)

  /**
   * `playAdhan`: always the global sound (the first one when its name is
   * unknown), at the set volume, where a volume of 0 plays at full volume.
   */
  function PlayAdhan(settings: Settings): (a: AudioRequest)
    ensures exists i :: 0 <= i < |AdhanSounds| && AdhanSounds[i].url == a.url
    ensures FindSound(settings.adhanSound).Some? ==> a.url == FindSound(settings.adhanSound).value.url
    ensures settings.volume != 0.0 ==> a.volume == settings.volume
    ensures settings.volume == 0.0 ==> a.volume == 1.0
  {
    var s := SoundOrFirst(settings.adhanSound);
    assert s in AdhanSounds;
    AudioRequest(s.url, OrFull(settings.volume))
  }

  /** The per-prayer sound choices do not reach the background adhan. */
  lemma PlayAdhanIgnoresOverrides(settings: Settings, overrides: map<PrayerKey, string>)
    ensures PlayAdhan(settings.(adhanSounds := overrides)) == PlayAdhan(settings)
  {
  }

  /** One notification sent on a wake-up, with the audio it asks for. */
  datatype Sent = Sent(key: TKey, audio: Option<AudioRequest>)

  /** The notification for a trigger, with the adhan audio when it is an adhan and the adhan is on. */
  function SentFor(settings: Settings, x: Trigger): (r: Sent)
    ensures r.key == x.key
    ensures r.audio.Some? <==> x.key.AdhanT? && settings.isAdhanEnabled
    ensures r.audio.Some? ==> r.audio.value == PlayAdhan(settings)
  {
    Sent(x.key, if x.key.AdhanT? && settings.isAdhanEnabled then Some(PlayAdhan(settings)) else None)
  }

  /** `|now - time| < 10 minutes`. */
  predicate NearNow(t: int, now: int)
  {
    -DueWindowMs < now - t < DueWindowMs
  }

  /** The sends of a list of triggers, in order: those within ten minutes of now. */
  function SendEach(settings: Settings, ts: seq<Trigger>, now: int): (r: seq<Sent>)
    ensures |r| <= |ts|
    ensures forall x :: x in r ==> exists t :: t in ts && NearNow(t.time, now) && x == SentFor(settings, t)
  {
    if |ts| == 0 then []
    else
      var rest := SendEach(settings, ts[1..], now);
      assert forall t :: t in ts[1..] ==> t in ts;
      if NearNow(ts[0].time, now) then [SentFor(settings, ts[0])] + rest else rest
  }

  /**
   * `checkAndSendNotifications`: nothing when settings or times are missing or
   * notifications are off; otherwise every trigger enumerated from ten minutes
   * ago that lies within ten minutes of now is sent.
   */
  function Wake(settings: Option<Settings>, today: Option<Times>, now: int): (r: seq<Sent>)
    ensures settings.None? || today.None? || !settings.value.desktopNotifications ==> r == []
  {
    if settings.None? || today.None? || !settings.value.desktopNotifications then []
    else SendEach(settings.value, UpcomingTriggers(settings.value, today.value, now - DueWindowMs), now)
  }

  /** A trigger of the list within the window is among the sends. */
  lemma {:induction false} SendEachComplete(settings: Settings, ts: seq<Trigger>, now: int, j: int)
    requires 0 <= j < |ts| && NearNow(ts[j].time, now)
    ensures SentFor(settings, ts[j]) in SendEach(settings, ts, now)
    decreases |ts|
  {
    if j > 0 {
      SendEachComplete(settings, ts[1..], now, j - 1);
      assert ts[1..][j - 1] == ts[j];
    }
  }

  /**
   * No record of sent keys is kept: an expected trigger is sent on every
   * wake-up within ten minutes of it whose enumeration day is the same, so two
   * wake-ups a minute apart both send it.
   */
  lemma SentOnEveryNearWake(settings: Settings, times: Times, x: Trigger, now1: int, now2: int)
    requires settings.desktopNotifications
    requires Expected(settings, times, now1 - DueWindowMs, x) && Expected(settings, times, now2 - DueWindowMs, x)
    requires NearNow(x.time, now1) && NearNow(x.time, now2)
    ensures SentFor(settings, x) in Wake(Some(settings), Some(times), now1)
    ensures SentFor(settings, x) in Wake(Some(settings), Some(times), now2)
  {
    SentOnWake(settings, times, x, now1);
    SentOnWake(settings, times, x, now2);
  }

  /** An expected trigger within ten minutes of a wake-up is sent by it. */
  lemma SentOnWake(settings: Settings, times: Times, x: Trigger, now: int)
    requires settings.desktopNotifications
    requires Expected(settings, times, now - DueWindowMs, x) && NearNow(x.time, now)
    ensures SentFor(settings, x) in Wake(Some(settings), Some(times), now)
  {
    var ts := UpcomingTriggers(settings, times, now - DueWindowMs);
    UpcomingComplete(settings, times, now - DueWindowMs, x);
    var j :| 0 <= j < |ts| && ts[j] == x;
    SendEachComplete(settings, ts, now, j);
  }
}

=== FILE: cache.dfy ===
/**
 * The month cache (services/prayerCacheService.ts): one stored entry per
 * city, country, method, Asr school, month and year, under a key built from
 * those fields; reading it back yields the stored month or nothing.
 */
module PrayerCache {
  import opened Wrappers
  import opened Text
  import opened Prayers
  import opened Calendar

  const CachePrefix: string := "mawaqit_cache_v1_"

  /** `isHanafiAsr ? 1 : 0`. */
  function SchoolDigit(isHanafiAsr: bool): (s: string)
    ensures s == "1" <==> isHanafiAsr
  {
    if isHanafiAsr then "1" else "0"
  }

  /** The fields of a key, in order: city, country, method, school, 0-based month, year. */
  function KeyFields(settings: Settings, date: CivilDate): seq<string>
    requires Valid(date)
  {
    [settings.city, settings.country, IntToString(settings.methodId), SchoolDigit(settings.isHanafiAsr),
     NatToString(date.month), IntToString(date.year)]
  }

  /** `getKey`: the prefix, then the fields joined with '_'. The day of the month plays no part. */
  function CacheKey(settings: Settings, date: CivilDate): (k: string)
    requires Valid(date)
    ensures CachePrefix <= k
  {
    CachePrefix + Join(KeyFields(settings, date), '_')
  }

  /** What `localStorage` may hold under a key: an entry, empty text, or text that is not JSON. */
  datatype Stored<D> = Entry(timestamp: int, data: D) | EmptyText | Unparsable

  type Store<D> = map<string, Stored<D>>

  /** `getCachedMonth`: the stored month; nothing when the key is absent, the text empty or unreadable. */
  function GetCachedMonth<D>(store: Store<D>, settings: Settings, date: CivilDate): (r: Option<D>)
    requires Valid(date)
    ensures r.Some? <==> CacheKey(settings, date) in store && store[CacheKey(settings, date)].Entry?
    ensures r.Some? ==> r.value == store[CacheKey(settings, date)].data
  {
    var key := CacheKey(settings, date);
    if key !in store then None
    else match store[key]
      case Entry(_, data) => Some(data)
      case EmptyText => None
      case Unparsable => None
  }

  /** `setCachedMonth`: the month stored under its key with the time of writing. */
  function SetCachedMonth<D>(store: Store<D>, settings: Settings, date: CivilDate, data: D, now: int): (r: Store<D>)
    requires Valid(date)
    ensures r.Keys == store.Keys + {CacheKey(settings, date)}
    ensures forall k :: k in store && k != CacheKey(settings, date) ==> r[k] == store[k]
  {
    store[CacheKey(settings, date) := Entry(now, data)]
  }

  /** Two dates of the same month and year share a key, whatever their days. */
  lemma SameMonthSameKey(settings: Settings, a: CivilDate, b: CivilDate)
    requires Valid(a) && Valid(b)
    requires a.year == b.year && a.month == b.month
    ensures CacheKey(settings, a) == CacheKey(settings, b)
  {
  }

  /** Reading back, on any day of the month, returns what was stored. */
  lemma SetThenGet<D>(store: Store<D>, settings: Settings, date: CivilDate, data: D, now: int, other: CivilDate)
    requires Valid(date) && Valid(other)
    requires other.year == date.year && other.month == date.month
    ensures GetCachedMonth(SetCachedMonth(store, settings, date, data, now), settings, other) == Some(data)
  {
    SameMonthSameKey(settings, date, other);
  }

  /** Keys for the two Asr schools always differ, in the school digit. */
  lemma {:induction false} SchoolsKeptApart(settings: Settings, date: CivilDate)
    requires Valid(date)
    ensures CacheKey(settings, date) != CacheKey(settings.(isHanafiAsr := !settings.isHanafiAsr), date)
  {
    var other := settings.(isHanafiAsr := !settings.isHanafiAsr);
    var a := KeyFields(settings, date);
    var b := KeyFields(other, date);
    var i := |CachePrefix| + |a[0]| + |a[1]| + |a[2]| + 3;
    JoinFourth(a);
    JoinFourth(b);
    assert CacheKey(settings, date)[i] == a[3][0];
    assert CacheKey(other, date)[i] == b[3][0];
  }

  /** In a join of six fields the fourth starts after the first three and their separators. */
  lemma JoinFourth(f: seq<string>)
    requires |f| == 6
    ensures Join(f, '_') == f[0] + "_" + f[1] + "_" + f[2] + "_" + f[3] + "_" + Join(f[4..], '_')
  {
    assert f[1..][1..] == f[2..] && f[2..][1..] == f[3..] && f[3..][1..] == f[4..];
    assert Join(f[3..], '_') == f[3] + "_" + Join(f[4..], '_');
    assert Join(f[2..], '_') == f[2] + "_" + Join(f[3..], '_');
    assert Join(f[1..], '_') == f[1] + "_" + Join(f[2..], '_');
  }

  /** No field of a key holds the separator when the city and country do not. */
  predicate PlainNames(settings: Settings)
  {
    '_' !in settings.city && '_' !in settings.country
  }

  /** The method, school, month and year fields never hold the separator. */
  lemma KeyFieldsPlain(settings: Settings, date: CivilDate)
    requires Valid(date)
    ensures forall i :: 2 <= i < 6 ==> '_' !in KeyFields(settings, date)[i]
  {
    var f := KeyFields(settings, date);
    NoUnderscoreInInt(settings.methodId);
    NoUnderscoreInInt(date.year);
    assert forall i :: 0 <= i < |f[4]| ==> IsDigit(f[4][i]);
  }

  lemma NoUnderscoreInInt(i: int)
    ensures '_' !in IntToString(i)
  {
    var s := if i < 0 then -i else i;
    assert forall j :: 0 <= j < |NatToString(s)| ==> IsDigit(NatToString(s)[j]);
  }

  /**
   * The key's text after the prefix splits back into its fields when the city
   * and country hold no '_'.
   */
  lemma {:induction false} KeyFieldsReadBack(settings: Settings, date: CivilDate)
    requires Valid(date)
    ensures PlainNames(settings) ==>
              Split(CacheKey(settings, date)[|CachePrefix|..], '_') == KeyFields(settings, date)
  {
    var f := KeyFields(settings, date);
    assert CacheKey(settings, date)[|CachePrefix|..] == Join(f, '_');
    if PlainNames(settings) {
      KeyFieldsPlain(settings, date);
      SplitJoin(f, '_');
    }
  }

  /**
   * Different places, methods, schools or months never share a key while the
   * city and country hold no '_'.
   */
  lemma {:induction false} KeyInjective(s1: Settings, d1: CivilDate, s2: Settings, d2: CivilDate)
    requires Valid(d1) && Valid(d2)
    requires PlainNames(s1) && PlainNames(s2)
    requires CacheKey(s1, d1) == CacheKey(s2, d2)
    ensures s1.city == s2.city && s1.country == s2.country && s1.methodId == s2.methodId
    ensures s1.isHanafiAsr == s2.isHanafiAsr && d1.month == d2.month && d1.year == d2.year
  {
    KeyFieldsReadBack(s1, d1);
    KeyFieldsReadBack(s2, d2);
    var f1 := KeyFields(s1, d1);
    var f2 := KeyFields(s2, d2);
    assert f1 == f2;
    IntToStringInjective(s1.methodId, s2.methodId);
    IntToStringInjective(d1.year, d2.year);
    NatToStringRoundTrip(d1.month);
    NatToStringRoundTrip(d2.month);
  }

  /** Distinct integers print differently. */
  lemma IntToStringInjective(a: int, b: int)
    requires IntToString(a) == IntToString(b)
    ensures a == b
  {
    assert (a < 0) == (b < 0);
    if a < 0 {
      NegativeText(a);
      NegativeText(b);
      NatToStringInjective(-a, -b);
    } else {
      NatToStringInjective(a, b);
    }
  }

  /** Distinct naturals print differently. */
  lemma NatToStringInjective(a: nat, b: nat)
    requires NatToString(a) == NatToString(b)
    ensures a == b
  {
    NatToStringRoundTrip(a);
    NatToStringRoundTrip(b);
  }

  /** A negative integer prints as a minus sign before its magnitude. */
  lemma NegativeText(i: int)
    requires i < 0
    ensures IntToString(i)[1..] == NatToString(-i)
  {
  }

  /** Storing one month leaves the other months of plain-named places readable as before. */
  lemma OtherMonthsUntouched<D>(store: Store<D>, settings: Settings, date: CivilDate, data: D, now: int,
                                 s2: Settings, d2: CivilDate)
    requires Valid(date) && Valid(d2)
    requires PlainNames(settings) && PlainNames(s2)
    requires d2.month != date.month || d2.year != date.year
    ensures GetCachedMonth(SetCachedMonth(store, settings, date, data, now), s2, d2) == GetCachedMonth(store, s2, d2)
  {
    if CacheKey(s2, d2) == CacheKey(settings, date) {
      KeyInjective(s2, d2, settings, date);
    }
  }
}

=== FILE: calendar.dfy ===
/**
 * Gregorian calendar dates as `Date` exposes them: `getFullYear()`,
 * `getMonth()` (0-based) and `getDate()`, and the step to the next day that
 * `setDate(getDate() + 1)` performs.
 */
module Calendar {

  datatype CivilDate = CivilDate(year: int, month: int, day: int)

  predicate IsLeapYear(y: int)
  {
    (y % 4 == 0 && y % 100 != 0) || y % 400 == 0
  }

  function DaysInMonth(y: int, m: int): (n: int)
    requires 0 <= m < 12
    ensures 28 <= n <= 31
  {
    if m == 1 then (if IsLeapYear(y) then 29 else 28)
    else if m == 3 || m == 5 || m == 8 || m == 10 then 30
    else 31
  }

  /** A date that exists: month 0..11 and a day within that month. */
  predicate Valid(d: CivilDate)
  {
    0 <= d.month < 12 && 1 <= d.day <= DaysInMonth(d.year, d.month)
  }

  /** Chronological order of dates. */
  predicate Before(a: CivilDate, b: CivilDate)
  {
    a.year < b.year
    || (a.year == b.year && a.month < b.month)
    || (a.year == b.year && a.month == b.month && a.day < b.day)
  }

  /** `d.setDate(d.getDate() + 1)`: the following calendar day. */
  function NextDay(d: CivilDate): (n: CivilDate)
    requires Valid(d)
    ensures Valid(n)
    ensures Before(d, n)
    ensures n.day == 1 || (n.year == d.year && n.month == d.month)
  {
    if d.day < DaysInMonth(d.year, d.month) then CivilDate(d.year, d.month, d.day + 1)
    else if d.month < 11 then CivilDate(d.year, d.month + 1, 1)
    else CivilDate(d.year + 1, 0, 1)
  }

  /** The next day is the immediate successor: no valid date lies strictly between. */
  lemma NextDayIsSuccessor(d: CivilDate, e: CivilDate)
    requires Valid(d) && Valid(e)
    requires Before(d, e)
    ensures !Before(e, NextDay(d))
  {
  }
}

=== FILE: clock.dfy ===
/**
 * Wall-clock time as the extension uses it: instants are integer
 * milliseconds, a calendar day is 86 400 000 ms (no time zone, no DST), and
 * prayer times travel as "HH:MM" strings.
 */
module Clock {
  import opened Wrappers
  import opened Text

  const SecondMs: int := 1000
  const MinuteMs: int := 60_000
  const HourMs: int := 3_600_000
  const DayMs: int := 86_400_000
  const MinutesPerDay: int := 1440

  /** An hour/minute pair read from an "HH:MM" string. */
  datatype HM = HM(hour: nat, minute: nat)

  /** Midnight (00:00:00.000) of day `d`. */
  function DayStart(d: int): int
  {
    d * DayMs
  }

  /** The day an instant falls on (the model's `toDateString` / `getDate`). */
  function DayOf(t: int): (d: int)
    ensures DayStart(d) <= t < DayStart(d + 1)
  {
    t / DayMs
  }

  /** `getDay()`: day 0 (1 January 1970) was a Thursday; Sunday is 0, Friday is 5. */
  function WeekDay(d: int): (w: int)
    ensures 0 <= w < 7
  {
    (d + 4) % 7
  }

  /**
   * `new Date(day).setHours(h, m + offset, 0, 0)`: the instant of the clock
   * time `hm` on day `d`, moved by `offset` minutes; minutes that overflow roll
   * into hours and days as calendar arithmetic does.
   */
  function At(d: int, hm: HM, offset: int): int
  {
    DayStart(d) + (hm.hour * 60 + hm.minute + offset) * MinuteMs
  }

  /** `getHours() * 60 + getMinutes()` of an instant. */
  function MinuteOfDay(t: int): (x: int)
    ensures 0 <= x < MinutesPerDay
  {
    (t % DayMs) / MinuteMs
  }

  /** "HH:MM" for a minute of the day, both fields written with two digits. */
  function FormatMinuteOfDay(x: int): (s: string)
    requires 0 <= x < MinutesPerDay
  {
    TwoDigits(x / 60) + [':'] + TwoDigits(x % 60)
  }

  /** The format is `padStart(2, '0')` of the hours and of the minutes around a colon. */
  lemma FormatIsPadded(x: int)
    requires 0 <= x < MinutesPerDay
    ensures FormatMinuteOfDay(x) == Pad2(x / 60) + ":" + Pad2(x % 60)
  {
    Pad2TwoDigits(x / 60);
    Pad2TwoDigits(x % 60);
  }

  /** `formatHHMM(date)`: the clock time of an instant as "HH:MM". */
  function FormatHHMM(t: int): string
  {
    FormatMinuteOfDay(MinuteOfDay(t))
  }

  /**
   * `timeStr.split(':').map(Number)` taken as `[h, m]`: the text before the
   * first ':' and the text between it and the next ':' (or the end), each a
   * plain decimal numeral; anything else is NaN (None).
   */
  function ParseHM(s: string): (r: Option<HM>)
    ensures r.Some? ==> IndexOf(s, ':') < |s|
  {
    var i := IndexOf(s, ':');
    if i == |s| then None
    else
      var rest := s[i + 1..];
      var j := IndexOf(rest, ':');
      match (ParseNat(s[..i]), ParseNat(rest[..j]))
      case (Some(h), Some(m)) => Some(HM(h, m))
      case _ => None
  }

  /** ParseHM reads exactly the first two fields of `s.split(':')`. */
  lemma {:induction false} ParseHMSplit(s: string)
    ensures var parts := Split(s, ':');
      ParseHM(s).Some? <==> |parts| >= 2 && ParseNat(parts[0]).Some? && ParseNat(parts[1]).Some?
    ensures var parts := Split(s, ':');
      ParseHM(s).Some? ==> ParseHM(s).value == HM(ParseNat(parts[0]).value, ParseNat(parts[1]).value)
  {
    var i := IndexOf(s, ':');
    if i < |s| {
      var rest := s[i + 1..];
      assert Split(s, ':') == [s[..i]] + Split(rest, ':');
      SplitHead(rest, ':');
    }
  }

  /** Minutes since midnight denoted by a parsed clock time plus an offset. */
  function Minutes(hm: HM, offset: int): int
  {
    hm.hour * 60 + hm.minute + offset
  }

  /** Euclidean division is determined by any quotient/remainder pair. */
  lemma DivModUnique(x: int, dd: int, q: int, r: int)
    requires dd > 0 && 0 <= r < dd && x == dd * q + r
    ensures x / dd == q && x % dd == r
  {
    var q' := x / dd;
    var r' := x % dd;
    assert dd * q' + r' == dd * q + r;
    if q' < q {
      assert dd * (q - q') == r' - r;
      MulAtLeast(dd, q - q');
    } else if q' > q {
      assert dd * (q' - q) == r - r';
      MulAtLeast(dd, q' - q);
    }
  }

  lemma MulAtLeast(dd: int, k: int)
    requires dd > 0 && k >= 1
    ensures dd * k >= dd
    decreases k
  {
    if k > 1 {
      MulAtLeast(dd, k - 1);
      assert dd * k == dd * (k - 1) + dd;
    }
  }

  /** The clock time of `At(d, hm, offset)` is the adjusted minute count wrapped to one day. */
  lemma {:induction false} MinuteOfDayAt(d: int, hm: HM, offset: int)
    ensures MinuteOfDay(At(d, hm, offset)) == Minutes(hm, offset) % MinutesPerDay
  {
    var k := Minutes(hm, offset);
    var q := k / MinutesPerDay;
    var r := k % MinutesPerDay;
    var t := At(d, hm, offset);
    assert t == DayMs * (d + q) + r * MinuteMs;
    DivModUnique(t, DayMs, d + q, r * MinuteMs);
    DivModUnique(r * MinuteMs, MinuteMs, r, 0);
  }

  /** An instant's day and clock time recombine to the instant, up to the seconds. */
  lemma {:induction false} DayAndMinute(t: int)
    ensures DayStart(DayOf(t)) + MinuteOfDay(t) * MinuteMs <= t
    ensures t < DayStart(DayOf(t)) + (MinuteOfDay(t) + 1) * MinuteMs
  {
    var x := t % DayMs;
    assert t == DayMs * DayOf(t) + x;
    assert MinuteOfDay(t) * MinuteMs <= x < (MinuteOfDay(t) + 1) * MinuteMs;
  }

  /** Parsing a formatted clock time gives back its hour and minute. */
  lemma {:induction false} ParseFormatted(x: int)
    requires 0 <= x < MinutesPerDay
    ensures ParseHM(FormatMinuteOfDay(x)) == Some(HM(x / 60, x % 60))
  {
    var a := TwoDigits(x / 60);
    var b := TwoDigits(x % 60);
    var s := FormatMinuteOfDay(x);
    assert s == [a[0], a[1], ':', b[0], b[1]];
    assert IndexOf(s[2..], ':') == 0;
    assert IndexOf(s[1..], ':') == 1 by {
      assert s[1..][1..] == s[2..];
    }
    assert s[..2] == a;
    var rest := s[3..];
    assert rest == b;
    assert IndexOf(rest[2..], ':') == 0;
    assert IndexOf(rest[1..], ':') == 1 by {
      assert rest[1..][1..] == rest[2..];
    }
    assert rest[..2] == b;
    TwoDigitsValue(x / 60);
    TwoDigitsValue(x % 60);
  }

  /** Hours, a colon and two minute digits parse back to the same hour and minute. */
  lemma {:induction false} ParseHoursMinutes(h: nat, m: nat)
    requires m < 60
    ensures ParseHM(NatToString(h) + ":" + TwoDigits(m)) == Some(HM(h, m))
  {
    var a := NatToString(h);
    var b := TwoDigits(m);
    var s := a + [':'] + b;
    assert NatToString(h) + ":" + TwoDigits(m) == s;
    assert ':' !in a by {
      assert AllDigits(a);
      assert !IsDigit(':');
    }
    IndexOfPrefix(a, ':', b);
    assert s[|a| + 1..] == b;
    assert s[..|a|] == a;
    NoColonInTwoDigits(m);
    assert b[..2] == b;
    NatToStringRoundTrip(h);
    TwoDigitsValue(m);
  }

  /** Two digits hold no colon, so the minute field runs to the end. */
  lemma NoColonInTwoDigits(m: nat)
    requires m < 60
    ensures IndexOf(TwoDigits(m), ':') == 2
  {
    var b := TwoDigits(m);
    assert b[0] != ':' && b[1] != ':';
    assert b[1..][1..] == [];
    assert IndexOf(b[1..], ':') == 1;
  }

  /** Formatting is one-to-one: distinct minutes of the day print differently. */
  lemma FormatInjective(x: int, y: int)
    requires 0 <= x < MinutesPerDay && 0 <= y < MinutesPerDay
    requires FormatMinuteOfDay(x) == FormatMinuteOfDay(y)
    ensures x == y
  {
    ParseFormatted(x);
    ParseFormatted(y);
  }

  /** `hours % 12 || 12`: the hour on a 12-hour dial. */
  function Hour12(h: nat): (r: nat)
    ensures 1 <= r <= 12
    ensures r % 12 == h % 12
  {
    if h % 12 == 0 then 12 else h % 12
  }

  /** The 12-hour dial reading together with the am/pm half gives back the 24-hour hour. */
  lemma Hour12Inverse(h: nat)
    requires h < 24
    ensures Hour12(h) % 12 + (if h >= 12 then 12 else 0) == h
  {
  }
}

=== FILE: grid.dfy ===
/**
 * The prayer-times grid (components/PrayerTimesGrid.tsx): one card per
 * displayed name, showing its time verbatim or on a 12-hour dial with an
 * a/p mark, the active card highlighted, and the cards laid out in one grid
 * or, for nine names, in rows of four and five.
 */
module Grid {
  import opened Wrappers
  import opened Text
  import opened Clock
  import opened Prayers
  import Adjust
  import Panel
  import Adhan

  /** JavaScript's `a % b` for a positive divisor: the remainder takes the sign of `a`. */
  function JsRem(a: int, b: int): (r: int)
    requires b > 0
    ensures a >= 0 ==> r == a % b
    ensures a < 0 ==> -b < r <= 0
  {
    if a >= 0 then a % b else -((-a) % b)
  }

  /**
   * The 12-hour reading of "HH:MM": `parseInt` of the text before the first
   * ':' and of the text after it, shown as dial hour, ':', padded minutes,
   * with the a/p mark.
   */
  function TwelveHour(time: string): (r: (string, char))
  {
    var parts := Split(time, ':');
    var hours := ParseIntPrefix(parts[0]);
    var minutes := if |parts| > 1 then ParseIntPrefix(parts[1]) else None;
    (Colon(IntToString(HourOnDial(hours)), PadStart2(MinuteText(minutes))), Mark(hours))
  }

  /** `hours % 12 || 12`: an hour that is not a number (NaN) shows as 12. */
  function HourOnDial(hours: Option<int>): (d: int)
    ensures -12 < d <= 12 && d != 0
    ensures hours.Some? && hours.value >= 0 ==> d == Hour12(hours.value)
  {
    match hours
    case None => 12
    case Some(h) => if JsRem(h, 12) == 0 then 12 else JsRem(h, 12)
  }

  /** `String(minutes)`: "NaN" when the minutes are not a number. */
  function MinuteText(minutes: Option<int>): string
  {
    match minutes
    case None => "NaN"
    case Some(m) => IntToString(m)
  }

  /** `hours >= 12 ? 'p' : 'a'`; NaN compares false. */
  function Mark(hours: Option<int>): (c: char)
    ensures c == 'p' <==> hours.Some? && hours.value >= 12
  {
    if hours.Some? && hours.value >= 12 then 'p' else 'a'
  }

  /** Two fields around a colon. */
  function Colon(a: string, b: string): string
  {
    a + ":" + b
  }

  /** The time line of a card. */
  datatype CardTime = Verbatim(text: string) | Dial(text: string, mark: char)

  /** A grid slot: an empty placeholder, or a card. */
  datatype Cell =
    | Empty
    | Card(name: string, time: CardTime, active: bool, toggleShown: bool, toggleOn: bool)

  /**
   * `renderPrayerItem`: nothing but a placeholder when the prayer has no time;
   * otherwise its Arabic name, the time (verbatim for Duha and on a 24-hour
   * clock, else on the 12-hour dial), whether it is the active prayer, and
   * the adhan switch shown only with the adhan on.
   */
  function RenderItem(p: PrayerName, prayers: Times, active: Option<string>, is24: bool,
                      isAdhanEnabled: bool, adhanFor: AdhanFor): (c: Cell)
    ensures c.Empty? <==> !Present(prayers, p.key)
    ensures c.Card? ==> c.name == p.ar && (c.active <==> active == Some(p.ar))
    ensures c.Card? ==> (c.toggleShown <==> isAdhanEnabled) && (c.toggleOn <==> adhanFor.Get(p.key))
    ensures c.Card? && (p.key == Duha || is24) ==> c.time == Verbatim(prayers[p.key])
    ensures c.Card? && p.key != Duha && !is24 ==> c.time.Dial?
  {
    if !Present(prayers, p.key) then Empty
    else
      var time := prayers[p.key];
      var shown :=
        if p.key == Duha || is24 then Verbatim(time)
        else var (text, mark) := TwelveHour(time); Dial(text, mark);
      Card(p.ar, shown, active == Some(p.ar), isAdhanEnabled, adhanFor.Get(p.key))
  }

  /** The cards of the names, in order. */
  function Cells(names: seq<PrayerName>, prayers: Times, active: Option<string>, is24: bool,
                 isAdhanEnabled: bool, adhanFor: AdhanFor): (cs: seq<Cell>)
    ensures |cs| == |names|
    ensures forall i :: 0 <= i < |names| ==> cs[i] == RenderItem(names[i], prayers, active, is24, isAdhanEnabled, adhanFor)
  {
    seq(|names|, i requires 0 <= i < |names| => RenderItem(names[i], prayers, active, is24, isAdhanEnabled, adhanFor))
  }

  /** The layout: two rows for nine names, else one grid, dense beyond six names. */
  datatype Layout = TwoRows(first: seq<Cell>, second: seq<Cell>) | OneGrid(dense: bool, cells: seq<Cell>)

  function Render(names: seq<PrayerName>, prayers: Times, active: Option<string>, is24: bool,
                  isAdhanEnabled: bool, adhanFor: AdhanFor): (l: Layout)
    ensures l.TwoRows? <==> |names| == 9
    ensures l.TwoRows? ==> (|l.first| == 4 && |l.second| == 5 &&
                            l.first + l.second == Cells(names, prayers, active, is24, isAdhanEnabled, adhanFor))
    ensures l.OneGrid? ==> ((l.dense <==> |names| > 6) &&
                            l.cells == Cells(names, prayers, active, is24, isAdhanEnabled, adhanFor))
  {
    var cells := Cells(names, prayers, active, is24, isAdhanEnabled, adhanFor);
    if |names| == 9 then
      var first := Cells(names[..4], prayers, active, is24, isAdhanEnabled, adhanFor);
      var second := Cells(names[4..], prayers, active, is24, isAdhanEnabled, adhanFor);
      assert first + second == cells;
      TwoRows(first, second)
    else OneGrid(|names| > 6, cells)
  }

  /** With distinct Arabic names at most one card is highlighted. */
  lemma AtMostOneActive(names: seq<PrayerName>, prayers: Times, active: Option<string>, is24: bool,
                        isAdhanEnabled: bool, adhanFor: AdhanFor, i: int, j: int)
    requires forall a, b :: 0 <= a < b < |names| ==> names[a].ar != names[b].ar
    requires 0 <= i < j < |names|
    ensures var cs := Cells(names, prayers, active, is24, isAdhanEnabled, adhanFor);
      !(cs[i].Card? && cs[i].active && cs[j].Card? && cs[j].active)
  {
  }

  /**
   * The grid's `onAdhanToggle(prayerKey)`: flips the switch of the card's key,
   * whatever card it is, and changes nothing else of the settings.
   */
  function OnAdhanToggle(settings: Settings, k: PrayerKey): (r: Settings)
    ensures r.adhanFor.Get(k) == !settings.adhanFor.Get(k)
    ensures forall j :: j != k ==> r.adhanFor.Get(j) == settings.adhanFor.Get(j)
    ensures r.(adhanFor := settings.adhanFor) == settings
  {
    settings.(adhanFor := settings.adhanFor.Flip(k))
  }

  /**
   * The sunrise card's switch, turned on from the grid, lights up on the card
   * and makes the adhan play at sunrise.
   */
  lemma SunriseSwitchPlays(settings: Settings, prayers: Times, active: Option<string>, is24: bool,
                           t: int, now: int, played: set<Adhan.Key>)
    requires !settings.adhanFor.Get(Shourouq) && Present(prayers, Shourouq)
    requires Adhan.InWindow(t, now) && Adhan.KeyOf(Event(ShourouqAr, t)) !in played
    ensures var r := OnAdhanToggle(settings, Shourouq);
      RenderItem(PrayerNames[1], prayers, active, is24, r.isAdhanEnabled, r.adhanFor).toggleOn &&
      Adhan.Trigger(r, Event(ShourouqAr, t), now, played).Some?
  {
    Adhan.SunriseAndMidnight(OnAdhanToggle(settings, Shourouq), now, played, t);
  }

  // ---------------------------------------------------------------------------
  // The 12-hour dial on canonical times
  // ---------------------------------------------------------------------------

  /** A canonical "HH:MM" splits at its colon into the two two-digit fields. */
  lemma {:induction false} FormattedPieces(x: int)
    requires 0 <= x < MinutesPerDay
    ensures Split(FormatMinuteOfDay(x), ':') == [TwoDigits(x / 60), TwoDigits(x % 60)]
  {
    var h := TwoDigits(x / 60);
    var m := TwoDigits(x % 60);
    assert ':' !in h && ':' !in m;
    SplitConcat(h, ':', m);
    SplitNoSeparator(h, ':');
    SplitNoSeparator(m, ':');
  }

  /** `parseInt` of two digits is their value. */
  lemma ParseTwoDigits(n: nat)
    requires n < 100
    ensures ParseIntPrefix(TwoDigits(n)) == Some(n)
  {
    TwoDigitsValue(n);
    ParseIntOfDigits(TwoDigits(n));
  }

  /**
   * On a canonical "HH:MM" the dial shows hours mod 12 with 0 as 12, the
   * minutes padded to two digits, and 'p' exactly from noon on.
   */
  lemma {:induction false} TwelveHourOfFormatted(x: int)
    requires 0 <= x < MinutesPerDay
    ensures TwelveHour(FormatMinuteOfDay(x)) == (Colon(NatToString(Hour12(x / 60)), Pad2(x % 60)), Mark(Some(x / 60)))
  {
    FormattedPieces(x);
    ParseTwoDigits(x / 60);
    ParseTwoDigits(x % 60);
    TwelveHourOfNumbers(FormatMinuteOfDay(x), x / 60, x % 60);
  }

  /** When both fields read as numbers, the dial shows the hour mod 12 (0 as 12) and the padded minute. */
  lemma TwelveHourOfNumbers(time: string, h: nat, m: nat)
    requires |Split(time, ':')| > 1
    requires ParseIntPrefix(Split(time, ':')[0]) == Some(h) && ParseIntPrefix(Split(time, ':')[1]) == Some(m)
    ensures TwelveHour(time) == (Colon(NatToString(Hour12(h)), Pad2(m)), Mark(Some(h)))
  {
    assert MinuteText(Some(m)) == NatToString(m);
    PadStartOfNat(m);
    assert IntToString(HourOnDial(Some(h))) == NatToString(Hour12(h));
  }

  /** The dial text reads back as the dial hour and the minute; with the mark that gives back the time. */
  lemma {:induction false} TwelveHourReadsBack(x: int)
    requires 0 <= x < MinutesPerDay
    ensures ParseHM(TwelveHour(FormatMinuteOfDay(x)).0) == Some(HM(Hour12(x / 60), x % 60))
    ensures Hour12(x / 60) % 12 + (if TwelveHour(FormatMinuteOfDay(x)).1 == 'p' then 12 else 0) == x / 60
  {
    TwelveHourOfFormatted(x);
    Pad2TwoDigits(x % 60);
    ParseHoursMinutes(Hour12(x / 60), x % 60);
    Hour12Inverse(x / 60);
  }

  /**
   * The grid and the adjustment panel agree: on a 12-hour clock the card of
   * an adjusted prayer shows the text the panel shows beside it.
   */
  lemma {:induction false} GridAgreesWithPanel(raw: Times, adj: Adjustments, k: PrayerKey, day: int)
    requires Raw(raw, k).Some?
    ensures var x := Adjust.Shifted(raw, adj, k);
      Panel.DisplayedTime(raw, adj, k, day, false) == Some(TwelveHour(FormatMinuteOfDay(x)).0)
  {
    var x := Adjust.Shifted(raw, adj, k);
    MinuteOfDayAt(day, Raw(raw, k).value, Offset(adj, k));
    TwelveHourOfFormatted(x);
  }
}

=== FILE: hijri.dfy ===
/**
 * The date header's tags (components/DateDisplay.tsx): the hijri label
 * "D Month YYYY هـ" is split at spaces, its first piece read as the day and
 * its second as the month, and from those and the weekday come the Eid,
 * Ramadan, Friday, white-days and voluntary-fasting tags.
 */
module HijriDate {
  import opened Wrappers
  import opened Text
  import Clock

  const RamadanAr: string := "رمضان"
  const ShawwalAr: string := "شوال"
  const DhuAlHijjahAr: string := "ذو الحجة"

  /** The era mark that ends the label. */
  const EraMark: string := "هـ"

  /** The label built from the API's hijri day, Arabic month name and year. */
  function HijriText(day: string, month: string, year: string): string
  {
    day + [' '] + month + [' '] + year + [' '] + EraMark
  }

  /** A day as the API writes it: decimal digits only. */
  predicate IsNumeral(s: string)
  {
    |s| > 0 && AllDigits(s)
  }

  /** The header's tags, in display order. */
  datatype Tag = EidAlFitr | EidAlAdha | Ramadan | Friday | WhiteDays | VoluntaryFast

  /** Display rank: Eid, then Ramadan, then Friday, then the fasting tags. */
  function Rank(t: Tag): nat
  {
    match t
    case EidAlFitr => 0
    case EidAlAdha => 0
    case Ramadan => 1
    case Friday => 2
    case WhiteDays => 3
    case VoluntaryFast => 3
  }

  /** Tags in strictly increasing rank: each group at most once, in display order. */
  predicate InDisplayOrder(ts: seq<Tag>)
  {
    forall i, j :: 0 <= i < j < |ts| ==> Rank(ts[i]) < Rank(ts[j])
  }

  /** `parseInt(hijriParts[0])`. */
  function DayNumber(hijri: string): Option<int>
  {
    ParseIntPrefix(Split(hijri, ' ')[0])
  }

  /** `hijriParts[1]`: the second piece, undefined (None) when there is none. */
  function MonthToken(hijri: string): Option<string>
  {
    var parts := Split(hijri, ' ');
    if |parts| > 1 then Some(parts[1]) else None
  }

  /**
   * The tags for a day number, a month name and a weekday (0 is Sunday):
   * Eid al-Fitr on 1 Shawwal, else Eid al-Adha on 10 Dhu al-Hijja; Ramadan
   * all month; Friday; the white days 13 to 15, or else voluntary fasting
   * on Monday and Thursday outside Ramadan and the Eids.
   */
  function TagsFor(day: Option<int>, month: Option<string>, weekday: int): (r: seq<Tag>)
    ensures EidAlFitr in r <==> month == Some(ShawwalAr) && day == Some(1)
    ensures EidAlAdha in r <==> month == Some(DhuAlHijjahAr) && day == Some(10)
    ensures Ramadan in r <==> month == Some(RamadanAr)
    ensures Friday in r <==> weekday == 5
    ensures WhiteDays in r <==> day.Some? && 13 <= day.value <= 15
    ensures VoluntaryFast in r <==>
              (weekday == 1 || weekday == 4) && !(day.Some? && 13 <= day.value <= 15) &&
              month != Some(RamadanAr) && !(month == Some(ShawwalAr) && day == Some(1)) &&
              !(month == Some(DhuAlHijjahAr) && day == Some(10))
    ensures InDisplayOrder(r)
  {
    var isRamadan := month == Some(RamadanAr);
    var isEidAlFitr := month == Some(ShawwalAr) && day == Some(1);
    var isEidAlAdha := month == Some(DhuAlHijjahAr) && day == Some(10);
    var isWhiteDay := day.Some? && 13 <= day.value <= 15;
    TagsOf(isEidAlFitr, isEidAlAdha, isRamadan, weekday == 5, isWhiteDay, weekday == 1 || weekday == 4)
  }

  /**
   * The tags from the day's conditions: at most one Eid, Ramadan, Friday,
   * then the white days or else voluntary fasting on a Monday or Thursday
   * outside Ramadan and the Eids.
   */
  function TagsOf(eidAlFitr: bool, eidAlAdha: bool, ramadan: bool, friday: bool, whiteDay: bool, monOrThu: bool): (r: seq<Tag>)
    ensures EidAlFitr in r <==> eidAlFitr
    ensures EidAlAdha in r <==> eidAlAdha && !eidAlFitr
    ensures Ramadan in r <==> ramadan
    ensures Friday in r <==> friday
    ensures WhiteDays in r <==> whiteDay
    ensures VoluntaryFast in r <==> monOrThu && !whiteDay && !ramadan && !eidAlFitr && !eidAlAdha
    ensures InDisplayOrder(r)
  {
    var eid := if eidAlFitr then Some(EidAlFitr) else if eidAlAdha then Some(EidAlAdha) else None;
    var month := if ramadan then Some(Ramadan) else None;
    var week := if friday then Some(Friday) else None;
    var fasting :=
      if whiteDay then Some(WhiteDays)
      else if monOrThu && !ramadan && !eidAlFitr && !eidAlAdha then Some(VoluntaryFast)
      else None;
    GroupsInOrder(eid, month, week, fasting);
    InGroups(eid, month, week, fasting, EidAlFitr);
    InGroups(eid, month, week, fasting, EidAlAdha);
    InGroups(eid, month, week, fasting, Ramadan);
    InGroups(eid, month, week, fasting, Friday);
    InGroups(eid, month, week, fasting, WhiteDays);
    InGroups(eid, month, week, fasting, VoluntaryFast);
    Group(eid) + Group(month) + Group(week) + Group(fasting)
  }

  /** A tag is shown exactly when one of the groups holds it. */
  lemma InGroups(a: Option<Tag>, b: Option<Tag>, c: Option<Tag>, d: Option<Tag>, t: Tag)
    ensures t in Group(a) + Group(b) + Group(c) + Group(d) <==>
              a == Some(t) || b == Some(t) || c == Some(t) || d == Some(t)
  {
  }

  /** A group of the header: its tag, if shown. */
  function Group(o: Option<Tag>): (r: seq<Tag>)
    ensures forall t :: t in r <==> o == Some(t)
  {
    if o.Some? then [o.value] else []
  }

  /** One group per rank, in increasing rank, gives display order. */
  lemma GroupsInOrder(a: Option<Tag>, b: Option<Tag>, c: Option<Tag>, d: Option<Tag>)
    requires a.Some? ==> Rank(a.value) == 0
    requires b.Some? ==> Rank(b.value) == 1
    requires c.Some? ==> Rank(c.value) == 2
    requires d.Some? ==> Rank(d.value) == 3
    ensures InDisplayOrder(Group(a) + Group(b) + Group(c) + Group(d))
  {
    assert forall i :: 0 <= i < |Group(a)| ==> Rank(Group(a)[i]) <= 0;
    ExtendInOrder(Group(a), b, 1);
    ExtendInOrder(Group(a) + Group(b), c, 2);
    ExtendInOrder(Group(a) + Group(b) + Group(c), d, 3);
  }

  /** Appending a group of a higher rank than every tag so far keeps display order. */
  lemma ExtendInOrder(ts: seq<Tag>, o: Option<Tag>, r: nat)
    requires InDisplayOrder(ts)
    requires forall i :: 0 <= i < |ts| ==> Rank(ts[i]) < r
    requires o.Some? ==> Rank(o.value) == r
    ensures InDisplayOrder(ts + Group(o))
    ensures forall i :: 0 <= i < |ts + Group(o)| ==> Rank((ts + Group(o))[i]) <= r
  {
  }

  /** White days and voluntary fasting never show together, nor the two Eids. */
  lemma TagsExclusive(day: Option<int>, month: Option<string>, weekday: int)
    ensures !(WhiteDays in TagsFor(day, month, weekday) && VoluntaryFast in TagsFor(day, month, weekday))
    ensures !(EidAlFitr in TagsFor(day, month, weekday) && EidAlAdha in TagsFor(day, month, weekday))
  {
  }

  // ---------------------------------------------------------------------------
  // As written: the month is the second space-separated piece
  // ---------------------------------------------------------------------------

  /**
   * The header's tags as the component computes them, for the instant `now`.
   * The Eid al-Adha tag never appears: the month piece holds no space, and
   * the name of Dhu al-Hijja has one.
   */
  function AsWrittenTags(hijri: string, now: int): (r: seq<Tag>)
    ensures EidAlAdha !in r
  {
    SplitPieces(hijri, ' ');
    assert DhuAlHijjahAr[2] == ' ';
    TagsFor(DayNumber(hijri), MonthToken(hijri), Clock.WeekDay(Clock.DayOf(now)))
  }

  /**
   * On 10 Dhu al-Hijja falling on a Monday or Thursday the header shows the
   * voluntary-fasting tag instead of the Eid (fasting on Eid is forbidden).
   */
  lemma {:induction false} FastingShownOnEidAlAdha(day: string, year: string, now: int)
    requires IsNumeral(day) && DigitsValue(day) == 10 && ' ' !in year
    requires Clock.WeekDay(Clock.DayOf(now)) == 1 || Clock.WeekDay(Clock.DayOf(now)) == 4
    ensures var tags := AsWrittenTags(HijriText(day, DhuAlHijjahAr, year), now);
      VoluntaryFast in tags && EidAlAdha !in tags
  {
    var hijri := HijriText(day, DhuAlHijjahAr, year);
    ShortMonthToken(day, year);
    var m := MonthToken(hijri);
    assert m != Some(RamadanAr) && m != Some(ShawwalAr) && m != Some(DhuAlHijjahAr);
    DayOfLabel(day, DhuAlHijjahAr, year);
    assert DayNumber(hijri) == Some(10);
  }

  /** The month piece read from a Dhu al-Hijja label is its first word, at most two letters long. */
  lemma ShortMonthToken(day: string, year: string)
    requires IsNumeral(day) && ' ' !in year
    ensures var m := MonthToken(HijriText(day, DhuAlHijjahAr, year)); m.Some? && |m.value| <= 2
  {
    MonthTokenOfLabel(day, DhuAlHijjahAr, year);
    SplitHead(DhuAlHijjahAr, ' ');
    IndexOfFirst(DhuAlHijjahAr, ' ');
    assert DhuAlHijjahAr[2] == ' ';
  }

  /** The month piece of a label is the first word of the month name. */
  lemma {:induction false} MonthTokenOfLabel(day: string, month: string, year: string)
    requires IsNumeral(day) && ' ' !in year
    ensures MonthToken(HijriText(day, month, year)) == Some(Split(month, ' ')[0])
  {
    HijriPieces(day, month, year);
  }

  // ---------------------------------------------------------------------------
  // Reading the label back
  // ---------------------------------------------------------------------------

  /** The label splits into the day, the month's words, the year and the era mark. */
  lemma {:induction false} HijriPieces(day: string, month: string, year: string)
    requires IsNumeral(day) && ' ' !in year
    ensures Split(HijriText(day, month, year), ' ') ==
              [day] + Split(month, ' ') + [year] + [EraMark]
  {
    var d := day;
    assert ' ' !in d by {
      assert forall i :: 0 <= i < |d| ==> IsDigit(d[i]);
    }
    assert ' ' !in EraMark;
    SplitConcat(d, ' ', month);
    SplitNoSeparator(d, ' ');
    SplitConcat(d + [' '] + month, ' ', year);
    SplitNoSeparator(year, ' ');
    SplitConcat(d + [' '] + month + [' '] + year, ' ', EraMark);
    SplitNoSeparator(EraMark, ' ');
  }

  /** The first piece of the label reads back as the day number. */
  lemma {:induction false} DayOfLabel(day: string, month: string, year: string)
    requires IsNumeral(day) && ' ' !in year
    ensures DayNumber(HijriText(day, month, year)) == Some(DigitsValue(day))
  {
    HijriPieces(day, month, year);
    ParseIntOfDigits(day);
  }

  // ---------------------------------------------------------------------------
  // Corrected: the month is every piece between the day and the year
  // ---------------------------------------------------------------------------

  /**
   * The month name as the label was built: the pieces between the day and
   * the year, joined back with spaces; the second piece when the label is
   * too short for that.
   */
  function MonthName(hijri: string): Option<string>
  {
    var parts := Split(hijri, ' ');
    if |parts| >= 4 then Some(Join(parts[1..|parts| - 2], ' '))
    else if |parts| > 1 then Some(parts[1])
    else None
  }

  /** The header's tags with the month read whole: Eid al-Adha exactly on the 10th of the whole name Dhu al-Hijja. */
  function Tags(hijri: string, now: int): (r: seq<Tag>)
    ensures EidAlAdha in r <==> MonthName(hijri) == Some(DhuAlHijjahAr) && DayNumber(hijri) == Some(10)
  {
    TagsFor(DayNumber(hijri), MonthName(hijri), Clock.WeekDay(Clock.DayOf(now)))
  }

  /** Any month name, one word or several, reads back from the label. */
  lemma {:induction false} MonthOfLabel(day: string, month: string, year: string)
    requires IsNumeral(day) && ' ' !in year
    ensures MonthName(HijriText(day, month, year)) == Some(month)
  {
    HijriPieces(day, month, year);
    var parts := Split(HijriText(day, month, year), ' ');
    assert parts[1..|parts| - 2] == Split(month, ' ');
    JoinSplit(month, ' ');
  }

  /** With the month read whole, 10 Dhu al-Hijja carries the Eid al-Adha tag and no fasting tag. */
  lemma EidAlAdhaShown(day: string, year: string, now: int)
    requires IsNumeral(day) && DigitsValue(day) == 10 && ' ' !in year
    ensures EidAlAdha in Tags(HijriText(day, DhuAlHijjahAr, year), now)
    ensures VoluntaryFast !in Tags(HijriText(day, DhuAlHijjahAr, year), now)
  {
    DayOfLabel(day, DhuAlHijjahAr, year);
    MonthOfLabel(day, DhuAlHijjahAr, year);
  }

  /** For labels built from a day, a month and a year, the tags depend only on those and the weekday. */
  lemma LabelTags(day: string, month: string, year: string, now: int)
    requires IsNumeral(day) && ' ' !in year
    ensures Tags(HijriText(day, month, year), now) == TagsFor(Some(DigitsValue(day)), Some(month), Clock.WeekDay(Clock.DayOf(now)))
  {
    DayOfLabel(day, month, year);
    MonthOfLabel(day, month, year);
  }
}

=== FILE: mawaqit.dfy ===
/**
 * Building the day's prayer data (services/mawaqitService.ts): the month of
 * today and of tomorrow is read from the cache or requested from the
 * calendar API, the day is picked out of it by its gregorian day number, and
 * its timings are cut to their "HH:MM" part.
 */
module Mawaqit {
  import opened Wrappers
  import opened Text
  import opened Prayers
  import opened Calendar
  import opened PrayerCache
  import HijriDate

  /** The timings of one API day, as text such as "05:12 (CET)". */
  datatype ApiTimings = ApiTimings(fajr: string, sunrise: string, dhuhr: string, asr: string,
                                   maghrib: string, isha: string, imsak: string)

  /** One day of the API's month: its gregorian day number, hijri date parts and timings. */
  datatype ApiDay = ApiDay(gregorianDay: string, hijriDay: string, hijriMonthAr: string, hijriYear: string,
                           timings: ApiTimings)

  /** `s.split(' ')[0]`: the text up to the first space. */
  function FirstWord(s: string): (w: string)
    ensures w <= s
    ensures ' ' !in w
    ensures |w| < |s| ==> s[|w|] == ' '
  {
    SplitHead(s, ' ');
    IndexOfFirst(s, ' ');
    Split(s, ' ')[0]
  }

  /** A time followed by a space and a zone comment reads as the time. */
  lemma FirstWordOfTimed(time: string, comment: string)
    requires ' ' !in time
    ensures FirstWord(time + " " + comment) == time
  {
    assert time + " " + comment == time + [' '] + comment;
    SplitConcat(time, ' ', comment);
    SplitNoSeparator(time, ' ');
  }

  /** `mapApiTimingsToPrayerTimes`: Sunrise becomes shourouq, every other field its own key. */
  function MapTimings(t: ApiTimings): (r: Times)
    ensures r.Keys == {Fajr, Shourouq, Dhuhr, Asr, Maghrib, Isha, Imsak}
    ensures r[Fajr] == FirstWord(t.fajr) && r[Shourouq] == FirstWord(t.sunrise)
    ensures r[Dhuhr] == FirstWord(t.dhuhr) && r[Asr] == FirstWord(t.asr)
    ensures r[Maghrib] == FirstWord(t.maghrib) && r[Isha] == FirstWord(t.isha) && r[Imsak] == FirstWord(t.imsak)
  {
    map[Fajr := FirstWord(t.fajr), Shourouq := FirstWord(t.sunrise), Dhuhr := FirstWord(t.dhuhr),
        Asr := FirstWord(t.asr), Maghrib := FirstWord(t.maghrib), Isha := FirstWord(t.isha),
        Imsak := FirstWord(t.imsak)]
  }

  /** The gregorian day numbers of a month, as `parseInt` reads them. */
  function DayNumbers(month: seq<ApiDay>): (ns: seq<Option<int>>)
    ensures |ns| == |month|
    ensures forall i :: 0 <= i < |month| ==> ns[i] == ParseIntPrefix(month[i].gregorianDay)
  {
    seq(|month|, i requires 0 <= i < |month| => ParseIntPrefix(month[i].gregorianDay))
  }

  /** The first position holding `target`. */
  function FindFirst(ns: seq<Option<int>>, target: int): (r: Option<nat>)
    ensures r.Some? ==> r.value < |ns| && ns[r.value] == Some(target)
    ensures r.Some? ==> forall j :: 0 <= j < r.value ==> ns[j] != Some(target)
    ensures r.None? ==> forall j :: 0 <= j < |ns| ==> ns[j] != Some(target)
  {
    if |ns| == 0 then None
    else if ns[0] == Some(target) then Some(0)
    else match FindFirst(ns[1..], target)
      case None => None
      case Some(i) => Some(i + 1)
  }

  /**
   * `monthData.find(d => parseInt(d.date.gregorian.day) === targetDay)`, as
   * an index: the first day whose number is the target.
   */
  function FindDay(month: seq<ApiDay>, target: int): (r: Option<nat>)
    ensures r.Some? ==> r.value < |month| && DayNumbers(month)[r.value] == Some(target)
    ensures r.Some? ==> forall j :: 0 <= j < r.value ==> DayNumbers(month)[j] != Some(target)
    ensures r.None? ==> forall j :: 0 <= j < |month| ==> DayNumbers(month)[j] != Some(target)
  {
    FindFirst(DayNumbers(month), target)
  }

  /** The calendar request's parameters: 1-based month, school 1 for Hanafi Asr, else 0. */
  datatype Request = Request(city: string, country: string, methodId: int, school: int, month: int, year: int)

  function RequestFor(settings: Settings, date: CivilDate): (q: Request)
    requires Valid(date)
    ensures 1 <= q.month <= 12 && q.month == date.month + 1 && q.year == date.year
    ensures q.school == 1 <==> settings.isHanafiAsr
    ensures q.school == 0 <==> !settings.isHanafiAsr
  {
    Request(settings.city, settings.country, settings.methodId, if settings.isHanafiAsr then 1 else 0,
            date.month + 1, date.year)
  }

  /** Why a day could not be produced. */
  datatype LookupError = FetchFailed | DayNotFound(day: int)

  /** The month a lookup works from: the cached one, or else the request's answer. */
  function Available(store: Store<seq<ApiDay>>, settings: Settings, date: CivilDate,
                     fetched: Option<seq<ApiDay>>): Option<seq<ApiDay>>
    requires Valid(date)
  {
    match GetCachedMonth(store, settings, date)
    case Some(m) => Some(m)
    case None => fetched
  }

  /**
   * `getDataForDate`: the cached month, or else the month the API returns
   * for the request (`fetched`, None when the request fails), which is then
   * stored; then the day of `date` in that month. Also the store afterwards.
   */
  function DataForDate(store: Store<seq<ApiDay>>, settings: Settings, date: CivilDate,
                       fetched: Option<seq<ApiDay>>, now: int): (r: (Result<ApiDay, LookupError>, Store<seq<ApiDay>>))
    requires Valid(date)
    ensures GetCachedMonth(store, settings, date).Some? ==> r.1 == store
    ensures GetCachedMonth(store, settings, date).None? && fetched.None? ==> r.0 == Err(FetchFailed) && r.1 == store
    ensures r.0.Ok? ==> ParseIntPrefix(r.0.value.gregorianDay) == Some(date.day)
    ensures r.0 == Err(DayNotFound(date.day)) ==>
              (GetCachedMonth(r.1, settings, date).Some? &&
               FindDay(GetCachedMonth(r.1, settings, date).value, date.day).None?)
    ensures r.0.Ok? ==> GetCachedMonth(r.1, settings, date).Some? && r.0.value in GetCachedMonth(r.1, settings, date).value
    ensures var m := Available(store, settings, date, fetched);
            (r.0 == Err(FetchFailed) <==> m.None?) &&
            (r.0.Ok? <==> m.Some? && FindDay(m.value, date.day).Some?) &&
            (r.0.Ok? ==> r.0.value == m.value[FindDay(m.value, date.day).value])
  {
    var (month, store') :=
      match GetCachedMonth(store, settings, date)
      case Some(m) => (Some(m), store)
      case None =>
        match fetched
        case None => (None, store)
        case Some(m) => (Some(m), SetCachedMonth(store, settings, date, m, now));
    match month
    case None => (Err(FetchFailed), store')
    case Some(m) =>
      SetThenGet(store, settings, date, m, now, date);
      match FindDay(m, date.day)
      case None => (Err(DayNotFound(date.day)), store')
      case Some(i) => (Ok(m[i]), store')
  }

  /**
   * `getPrayerTimes`: today's and tomorrow's days, looked up independently
   * (both read the store as it was), then the prayer data: the hijri label of
   * today and the two days' timings. `gregorianLabel` is today's localised
   * date text.
   */
  function GetPrayerTimes(store: Store<seq<ApiDay>>, settings: Settings, today: CivilDate,
                          fetchedToday: Option<seq<ApiDay>>, fetchedTomorrow: Option<seq<ApiDay>>,
                          gregorianLabel: string, now: int): (r: (Result<PrayerData, LookupError>, Store<seq<ApiDay>>))
    requires Valid(today)
    ensures r.0.Ok? <==> DataForDate(store, settings, today, fetchedToday, now).0.Ok? &&
                              DataForDate(store, settings, NextDay(today), fetchedTomorrow, now).0.Ok?
    ensures r.0.Ok? ==>
              var d := DataForDate(store, settings, today, fetchedToday, now).0.value;
              var t := DataForDate(store, settings, NextDay(today), fetchedTomorrow, now).0.value;
              r.0.value.today == MapTimings(d.timings) && r.0.value.tomorrow == MapTimings(t.timings) &&
              r.0.value.hijri == HijriDate.HijriText(d.hijriDay, d.hijriMonthAr, d.hijriYear) &&
              r.0.value.date == gregorianLabel
    ensures r.0.Err? ==>
              var a := DataForDate(store, settings, today, fetchedToday, now).0;
              var b := DataForDate(store, settings, NextDay(today), fetchedTomorrow, now).0;
              (a.Err? && r.0.error == a.error) || (b.Err? && r.0.error == b.error)
  {
    var tomorrow := NextDay(today);
    var (a, s1) := DataForDate(store, settings, today, fetchedToday, now);
    var (b, s2) := DataForDate(store, settings, tomorrow, fetchedTomorrow, now);
    var store' := Merge(s1, s2);
    if a.Err? then (Err(a.error), store')
    else if b.Err? then (Err(b.error), store')
    else
      var d := a.value;
      var t := b.value;
      (Ok(PrayerData(HijriDate.HijriText(d.hijriDay, d.hijriMonthAr, d.hijriYear), gregorianLabel,
                          MapTimings(d.timings), MapTimings(t.timings))), store')
  }

  /** When both months are available and hold their day, the prayer data is produced. */
  lemma BothFoundOk(store: Store<seq<ApiDay>>, settings: Settings, today: CivilDate,
                    f1: Option<seq<ApiDay>>, f2: Option<seq<ApiDay>>, dateText: string, now: int)
    requires Valid(today)
    requires var m := Available(store, settings, today, f1);
             m.Some? && FindDay(m.value, today.day).Some?
    requires var m := Available(store, settings, NextDay(today), f2);
             m.Some? && FindDay(m.value, NextDay(today).day).Some?
    ensures GetPrayerTimes(store, settings, today, f1, f2, dateText, now).0.Ok?
  {
  }

  /** Both lookups' writes: those of the second lookup over those of the first. */
  function Merge<D>(s1: Store<D>, s2: Store<D>): (r: Store<D>)
    ensures r.Keys == s1.Keys + s2.Keys
    ensures forall k :: k in s2 ==> r[k] == s2[k]
    ensures forall k :: k in s1 && k !in s2 ==> r[k] == s1[k]
  {
    map k | k in s1.Keys + s2.Keys :: if k in s2 then s2[k] else s1[k]
  }

  /** A month fetched because it was not cached is stored under its key and read back from there. */
  lemma FetchedIsStored(store: Store<seq<ApiDay>>, settings: Settings, date: CivilDate, m: seq<ApiDay>, now: int)
    requires Valid(date) && GetCachedMonth(store, settings, date).None?
    ensures DataForDate(store, settings, date, Some(m), now).1 == SetCachedMonth(store, settings, date, m, now)
    ensures GetCachedMonth(DataForDate(store, settings, date, Some(m), now).1, settings, date) == Some(m)
  {
    SetThenGet(store, settings, date, m, now, date);
  }

  /**
   * When exactly one of the two lookups fails, its error is the one reported,
   * whichever of the two it is.
   */
  lemma OnlyFailureReported(store: Store<seq<ApiDay>>, settings: Settings, today: CivilDate,
                            f1: Option<seq<ApiDay>>, f2: Option<seq<ApiDay>>, dateText: string, now: int)
    requires Valid(today)
    requires DataForDate(store, settings, today, f1, now).0.Err? !=
             DataForDate(store, settings, NextDay(today), f2, now).0.Err?
    ensures var a := DataForDate(store, settings, today, f1, now).0;
            var b := DataForDate(store, settings, NextDay(today), f2, now).0;
            GetPrayerTimes(store, settings, today, f1, f2, dateText, now).0 == Err(if a.Err? then a.error else b.error)
  {
  }

  /** A cached month makes the request's answer irrelevant. */
  lemma CachedDay(store: Store<seq<ApiDay>>, settings: Settings, date: CivilDate,
                  f: Option<seq<ApiDay>>, g: Option<seq<ApiDay>>, now: int)
    requires Valid(date) && GetCachedMonth(store, settings, date).Some?
    ensures DataForDate(store, settings, date, f, now) == DataForDate(store, settings, date, g, now)
  {
  }

  /** With both months cached the result does not depend on the network at all. */
  lemma CachedNeedsNoFetch(store: Store<seq<ApiDay>>, settings: Settings, today: CivilDate,
                           f1: Option<seq<ApiDay>>, f2: Option<seq<ApiDay>>,
                           g1: Option<seq<ApiDay>>, g2: Option<seq<ApiDay>>, dateText: string, now: int)
    requires Valid(today)
    requires GetCachedMonth(store, settings, today).Some? && GetCachedMonth(store, settings, NextDay(today)).Some?
    ensures GetPrayerTimes(store, settings, today, f1, f2, dateText, now).0 == GetPrayerTimes(store, settings, today, g1, g2, dateText, now).0
  {
    CachedDay(store, settings, today, f1, g1, now);
    CachedDay(store, settings, NextDay(today), f2, g2, now);
  }

  /**
   * Before the last day of a month tomorrow comes from the same month, so
   * once today's month is stored a later call finds tomorrow in it.
   */
  lemma TomorrowSameMonth(store: Store<seq<ApiDay>>, settings: Settings, today: CivilDate, m: seq<ApiDay>, now: int)
    requires Valid(today) && today.day < DaysInMonth(today.year, today.month)
    ensures GetCachedMonth(SetCachedMonth(store, settings, today, m, now), settings, NextDay(today)) == Some(m)
  {
    SetThenGet(store, settings, today, m, now, NextDay(today));
  }

  /** A day that is missing from its month makes the whole lookup fail. */
  lemma MissingDayFails(store: Store<seq<ApiDay>>, settings: Settings, today: CivilDate,
                        f1: Option<seq<ApiDay>>, f2: Option<seq<ApiDay>>, dateText: string, now: int)
    requires Valid(today)
    requires GetCachedMonth(store, settings, today).Some?
    requires FindDay(GetCachedMonth(store, settings, today).value, today.day).None?
    ensures GetPrayerTimes(store, settings, today, f1, f2, dateText, now).0 == Err(DayNotFound(today.day))
  {
  }
}

=== FILE: notifications.dfy ===
/**
 * The foreground desktop notifications of useNotifications.ts: one shared
 * channel that shows at most one notification per minute, a set of keys that
 * were notified, and five checks run on every tick (pre-adhan, adhan, adhkar,
 * jumuah and qiyam), all on the raw, unadjusted times of today.
 */
module Notifications {
  import opened Wrappers
  import opened Clock
  import opened Prayers

  /** The minimum gap between two shown notifications. */
  const RateLimitMs: int := 60_000

  /** The keys of `notifiedPrayers`, one shape per check (the date string is the day). */
  datatype NKey =
    | PreKey(name: string, day: int, lead: int)
    | AdhanKey(name: string, day: int)
    | AdhkarKey(name: string, day: int)
    | JumuahKey(day: int)
    | QiyamKey(day: int)

  /** A notification that was shown, at the instant it was shown, with the key that asked for it. */
  datatype Shown = Shown(at: int, key: NKey)

  /**
   * The hook's state: `lastNotificationTime`, the notifications shown so far
   * (the observable effect) and `notifiedPrayers`.
   */
  datatype Notifier = Notifier(last: int, shown: seq<Shown>, notified: set<NKey>)

  /** The state of a freshly mounted hook. */
  const Initial: Notifier := Notifier(0, [], {})

  /**
   * What the state promises: shown notifications are at least a minute apart,
   * the last one is `last`, each one's key is recorded, and no key was shown twice.
   */
  predicate Ok(n: Notifier)
  {
    (|n.shown| > 0 ==> n.last == n.shown[|n.shown| - 1].at) &&
    (forall i :: 0 <= i < |n.shown| - 1 ==> n.shown[i + 1].at - n.shown[i].at >= RateLimitMs) &&
    (forall i :: 0 <= i < |n.shown| ==> n.shown[i].key in n.notified) &&
    (forall i, j :: 0 <= i < j < |n.shown| ==> n.shown[i].key != n.shown[j].key)
  }

  lemma InitialOk()
    ensures Ok(Initial)
  {
  }

  /**
   * `sendNotification`: shown only when permission is granted and a minute has
   * passed since the last shown one; `last` moves only when it is shown.
   */
  function Send(n: Notifier, granted: bool, now: int, key: NKey): (r: Notifier)
    ensures r.notified == n.notified
    ensures r.last == n.last || r.last == now
    ensures |r.shown| == |n.shown| + 1 <==> granted && now - n.last >= RateLimitMs
    ensures r.shown == n.shown || r.shown == n.shown + [Shown(now, key)]
    ensures r.last != n.last ==> |r.shown| == |n.shown| + 1
  {
    if granted && now - n.last >= RateLimitMs then Notifier(now, n.shown + [Shown(now, key)], n.notified)
    else n
  }

  /**
   * The step every check shares: a key not yet notified is sent and recorded,
   * recorded even when the channel suppressed it, so it is never retried.
   */
  function Fire(n: Notifier, granted: bool, now: int, key: NKey): (r: Notifier)
    ensures r.notified == n.notified + {key}
    ensures |r.shown| == |n.shown| + 1 <==> key !in n.notified && granted && now - n.last >= RateLimitMs
    ensures r.shown == n.shown || r.shown == n.shown + [Shown(now, key)]
    ensures AtMostOne(n, r, now)
    ensures Prompt(n, r, granted, now)
  {
    if key in n.notified then n
    else
      var m := Send(n, granted, now, key);
      m.(notified := m.notified + {key})
  }

  /**
   * One step of the channel: either nothing was shown and `last` stayed, or
   * exactly one notification was shown at `now`, the channel having been open.
   */
  predicate AtMostOne(n: Notifier, r: Notifier, now: int)
  {
    (r.shown == n.shown && r.last == n.last) ||
    (|r.shown| == |n.shown| + 1 && r.shown[..|n.shown|] == n.shown && r.last == now && now - n.last >= RateLimitMs)
  }

  /** Two steps at the same instant show at most one notification between them. */
  lemma Compose(n: Notifier, m: Notifier, r: Notifier, now: int)
    requires AtMostOne(n, m, now) && AtMostOne(m, r, now)
    ensures AtMostOne(n, r, now)
  {
    if |m.shown| == |n.shown| + 1 {
      assert r.shown == m.shown;
    } else if |r.shown| == |m.shown| + 1 {
      assert r.shown[..|n.shown|] == r.shown[..|m.shown|];
    }
  }

  /**
   * What a step promises about the channel beyond `AtMostOne`: it shows a
   * notification only for a key it newly recorded, and, when permission is
   * granted and the last one was a minute ago, a newly recorded key is shown.
   */
  predicate Prompt(n: Notifier, r: Notifier, granted: bool, now: int)
  {
    (|r.shown| > |n.shown| ==> r.notified != n.notified) &&
    (granted && now - n.last >= RateLimitMs && r.notified != n.notified ==> |r.shown| > |n.shown|)
  }

  /** Two prompt steps at the same instant make one prompt step. */
  lemma ComposePrompt(n: Notifier, m: Notifier, r: Notifier, granted: bool, now: int)
    requires n.notified <= m.notified <= r.notified
    requires AtMostOne(n, m, now) && AtMostOne(m, r, now)
    requires Prompt(n, m, granted, now) && Prompt(m, r, granted, now)
    ensures Prompt(n, r, granted, now)
  {
    if m.notified == n.notified {
      assert m.shown == n.shown && m.last == n.last;
    }
  }

  /** Firing keeps the promises of the state. */
  lemma FireOk(n: Notifier, granted: bool, now: int, key: NKey)
    requires Ok(n)
    ensures Ok(Fire(n, granted, now, key))
  {
    var r := Fire(n, granted, now, key);
    if |r.shown| == |n.shown| + 1 {
      assert r.shown[|r.shown| - 1] == Shown(now, key);
      if |n.shown| > 0 {
        assert r.shown[|n.shown| - 1] == n.shown[|n.shown| - 1];
      }
    }
  }

  /** A key met while the channel is closed is still recorded, and nothing is shown. */
  lemma SuppressedStillRecorded(n: Notifier, granted: bool, now: int, key: NKey)
    requires !granted || now - n.last < RateLimitMs
    ensures key in Fire(n, granted, now, key).notified
    ensures Fire(n, granted, now, key).shown == n.shown
  {
  }

  // ---------------------------------------------------------------------------
  // The five checks
  // ---------------------------------------------------------------------------

  /**
   * `Math.floor((next - now) / 60000) === lead`: the whole minutes left equal the lead.
   */
  predicate PreDue(next: int, now: int, lead: int)
  {
    (next - now) / MinuteMs == lead
  }

  /** The pre-adhan test is a one-minute window ending `lead` minutes before the next event. */
  lemma PreDueWindow(next: int, now: int, lead: int)
    ensures PreDue(next, now, lead) <==> lead * MinuteMs <= next - now < (lead + 1) * MinuteMs
  {
    var d := next - now;
    if PreDue(next, now, lead) {
      assert d == MinuteMs * lead + d % MinuteMs;
    } else if lead * MinuteMs <= d < (lead + 1) * MinuteMs {
      DivModUnique(d, MinuteMs, lead, d - lead * MinuteMs);
    }
  }

  /** The pre-adhan check, against the next event of the tracker. */
  function PreCheck(n: Notifier, settings: Settings, times: Option<Times>, next: Option<Event>,
                    now: int, granted: bool): (r: Notifier)
    ensures n.notified <= r.notified
    ensures !settings.desktopNotifications || times.None? || next.None? ==> r == n
    ensures AtMostOne(n, r, now)
    ensures r != n ==> (next.Some? && PreDue(next.value.time, now, settings.adhanPreNotification) &&
                        r == Fire(n, granted, now, PreKey(next.value.name, DayOf(next.value.time), settings.adhanPreNotification)))
    ensures settings.desktopNotifications && times.Some? && next.Some? &&
            PreDue(next.value.time, now, settings.adhanPreNotification) ==>
              PreKey(next.value.name, DayOf(next.value.time), settings.adhanPreNotification) in r.notified
    ensures Prompt(n, r, granted, now)
  {
    if !settings.desktopNotifications || times.None? || next.None? then n
    else
      var e := next.value;
      var lead := settings.adhanPreNotification;
      if PreDue(e.time, now, lead) then Fire(n, granted, now, PreKey(e.name, DayOf(e.time), lead)) else n
  }

  /** The two per-prayer checks: the adhan at the prayer's instant, the adhkar reminder 15 minutes after it. */
  datatype Kind = AdhanKind | AdhkarKind

  function Delay(kind: Kind): int
  {
    if kind == AdhkarKind then 15 * MinuteMs else 0
  }

  function KindKey(kind: Kind, name: string, day: int): NKey
  {
    if kind == AdhanKind then AdhanKey(name, day) else AdhkarKey(name, day)
  }

  /** The prayer's instant: its raw clock time on the current day, seconds zero. */
  function PrayerInstant(hm: HM, now: int): int
  {
    At(DayOf(now), hm, 0)
  }

  /** A one-minute window opening `Delay(kind)` after the prayer's instant. */
  predicate Due(kind: Kind, t: int, now: int)
  {
    t + Delay(kind) <= now < t + Delay(kind) + MinuteMs
  }

  /** `key` is the key of one of `names` whose raw time is usable and whose window holds `now`. */
  predicate PrayerDue(names: seq<PrayerName>, times: Times, kind: Kind, now: int, key: NKey)
  {
    exists i :: 0 <= i < |names| && Raw(times, names[i].key).Some? &&
      var t := PrayerInstant(Raw(times, names[i].key).value, now);
      Due(kind, t, now) && key == KindKey(kind, names[i].ar, DayOf(t))
  }

  /** `checkPrayerTime` / `checkAdhkarTime` for one prayer: skipped when its time is unusable or not due. */
  function CheckOne(n: Notifier, p: PrayerName, times: Times, kind: Kind, now: int, granted: bool): (r: Notifier)
    ensures n.notified <= r.notified
    ensures AtMostOne(n, r, now)
    ensures r != n ==> (Raw(times, p.key).Some? && Due(kind, PrayerInstant(Raw(times, p.key).value, now), now) &&
                        r == Fire(n, granted, now, KindKey(kind, p.ar, DayOf(PrayerInstant(Raw(times, p.key).value, now)))))
    ensures Raw(times, p.key).Some? && Due(kind, PrayerInstant(Raw(times, p.key).value, now), now) ==>
              KindKey(kind, p.ar, DayOf(PrayerInstant(Raw(times, p.key).value, now))) in r.notified
    ensures Prompt(n, r, granted, now)
  {
    match Raw(times, p.key)
    case None => n
    case Some(hm) =>
      var t := PrayerInstant(hm, now);
      if Due(kind, t, now) then Fire(n, granted, now, KindKey(kind, p.ar, DayOf(t))) else n
  }

  /** The per-prayer check applied to each name in turn. */
  function CheckEach(n: Notifier, names: seq<PrayerName>, times: Times, kind: Kind,
                     now: int, granted: bool): (r: Notifier)
    ensures n.notified <= r.notified
    ensures forall i :: |n.shown| <= i < |r.shown| ==> r.shown[i].at == now && PrayerDue(names, times, kind, now, r.shown[i].key)
    ensures forall k :: k in r.notified && k !in n.notified ==> PrayerDue(names, times, kind, now, k)
    ensures forall k :: PrayerDue(names, times, kind, now, k) ==> k in r.notified
    ensures AtMostOne(n, r, now)
    ensures Prompt(n, r, granted, now)
    decreases |names|
  {
    if |names| == 0 then n
    else
      var m := CheckOne(n, names[0], times, kind, now, granted);
      assert forall k :: k in m.notified && k !in n.notified ==> PrayerDue(names, times, kind, now, k);
      assert forall i :: |n.shown| <= i < |m.shown| ==> m.shown[i].at == now && PrayerDue(names, times, kind, now, m.shown[i].key);
      var r := CheckEach(m, names[1..], times, kind, now, granted);
      RestDue(names, times, kind, now);
      DueFirstOrRest(names, times, kind, now);
      Compose(n, m, r, now);
      ComposePrompt(n, m, r, granted, now);
      r
  }

  /** The key a prayer's check records when it is due. */
  predicate FirstDue(p: PrayerName, times: Times, kind: Kind, now: int, key: NKey)
  {
    Raw(times, p.key).Some? && Due(kind, PrayerInstant(Raw(times, p.key).value, now), now) &&
    key == KindKey(kind, p.ar, DayOf(PrayerInstant(Raw(times, p.key).value, now)))
  }

  /** A key due among the names is due for the first name or among the later ones. */
  lemma DueFirstOrRest(names: seq<PrayerName>, times: Times, kind: Kind, now: int)
    requires |names| > 0
    ensures forall k :: PrayerDue(names, times, kind, now, k) ==>
              FirstDue(names[0], times, kind, now, k) || PrayerDue(names[1..], times, kind, now, k)
  {
    forall k | PrayerDue(names, times, kind, now, k)
      ensures FirstDue(names[0], times, kind, now, k) || PrayerDue(names[1..], times, kind, now, k)
    {
      var i :| 0 <= i < |names| && Raw(times, names[i].key).Some? &&
        var t := PrayerInstant(Raw(times, names[i].key).value, now);
        Due(kind, t, now) && k == KindKey(kind, names[i].ar, DayOf(t));
      if i > 0 {
        assert names[1..][i - 1] == names[i];
      }
    }
  }

  /** Being due among the later names is being due among all of them. */
  lemma RestDue(names: seq<PrayerName>, times: Times, kind: Kind, now: int)
    requires |names| > 0
    ensures forall k :: PrayerDue(names[1..], times, kind, now, k) ==> PrayerDue(names, times, kind, now, k)
  {
    forall k | PrayerDue(names[1..], times, kind, now, k)
      ensures PrayerDue(names, times, kind, now, k)
    {
      var i :| 0 <= i < |names[1..]| && Raw(times, names[1..][i].key).Some? &&
        var t := PrayerInstant(Raw(times, names[1..][i].key).value, now);
        Due(kind, t, now) && k == KindKey(kind, names[1..][i].ar, DayOf(t));
      assert names[i + 1] == names[1..][i];
    }
  }

  /** The adhan (or adhkar) check over the five prayers; adhkar also needs its switch. */
  function PrayerCheck(n: Notifier, settings: Settings, times: Option<Times>, kind: Kind,
                       now: int, granted: bool): (r: Notifier)
    ensures n.notified <= r.notified
    ensures !settings.desktopNotifications || times.None? || (kind == AdhkarKind && !settings.showAdhkar) ==> r == n
    ensures AtMostOne(n, r, now)
    ensures forall i :: |n.shown| <= i < |r.shown| ==>
              times.Some? && PrayerDue(FivePrayers, times.value, kind, now, r.shown[i].key)
    ensures settings.desktopNotifications && times.Some? && (kind == AdhanKind || settings.showAdhkar) ==>
              forall k :: PrayerDue(FivePrayers, times.value, kind, now, k) ==> k in r.notified
    ensures Prompt(n, r, granted, now)
  {
    if !settings.desktopNotifications || times.None? || (kind == AdhkarKind && !settings.showAdhkar) then n
    else CheckEach(n, FivePrayers, times.value, kind, now, granted)
  }

  /** `key` is the Friday reminder's key and `now` is a Friday, in the minute one hour before the raw noon time. */
  predicate JumuahDue(times: Times, now: int, key: NKey)
  {
    WeekDay(DayOf(now)) == 5 && Raw(times, Dhuhr).Some? &&
    var t := PrayerInstant(Raw(times, Dhuhr).value, now);
    t - HourMs <= now < t - HourMs + MinuteMs && key == JumuahKey(DayOf(t))
  }

  /** The jumuah check: on Fridays, a one-minute window an hour before the raw noon time. */
  function JumuahCheck(n: Notifier, settings: Settings, times: Option<Times>, now: int, granted: bool): (r: Notifier)
    ensures n.notified <= r.notified
    ensures AtMostOne(n, r, now)
    ensures r != n ==> (settings.desktopNotifications && settings.showJumuah && WeekDay(DayOf(now)) == 5 &&
                        times.Some? && Raw(times.value, Dhuhr).Some? &&
                        var t := PrayerInstant(Raw(times.value, Dhuhr).value, now);
                        t - HourMs <= now < t - HourMs + MinuteMs && r == Fire(n, granted, now, JumuahKey(DayOf(t))))
    ensures settings.desktopNotifications && settings.showJumuah && times.Some? ==>
              forall k :: JumuahDue(times.value, now, k) ==> k in r.notified
    ensures Prompt(n, r, granted, now)
  {
    if !settings.desktopNotifications || !settings.showJumuah || times.None? || !Present(times.value, Dhuhr) then n
    else if WeekDay(DayOf(now)) != 5 then n
    else
      match Raw(times.value, Dhuhr)
      case None => n
      case Some(hm) =>
        var t := PrayerInstant(hm, now);
        var reminder := t - 60 * MinuteMs;
        if reminder <= now < reminder + MinuteMs then Fire(n, granted, now, JumuahKey(DayOf(t))) else n
  }

  /**
   * `now >= maghrib + night * 2 / 3 && now < ... + 60000`, with the division
   * exact (the JavaScript value is a fraction): the minute that opens the last
   * third of the night.
   */
  predicate InLastThirdStart(maghrib: int, fajr: int, now: int)
  {
    2 * (fajr - maghrib) <= 3 * (now - maghrib) < 2 * (fajr - maghrib) + 3 * MinuteMs
  }

  /**
   * The night-prayer key the hook as written records at `now`: the last third
   * between today's maghrib and today's raw dawn placed on the next date
   * opens in this minute, and the key names the maghrib's day.
   */
  predicate WrittenQiyamDue(times: Times, now: int, key: NKey)
  {
    Raw(times, Maghrib).Some? && Raw(times, Fajr).Some? &&
    var m := PrayerInstant(Raw(times, Maghrib).value, now);
    InLastThirdStart(m, At(DayOf(now) + 1, Raw(times, Fajr).value, 0), now) && key == QiyamKey(DayOf(m))
  }

  /**
   * The qiyam check as the hook writes it: today's maghrib, and today's raw
   * dawn placed on the next date. Both anchors follow `now` across midnight,
   * so this models the code as written (see `QiyamAsWrittenSilent`); `Tick`
   * uses it, and `NightTick` uses the corrected `NightQiyamCheck`.
   */
  function QiyamCheck(n: Notifier, settings: Settings, times: Option<Times>, now: int, granted: bool): (r: Notifier)
    ensures n.notified <= r.notified
    ensures AtMostOne(n, r, now)
    ensures Prompt(n, r, granted, now)
    ensures settings.desktopNotifications && settings.showQiyam && times.Some? ==>
              forall k :: WrittenQiyamDue(times.value, now, k) ==> k in r.notified
    ensures r != n ==> (settings.desktopNotifications && settings.showQiyam && times.Some? &&
                        Raw(times.value, Maghrib).Some? && Raw(times.value, Fajr).Some? &&
                        var m := PrayerInstant(Raw(times.value, Maghrib).value, now);
                        var f := At(DayOf(now) + 1, Raw(times.value, Fajr).value, 0);
                        InLastThirdStart(m, f, now) && r == Fire(n, granted, now, QiyamKey(DayOf(m))))
  {
    if !settings.desktopNotifications || !settings.showQiyam || times.None? then n
    else if !Present(times.value, Maghrib) || !Present(times.value, Fajr) then n
    else
      match (Raw(times.value, Maghrib), Raw(times.value, Fajr))
      case (Some(mh), Some(fh)) =>
        var m := PrayerInstant(mh, now);
        var f := At(DayOf(now) + 1, fh, 0);
        if InLastThirdStart(m, f, now) then Fire(n, granted, now, QiyamKey(DayOf(m))) else n
      case _ => n
  }

  /**
   * As written, the window is never reached once maghrib plus twice fajr (in
   * minutes of the day) is a full day or more: by the time the last third
   * starts it is past midnight, and both anchors have moved on by a day.
   */
  lemma QiyamAsWrittenSilent(n: Notifier, settings: Settings, times: Times, now: int, granted: bool)
    requires Raw(times, Maghrib).Some? && Raw(times, Fajr).Some?
    requires Minutes(Raw(times, Maghrib).value, 0) + 2 * Minutes(Raw(times, Fajr).value, 0) >= MinutesPerDay
    ensures QiyamCheck(n, settings, Some(times), now, granted) == n
  {
    var mh := Raw(times, Maghrib).value;
    var fh := Raw(times, Fajr).value;
    NotInShiftedThird(mh, fh, now);
  }

  lemma NotInShiftedThird(mh: HM, fh: HM, now: int)
    requires Minutes(mh, 0) + 2 * Minutes(fh, 0) >= MinutesPerDay
    ensures !InLastThirdStart(PrayerInstant(mh, now), At(DayOf(now) + 1, fh, 0), now)
  {
    var d := DayOf(now);
    assert PrayerInstant(mh, now) == DayStart(d) + Minutes(mh, 0) * MinuteMs;
    assert At(d + 1, fh, 0) == DayStart(d) + DayMs + Minutes(fh, 0) * MinuteMs;
  }

  /**
   * The night `now` belongs to, named by the day of its maghrib: before
   * today's maghrib it is still the night that began at the previous day's
   * maghrib, as the comment at the head of the check intends.
   */
  function QiyamNight(mh: HM, now: int): (d: int)
    ensures d == DayOf(now) || d == DayOf(now) - 1
  {
    if now < At(DayOf(now), mh, 0) then DayOf(now) - 1 else DayOf(now)
  }

  /**
   * `key` is the night-prayer key of the night beginning on day `key.day`,
   * whose last third begins in the minute of `now`; maghrib and fajr are clock
   * times of one day with fajr not after maghrib.
   */
  predicate QiyamDue(times: Times, now: int, key: NKey)
  {
    key.QiyamKey? && Raw(times, Maghrib).Some? && Raw(times, Fajr).Some? &&
    var mh := Raw(times, Maghrib).value;
    var fh := Raw(times, Fajr).value;
    Minutes(fh, 0) <= Minutes(mh, 0) < MinutesPerDay &&
    InLastThirdStart(At(key.day, mh, 0), At(key.day + 1, fh, 0), now)
  }

  /**
   * The corrected qiyam check: the night is the one `now` belongs to, from its
   * maghrib to the dawn of the following day.
   */
  function NightQiyamCheck(n: Notifier, settings: Settings, times: Option<Times>, now: int, granted: bool): (r: Notifier)
    ensures n.notified <= r.notified
    ensures AtMostOne(n, r, now)
    ensures Prompt(n, r, granted, now)
    ensures r != n ==> (settings.desktopNotifications && settings.showQiyam && times.Some? &&
                        Raw(times.value, Maghrib).Some? && Raw(times.value, Fajr).Some? &&
                        var mh := Raw(times.value, Maghrib).value;
                        var d := QiyamNight(mh, now);
                        InLastThirdStart(At(d, mh, 0), At(d + 1, Raw(times.value, Fajr).value, 0), now) &&
                        r == Fire(n, granted, now, QiyamKey(DayOf(At(d, mh, 0)))))
    ensures settings.desktopNotifications && settings.showQiyam && times.Some? ==>
              forall k :: QiyamDue(times.value, now, k) ==> k in r.notified
  {
    if !settings.desktopNotifications || !settings.showQiyam || times.None? then n
    else if !Present(times.value, Maghrib) || !Present(times.value, Fajr) then n
    else
      match (Raw(times.value, Maghrib), Raw(times.value, Fajr))
      case (Some(mh), Some(fh)) =>
        var d := QiyamNight(mh, now);
        var m := At(d, mh, 0);
        var f := At(d + 1, fh, 0);
        QiyamDueIsTonight(times.value, now);
        if InLastThirdStart(m, f, now) then Fire(n, granted, now, QiyamKey(DayOf(m))) else n
      case _ => n
  }

  /** A due night-prayer key is the key of the night `now` belongs to. */
  lemma QiyamDueIsTonight(times: Times, now: int)
    ensures forall k :: QiyamDue(times, now, k) ==>
              var mh := Raw(times, Maghrib).value;
              QiyamNight(mh, now) == k.day && DayOf(At(k.day, mh, 0)) == k.day
  {
    forall k | QiyamDue(times, now, k)
      ensures QiyamNight(Raw(times, Maghrib).value, now) == k.day &&
              DayOf(At(k.day, Raw(times, Maghrib).value, 0)) == k.day
    {
      NightOfLastThird(Raw(times, Maghrib).value, Raw(times, Fajr).value, now, k.day);
    }
  }

  /**
   * The minute that opens the last third of the night beginning on day `d`
   * lies in that night: `QiyamNight` names `d`, and the maghrib falls on `d`.
   */
  lemma NightOfLastThird(mh: HM, fh: HM, now: int, d: int)
    requires Minutes(fh, 0) <= Minutes(mh, 0) < MinutesPerDay
    requires InLastThirdStart(At(d, mh, 0), At(d + 1, fh, 0), now)
    ensures QiyamNight(mh, now) == d && DayOf(At(d, mh, 0)) == d
  {
    var m := At(d, mh, 0);
    assert m == DayStart(d) + Minutes(mh, 0) * MinuteMs;
    assert At(d + 1, fh, 0) == DayStart(d) + DayMs + Minutes(fh, 0) * MinuteMs;
    assert DayStart(d) <= now < DayStart(d) + 2 * DayMs;
    DayOfBetween(now, d);
    DivModUnique(m, DayMs, d, Minutes(mh, 0) * MinuteMs);
    if DayOf(now) == d + 1 {
      assert At(d + 1, mh, 0) == m + DayMs;
    }
  }

  /** An instant within two days from the start of day `d` falls on `d` or `d + 1`. */
  lemma DayOfBetween(t: int, d: int)
    requires DayStart(d) <= t < DayStart(d) + 2 * DayMs
    ensures DayOf(t) == d || DayOf(t) == d + 1
    ensures DayOf(t) == d <==> t < DayStart(d) + DayMs
  {
    if t < DayStart(d) + DayMs {
      DivModUnique(t, DayMs, d, t - DayStart(d));
    } else {
      DivModUnique(t, DayMs, d + 1, t - DayStart(d) - DayMs);
    }
  }

  /**
   * The corrected check records the key of the night in the minute its last
   * third begins, and shows it when permission is granted and the channel is open.
   */
  lemma NightQiyamFires(n: Notifier, settings: Settings, times: Times, now: int, granted: bool, d: int)
    requires settings.desktopNotifications && settings.showQiyam
    requires QiyamDue(times, now, QiyamKey(d))
    ensures QiyamKey(d) in NightQiyamCheck(n, settings, Some(times), now, granted).notified
    ensures QiyamKey(d) !in n.notified && granted && now - n.last >= RateLimitMs ==>
              NightQiyamCheck(n, settings, Some(times), now, granted).shown == n.shown + [Shown(now, QiyamKey(d))]
  {
    QiyamDueIsTonight(times, now);
  }

  /**
   * The night from 18:00 to 06:00: at 02:00 after it the last third begins.
   * As written nothing happens, because the check places that minute against
   * the following evening; the corrected check records the night's key.
   */
  lemma QiyamExample(n: Notifier, settings: Settings, times: Times, granted: bool, d: int)
    requires settings.desktopNotifications && settings.showQiyam
    requires Raw(times, Maghrib) == Some(HM(18, 0)) && Raw(times, Fajr) == Some(HM(6, 0))
    ensures InLastThirdStart(At(d, HM(18, 0), 0), At(d + 1, HM(6, 0), 0), At(d + 1, HM(2, 0), 0))
    ensures !InLastThirdStart(At(d, HM(18, 0), 0), At(d + 1, HM(6, 0), 0), At(d + 1, HM(2, 0), 0) - 1)
    ensures QiyamCheck(n, settings, Some(times), At(d + 1, HM(2, 0), 0), granted) == n
    ensures QiyamKey(d) in NightQiyamCheck(n, settings, Some(times), At(d + 1, HM(2, 0), 0), granted).notified
  {
    QiyamAsWrittenSilent(n, settings, times, At(d + 1, HM(2, 0), 0), granted);
    NightQiyamFires(n, settings, times, At(d + 1, HM(2, 0), 0), granted, d);
  }

  /** A key that one of the four daytime checks would record: which check is told by the key's shape. */
  predicate DayDue(settings: Settings, times: Times, next: Option<Event>, now: int, key: NKey)
  {
    (next.Some? && PreDue(next.value.time, now, settings.adhanPreNotification) &&
     key == PreKey(next.value.name, DayOf(next.value.time), settings.adhanPreNotification)) ||
    PrayerDue(FivePrayers, times, AdhanKind, now, key) ||
    (settings.showAdhkar && PrayerDue(FivePrayers, times, AdhkarKind, now, key)) ||
    (settings.showJumuah && JumuahDue(times, now, key))
  }

  /**
   * The first four effects of the hook, in the order it declares them: the
   * pre-adhan reminder, the adhan, the adhkar and the jumuah checks.
   */
  function DayChecks(n: Notifier, settings: Settings, times: Option<Times>, next: Option<Event>,
                     now: int, granted: bool): (r: Notifier)
    ensures n.notified <= r.notified
    ensures !settings.desktopNotifications || times.None? ==> r == n
    ensures AtMostOne(n, r, now)
    ensures Prompt(n, r, granted, now)
    ensures settings.desktopNotifications && times.Some? ==>
              forall k :: DayDue(settings, times.value, next, now, k) ==> k in r.notified
  {
    var a := PreCheck(n, settings, times, next, now, granted);
    var b := PrayerCheck(a, settings, times, AdhanKind, now, granted);
    var c := PrayerCheck(b, settings, times, AdhkarKind, now, granted);
    var d := JumuahCheck(c, settings, times, now, granted);
    Compose(n, a, b, now);
    ComposePrompt(n, a, b, granted, now);
    Compose(n, b, c, now);
    ComposePrompt(n, b, c, granted, now);
    Compose(n, c, d, now);
    ComposePrompt(n, c, d, granted, now);
    d
  }

  /** A key that one of the checks of a tick, as the hook writes them, would record. */
  predicate TickDue(settings: Settings, times: Times, next: Option<Event>, now: int, key: NKey)
  {
    DayDue(settings, times, next, now, key) || (settings.showQiyam && WrittenQiyamDue(times, now, key))
  }

  /**
   * One tick of the hook as written: the four daytime effects, then the qiyam
   * check with its anchors as the code places them. Every key that falls due
   * is recorded, and when permission is granted and the channel is open, a
   * tick with a new due key shows exactly one notification.
   */
  function Tick(n: Notifier, settings: Settings, times: Option<Times>, next: Option<Event>,
                now: int, granted: bool): (r: Notifier)
    ensures n.notified <= r.notified
    ensures !settings.desktopNotifications || times.None? ==> r == n
    ensures AtMostOne(n, r, now)
    ensures settings.desktopNotifications && times.Some? ==>
              forall k :: TickDue(settings, times.value, next, now, k) ==> k in r.notified
    ensures settings.desktopNotifications && times.Some? && granted && now - n.last >= RateLimitMs &&
            (exists k :: TickDue(settings, times.value, next, now, k) && k !in n.notified) ==>
              |r.shown| == |n.shown| + 1
  {
    var d := DayChecks(n, settings, times, next, now, granted);
    var e := QiyamCheck(d, settings, times, now, granted);
    Compose(n, d, e, now);
    ComposePrompt(n, d, e, granted, now);
    e
  }

  /** A key that one of the checks of a tick, with the qiyam night corrected, would record. */
  predicate NightTickDue(settings: Settings, times: Times, next: Option<Event>, now: int, key: NKey)
  {
    DayDue(settings, times, next, now, key) || (settings.showQiyam && QiyamDue(times, now, key))
  }

  /**
   * One tick with the corrected qiyam check: the same four daytime effects,
   * then `NightQiyamCheck`, so the night prayer is recorded in the minute the
   * last third of the night opens.
   */
  function NightTick(n: Notifier, settings: Settings, times: Option<Times>, next: Option<Event>,
                     now: int, granted: bool): (r: Notifier)
    ensures n.notified <= r.notified
    ensures !settings.desktopNotifications || times.None? ==> r == n
    ensures AtMostOne(n, r, now)
    ensures settings.desktopNotifications && times.Some? ==>
              forall k :: NightTickDue(settings, times.value, next, now, k) ==> k in r.notified
    ensures settings.desktopNotifications && times.Some? && granted && now - n.last >= RateLimitMs &&
            (exists k :: NightTickDue(settings, times.value, next, now, k) && k !in n.notified) ==>
              |r.shown| == |n.shown| + 1
  {
    var d := DayChecks(n, settings, times, next, now, granted);
    var e := NightQiyamCheck(d, settings, times, now, granted);
    Compose(n, d, e, now);
    ComposePrompt(n, d, e, granted, now);
    e
  }

  // ---------------------------------------------------------------------------
  // Properties across ticks
  // ---------------------------------------------------------------------------

  /** One per-prayer check keeps the promises of the state. */
  lemma CheckOneOk(n: Notifier, p: PrayerName, times: Times, kind: Kind, now: int, granted: bool)
    requires Ok(n)
    ensures Ok(CheckOne(n, p, times, kind, now, granted))
  {
    if CheckOne(n, p, times, kind, now, granted) != n {
      FireOk(n, granted, now, KindKey(kind, p.ar, DayOf(PrayerInstant(Raw(times, p.key).value, now))));
    }
  }

  /** The per-prayer loop keeps the promises of the state. */
  lemma {:induction false} CheckEachOk(n: Notifier, names: seq<PrayerName>, times: Times, kind: Kind,
                                       now: int, granted: bool)
    requires Ok(n)
    ensures Ok(CheckEach(n, names, times, kind, now, granted))
    decreases |names|
  {
    if |names| > 0 {
      CheckOneOk(n, names[0], times, kind, now, granted);
      CheckEachOk(CheckOne(n, names[0], times, kind, now, granted), names[1..], times, kind, now, granted);
    }
  }

  /**
   * Every tick keeps the promises: notifications at least a minute apart,
   * each key shown at most once, and each shown key recorded.
   */
  lemma TickOk(n: Notifier, settings: Settings, times: Option<Times>, next: Option<Event>, now: int, granted: bool)
    requires Ok(n)
    ensures Ok(Tick(n, settings, times, next, now, granted))
  {
    DayChecksOk(n, settings, times, next, now, granted);
    QiyamCheckOk(DayChecks(n, settings, times, next, now, granted), settings, times, now, granted);
  }

  /** The four daytime checks keep the promises of the state. */
  lemma DayChecksOk(n: Notifier, settings: Settings, times: Option<Times>, next: Option<Event>, now: int, granted: bool)
    requires Ok(n)
    ensures Ok(DayChecks(n, settings, times, next, now, granted))
  {
    var a := PreCheck(n, settings, times, next, now, granted);
    PreCheckOk(n, settings, times, next, now, granted);
    var b := PrayerCheck(a, settings, times, AdhanKind, now, granted);
    PrayerCheckOk(a, settings, times, AdhanKind, now, granted);
    var c := PrayerCheck(b, settings, times, AdhkarKind, now, granted);
    PrayerCheckOk(b, settings, times, AdhkarKind, now, granted);
    JumuahCheckOk(c, settings, times, now, granted);
  }

  /** Every tick with the corrected qiyam check keeps the promises as well. */
  lemma NightTickOk(n: Notifier, settings: Settings, times: Option<Times>, next: Option<Event>, now: int, granted: bool)
    requires Ok(n)
    ensures Ok(NightTick(n, settings, times, next, now, granted))
  {
    DayChecksOk(n, settings, times, next, now, granted);
    NightQiyamCheckOk(DayChecks(n, settings, times, next, now, granted), settings, times, now, granted);
  }

  /** The pre-adhan check keeps the promises of the state. */
  lemma PreCheckOk(n: Notifier, settings: Settings, times: Option<Times>, next: Option<Event>, now: int, granted: bool)
    requires Ok(n)
    ensures Ok(PreCheck(n, settings, times, next, now, granted))
  {
    if PreCheck(n, settings, times, next, now, granted) != n {
      FireOk(n, granted, now, PreKey(next.value.name, DayOf(next.value.time), settings.adhanPreNotification));
    }
  }

  /** The adhan and adhkar checks keep the promises of the state. */
  lemma PrayerCheckOk(n: Notifier, settings: Settings, times: Option<Times>, kind: Kind, now: int, granted: bool)
    requires Ok(n)
    ensures Ok(PrayerCheck(n, settings, times, kind, now, granted))
  {
    if settings.desktopNotifications && times.Some? {
      CheckEachOk(n, FivePrayers, times.value, kind, now, granted);
    }
  }

  /** The jumuah check keeps the promises of the state. */
  lemma JumuahCheckOk(n: Notifier, settings: Settings, times: Option<Times>, now: int, granted: bool)
    requires Ok(n)
    ensures Ok(JumuahCheck(n, settings, times, now, granted))
  {
    if JumuahCheck(n, settings, times, now, granted) != n {
      FireOk(n, granted, now, JumuahKey(DayOf(PrayerInstant(Raw(times.value, Dhuhr).value, now))));
    }
  }

  /** The qiyam check keeps the promises of the state. */
  lemma QiyamCheckOk(n: Notifier, settings: Settings, times: Option<Times>, now: int, granted: bool)
    requires Ok(n)
    ensures Ok(QiyamCheck(n, settings, times, now, granted))
  {
    if QiyamCheck(n, settings, times, now, granted) != n {
      FireOk(n, granted, now, QiyamKey(DayOf(PrayerInstant(Raw(times.value, Maghrib).value, now))));
    }
  }

  /** The corrected qiyam check keeps the promises of the state. */
  lemma NightQiyamCheckOk(n: Notifier, settings: Settings, times: Option<Times>, now: int, granted: bool)
    requires Ok(n)
    ensures Ok(NightQiyamCheck(n, settings, times, now, granted))
  {
    if NightQiyamCheck(n, settings, times, now, granted) != n {
      var mh := Raw(times.value, Maghrib).value;
      FireOk(n, granted, now, QiyamKey(DayOf(At(QiyamNight(mh, now), mh, 0))));
    }
  }

  /** A tick shows at most one notification: the first one shown closes the channel for the minute. */
  lemma AtMostOnePerTick(n: Notifier, settings: Settings, times: Option<Times>, next: Option<Event>,
                         now: int, granted: bool)
    ensures |Tick(n, settings, times, next, now, granted).shown| <= |n.shown| + 1
  {
  }

  /** When notifications are off or there are no times, a tick changes nothing. */
  lemma InertWhenOff(n: Notifier, settings: Settings, times: Option<Times>, next: Option<Event>, now: int, granted: bool)
    requires !settings.desktopNotifications || times.None?
    ensures Tick(n, settings, times, next, now, granted) == n
  {
  }
}

=== FILE: offscreen.dfy ===
/**
 * The offscreen audio document (public/offscreen.js): a single channel that
 * holds at most one current audio. Playing stops the current one first;
 * stopping pauses it, rewinds it and forgets it.
 */
module Offscreen {
  import opened Wrappers
  import opened Prayers

  /** An `Audio` element: its source, volume, whether it is paused, and its position. */
  datatype Audio = Audio(url: string, volume: real, paused: bool, position: real)

  /**
   * The document's state: `currentAudio`, and the audios it let go of (a
   * stopped audio stays in memory, paused).
   */
  datatype Channel = Channel(current: Option<Audio>, released: seq<Audio>)

  const Idle: Channel := Channel(None, [])

  /** At most one audio can be heard: every released audio is paused. */
  predicate Ok(c: Channel)
  {
    forall i :: 0 <= i < |c.released| ==> c.released[i].paused
  }

  /** `stopAudio`: pause and rewind the current audio, then drop it; nothing when there is none. */
  function StopAudio(c: Channel): (r: Channel)
    ensures r.current.None?
    ensures c.current.None? ==> r == c
    ensures c.current.Some? ==> r.released == c.released + [c.current.value.(paused := true, position := 0.0)]
  {
    match c.current
    case None => c
    case Some(a) => Channel(None, c.released + [a.(paused := true, position := 0.0)])
  }

  /** `playAudio(url, volume)`: stop whatever plays, then start a new audio at `volume || 1.0`. */
  function PlayAudio(c: Channel, url: string, volume: real): (r: Channel)
    ensures r.current == Some(Audio(url, OrFull(volume), false, 0.0))
    ensures r.released == StopAudio(c).released
  {
    var s := StopAudio(c);
    Channel(Some(Audio(url, OrFull(volume), false, 0.0)), s.released)
  }

  /** The `onended` handler: the finished audio is forgotten. */
  function Ended(c: Channel): (r: Channel)
    ensures r.current.None? && r.released == c.released
  {
    Channel(None, c.released)
  }

  /** The status reply: playing when there is a current audio and it is not paused. */
  predicate Playing(c: Channel)
  {
    c.current.Some? && !c.current.value.paused
  }

  /** The messages the document answers. */
  datatype Message = PlayMsg(url: string, volume: real) | StopMsg | StatusMsg

  /** The listener: play, stop, or (for a status request) no change. */
  function Handle(c: Channel, m: Message): (r: Channel)
  {
    match m
    case PlayMsg(url, volume) => PlayAudio(c, url, volume)
    case StopMsg => StopAudio(c)
    case StatusMsg => c
  }

  /** Every message keeps at most one audio audible. */
  lemma HandleOk(c: Channel, m: Message)
    requires Ok(c)
    ensures Ok(Handle(c, m))
  {
  }

  /** After any run of messages from the idle state at most one audio is audible. */
  lemma {:induction false} RunOk(ms: seq<Message>)
    ensures Ok(Run(Idle, ms))
    decreases |ms|
  {
    if |ms| > 0 {
      RunOk(ms[..|ms| - 1]);
      HandleOk(Run(Idle, ms[..|ms| - 1]), ms[|ms| - 1]);
    }
  }

  /** The state after handling the messages in order. */
  function Run(c: Channel, ms: seq<Message>): Channel
    decreases |ms|
  {
    if |ms| == 0 then c else Handle(Run(c, ms[..|ms| - 1]), ms[|ms| - 1])
  }

  /** Playing something makes the status report playing, at the requested or full volume. */
  lemma PlayThenStatus(c: Channel, url: string, volume: real)
    ensures Playing(PlayAudio(c, url, volume))
    ensures volume == 0.0 ==> PlayAudio(c, url, volume).current.value.volume == 1.0
  {
  }

  /** The audio that was playing is paused and rewound by the next play. */
  lemma PlayStopsPrevious(c: Channel, url: string, volume: real)
    requires c.current.Some?
    ensures var r := PlayAudio(c, url, volume);
      |r.released| > 0 && r.released[|r.released| - 1].url == c.current.value.url &&
      r.released[|r.released| - 1].paused && r.released[|r.released| - 1].position == 0.0
  {
  }

  /** Stopping twice is stopping once, and stopping leaves nothing playing. */
  lemma StopIdempotent(c: Channel)
    ensures StopAudio(StopAudio(c)) == StopAudio(c)
    ensures !Playing(StopAudio(c))
  {
  }
}

=== FILE: panel.dfy ===
/**
 * The adjustment panel (components/AdjustmentPanel.tsx): the per-prayer
 * minute steppers, the per-prayer and global adhan sound choices, the mute
 * button, the test-adhan button and the adjusted time shown next to each
 * prayer.
 */
module Panel {
  import opened Wrappers
  import opened Text
  import opened Clock
  import opened Prayers
  import opened Adjust
  import Adhan

  // ---------------------------------------------------------------------------
  // Minute adjustments
  // ---------------------------------------------------------------------------

  /** `handleAdjustmentChange(key, value)`: the offset of `k` becomes `v`, every other entry stays. */
  function SetAdjustment(adj: Adjustments, k: PrayerKey, v: int): (r: Adjustments)
    ensures Offset(r, k) == v
    ensures forall j :: j != k ==> (j in r <==> j in adj)
    ensures forall j :: j in adj && j != k ==> r[j] == adj[j]
  {
    adj[k := v]
  }

  /** The stepper of `AdjustmentControl`: − and + call the change handler with the shown value ∓ 1. */
  datatype Step = Minus | Plus

  function Press(adj: Adjustments, k: PrayerKey, s: Step): (r: Adjustments)
    ensures s == Minus ==> Offset(r, k) == Offset(adj, k) - 1
    ensures s == Plus ==> Offset(r, k) == Offset(adj, k) + 1
    ensures forall j :: j != k ==> Offset(r, j) == Offset(adj, j)
  {
    SetAdjustment(adj, k, Offset(adj, k) + (if s == Plus then 1 else -1))
  }

  /** + undoes −, and − undoes +: the offsets seen by every prayer are back where they were. */
  lemma PressUndo(adj: Adjustments, k: PrayerKey)
    ensures forall j :: Offset(Press(Press(adj, k, Minus), k, Plus), j) == Offset(adj, j)
    ensures forall j :: Offset(Press(Press(adj, k, Plus), k, Minus), j) == Offset(adj, j)
  {
  }

  /** One press moves the prayer's adjusted minute by exactly one, wrapping at midnight. */
  lemma {:induction false} PressShiftsTime(t: Times, adj: Adjustments, k: PrayerKey)
    requires Raw(t, k).Some?
    ensures Shifted(t, Press(adj, k, Plus), k) == Wrap(Shifted(t, adj, k) + 1)
    ensures Shifted(t, Press(adj, k, Minus), k) == Wrap(Shifted(t, adj, k) - 1)
  {
    var m := Minutes(Raw(t, k).value, Offset(adj, k));
    assert Minutes(Raw(t, k).value, Offset(adj, k) + 1) == m + 1;
    assert Minutes(Raw(t, k).value, Offset(adj, k) - 1) == m - 1;
    WrapStep(m);
  }

  /** Wrapping commutes with a step of one minute. */
  lemma WrapStep(m: int)
    ensures Wrap(m + 1) == Wrap(Wrap(m) + 1)
    ensures Wrap(m - 1) == Wrap(Wrap(m) - 1)
  {
    var q := m / MinutesPerDay;
    assert m == MinutesPerDay * q + Wrap(m);
    DivModUnique(m + 1, MinutesPerDay, q + (Wrap(m) + 1) / MinutesPerDay, (Wrap(m) + 1) % MinutesPerDay);
    DivModUnique(m - 1, MinutesPerDay, q + (Wrap(m) - 1) / MinutesPerDay, (Wrap(m) - 1) % MinutesPerDay);
  }

  // ---------------------------------------------------------------------------
  // The panel's state
  // ---------------------------------------------------------------------------

  /**
   * The panel: the settings it edits, the test adhan it is playing (its
   * volume follows `settings.volume` while it plays) and the volume saved
   * by the last mute.
   */
  datatype PanelState = PanelState(settings: Settings, playing: Option<Sound>, preMute: real)

  /** On mount nothing plays and the saved volume is the current one. */
  function Mount(settings: Settings): (p: PanelState)
    ensures p.playing.None? && p.preMute == settings.volume && p.settings == settings
  {
    PanelState(settings, None, settings.volume)
  }

  /** The test adhan ended, failed to load or failed to start: nothing plays. */
  function TestEnded(p: PanelState): (r: PanelState)
    ensures r.playing.None? && r.settings == p.settings && r.preMute == p.preMute
  {
    p.(playing := None)
  }

  /**
   * `handlePlayTestAdhan(soundName)`: a playing test adhan is stopped and
   * nothing else happens; otherwise the named sound (the global sound when
   * no name is given, written "") starts, unless the name is unknown.
   */
  function PlayTest(p: PanelState, soundName: string): (r: PanelState)
    ensures r.settings == p.settings && r.preMute == p.preMute
    ensures p.playing.Some? ==> r.playing.None?
    ensures p.playing.None? && FindSound(TestName(p.settings, soundName)).None? ==> r == p
    ensures p.playing.None? && FindSound(TestName(p.settings, soundName)).Some? ==>
              r.playing.Some? && r.playing.value in AdhanSounds && r.playing.value.name == TestName(p.settings, soundName)
  {
    if p.playing.Some? then p.(playing := None)
    else
      match FindSound(TestName(p.settings, soundName))
      case Some(s) => p.(playing := Some(s))
      case None => p
  }

  /** `soundName || settings.adhanSound`. */
  function TestName(settings: Settings, soundName: string): string
  {
    if soundName != "" then soundName else settings.adhanSound
  }

  /** The play button toggles: pressing it twice on a known sound plays and then stops. */
  lemma PlayTestToggles(p: PanelState, soundName: string)
    requires p.playing.None? && FindSound(TestName(p.settings, soundName)).Some?
    ensures PlayTest(p, soundName).playing.Some?
    ensures PlayTest(PlayTest(p, soundName), soundName) == p
  {
  }

  /** `handleGlobalAdhanSoundChange`: the test adhan stops, then only the global sound changes. */
  function SetGlobalSound(p: PanelState, name: string): (r: PanelState)
    ensures r.playing.None? && r.preMute == p.preMute
    ensures r.settings.adhanSound == name
    ensures r.settings.(adhanSound := p.settings.adhanSound) == p.settings
  {
    PanelState(p.settings.(adhanSound := name), None, p.preMute)
  }

  /** The choice that removes a prayer's own sound. */
  const DefaultChoice: string := "default"

  /**
   * `handleSpecificAdhanSoundChange(key, name)`: the test adhan stops; the
   * choice "default" deletes the prayer's override, any other name sets it.
   */
  function SetSpecificSound(p: PanelState, k: PrayerKey, name: string): (r: PanelState)
    ensures r.playing.None? && r.preMute == p.preMute
    ensures k in r.settings.adhanSounds <==> name != DefaultChoice
    ensures name != DefaultChoice ==> r.settings.adhanSounds[k] == name
    ensures forall j :: j != k ==> (j in r.settings.adhanSounds <==> j in p.settings.adhanSounds)
    ensures forall j :: j != k && j in p.settings.adhanSounds ==> r.settings.adhanSounds[j] == p.settings.adhanSounds[j]
    ensures r.settings.(adhanSounds := p.settings.adhanSounds) == p.settings
  {
    var sounds := if name == DefaultChoice then p.settings.adhanSounds - {k} else p.settings.adhanSounds[k := name];
    PanelState(p.settings.(adhanSounds := sounds), None, p.preMute)
  }

  /**
   * What the choice means for the foreground adhan: after "default" the
   * prayer plays the global sound, after a known name it plays that sound.
   */
  lemma SpecificSoundIsUsed(p: PanelState, k: PrayerKey, name: string)
    ensures name == DefaultChoice && FindSound(p.settings.adhanSound).Some? ==>
              Adhan.SoundFor(SetSpecificSound(p, k, name).settings, k).name == p.settings.adhanSound
    ensures name != DefaultChoice && name != "" && FindSound(name).Some? ==>
              Adhan.SoundFor(SetSpecificSound(p, k, name).settings, k).name == name
  {
  }

  /**
   * `handleMuteToggle`: a positive volume is saved and set to 0; otherwise
   * the saved volume comes back, or 0.1 when the saved one is not positive.
   */
  function MuteToggle(p: PanelState): (r: PanelState)
    ensures r.playing == p.playing
    ensures r.settings == p.settings.(volume := r.settings.volume)
    ensures if p.settings.volume > 0.0 then r.settings.volume == 0.0 && r.preMute == p.settings.volume
            else r.settings.volume > 0.0 && r.preMute == p.preMute
    ensures p.settings.volume <= 0.0 && p.preMute > 0.0 ==> r.settings.volume == p.preMute
  {
    if p.settings.volume > 0.0 then PanelState(p.settings.(volume := 0.0), p.playing, p.settings.volume)
    else PanelState(p.settings.(volume := Unmuted(p.preMute)), p.playing, p.preMute)
  }

  /** The volume an unmute restores: the saved one when positive, else 0.1. */
  function Unmuted(saved: real): (v: real)
    ensures v > 0.0
    ensures saved > 0.0 ==> v == saved
  {
    if saved > 0.0 then saved else 0.1
  }

  /** Muting then unmuting gives back the volume the user had. */
  lemma MuteUnmute(p: PanelState)
    requires p.settings.volume > 0.0
    ensures MuteToggle(MuteToggle(p)).settings == p.settings
  {
  }

  /** `handleAdhanForPrayerToggle(key)`: flips one prayer's adhan switch. */
  function ToggleAdhanFor(a: AdhanFor, k: PrayerKey): (r: AdhanFor)
    requires HasAdhanSwitch(k)
    ensures r.Get(k) == !a.Get(k)
    ensures forall j :: j != k ==> r.Get(j) == a.Get(j)
  {
    a.Flip(k)
  }

  /** `keyof AdhanSettings`: the five obligatory prayers. */
  predicate HasAdhanSwitch(k: PrayerKey)
  {
    k == Fajr || k == Dhuhr || k == Asr || k == Maghrib || k == Isha
  }

  /**
   * Flipping a switch twice leaves every switch reading as it was, and leaves
   * the object itself unchanged when the switch had been written before.
   */
  lemma ToggleTwice(a: AdhanFor, k: PrayerKey)
    requires HasAdhanSwitch(k)
    ensures forall j :: ToggleAdhanFor(ToggleAdhanFor(a, k), k).Get(j) == a.Get(j)
    ensures k in a.on ==> ToggleAdhanFor(ToggleAdhanFor(a, k), k) == a
  {
    if k in a.on {
      assert ToggleAdhanFor(ToggleAdhanFor(a, k), k).on == a.on;
    }
  }

  // ---------------------------------------------------------------------------
  // The time shown next to each prayer
  // ---------------------------------------------------------------------------

  /**
   * The adjusted time beside a prayer: the raw time placed on `day`, moved by
   * the prayer's offset, written "HH:MM" on a 24-hour clock or "h:MM" on a
   * 12-hour one; None (an empty cell) when the prayer has no usable time.
   */
  function DisplayedTime(t: Times, adj: Adjustments, k: PrayerKey, day: int, is24: bool): (r: Option<string>)
    ensures r.Some? <==> Raw(t, k).Some?
  {
    match Raw(t, k)
    case None => None
    case Some(hm) =>
      var x := MinuteOfDay(At(day, hm, Offset(adj, k)));
      if is24 then Some(FormatMinuteOfDay(x))
      else Some(NatToString(Hour12(x / 60)) + ":" + Pad2(x % 60))
  }

  /** On a 24-hour clock the panel shows exactly the adjusted table's entry. */
  lemma {:induction false} DisplayedMatchesAdjusted(t: Times, adj: Adjustments, k: PrayerKey, day: int)
    requires Raw(t, k).Some?
    ensures DisplayedTime(t, adj, k, day, true) == AdjustEntry(t[k], day, Offset(adj, k))
    ensures DisplayedTime(t, adj, k, day, true) == Some(FormatMinuteOfDay(Shifted(t, adj, k)))
  {
    MinuteOfDayAt(day, Raw(t, k).value, Offset(adj, k));
  }

  /**
   * On a 12-hour clock the text reads back as the dial hour (1 to 12) and the
   * adjusted minute.
   */
  lemma {:induction false} TwelveHourReadsBack(t: Times, adj: Adjustments, k: PrayerKey, day: int)
    requires Raw(t, k).Some?
    ensures var x := Shifted(t, adj, k);
      DisplayedTime(t, adj, k, day, false).Some? &&
      ParseHM(DisplayedTime(t, adj, k, day, false).value) == Some(HM(Hour12(x / 60), x % 60))
  {
    var x := Shifted(t, adj, k);
    MinuteOfDayAt(day, Raw(t, k).value, Offset(adj, k));
    Pad2TwoDigits(x % 60);
    ParseHoursMinutes(Hour12(x / 60), x % 60);
  }
}

=== FILE: prayers.dfy ===
/**
 * The shared data model: prayer keys and their Arabic display names, raw and
 * adjusted prayer-time tables, per-prayer minute adjustments, user settings,
 * schedule events and the adhan sound table.
 */
module Prayers {
  import opened Wrappers
  import opened Clock

  /** The keys of a prayer-time table (`keyof PrayerTimes`). */
  datatype PrayerKey = Imsak | Fajr | Shourouq | Dhuhr | Asr | Maghrib | Isha | Duha | Midnight

  /** A prayer-time table: key to "HH:MM" text; an empty string is a missing value. */
  type Times = map<PrayerKey, string>

  /** A value is present when it is set and non-empty (JavaScript truthiness). */
  predicate Present(t: Times, k: PrayerKey)
  {
    k in t && t[k] != ""
  }

  /** The parsed clock time of a present entry; None when missing or not "HH:MM". */
  function Raw(t: Times, k: PrayerKey): (r: Option<HM>)
    ensures r.Some? ==> Present(t, k)
  {
    if Present(t, k) then ParseHM(t[k]) else None
  }

  /** Per-prayer minute offsets (`PrayerAdjustments`). */
  type Adjustments = map<PrayerKey, int>

  /** `adjustments[key] || 0`: a missing offset counts as zero. */
  function Offset(adj: Adjustments, k: PrayerKey): int
  {
    if k in adj then adj[k] else 0
  }

  const FajrAr: string := "الفجر"
  const ShourouqAr: string := "الشروق"
  const DhuhrAr: string := "الظهر"
  const AsrAr: string := "العصر"
  const MaghribAr: string := "المغرب"
  const IshaAr: string := "العشاء"
  const MidnightAr: string := "نصف الليل"

  /** An entry of `PRAYER_NAMES`: `en.toLowerCase()` is `key`, `ar` the display name. */
  datatype PrayerName = PrayerName(key: PrayerKey, ar: string)

  /** `PRAYER_NAMES`, in display order. */
  const PrayerNames: seq<PrayerName> := [
    PrayerName(Fajr, FajrAr),
    PrayerName(Shourouq, ShourouqAr),
    PrayerName(Dhuhr, DhuhrAr),
    PrayerName(Asr, AsrAr),
    PrayerName(Maghrib, MaghribAr),
    PrayerName(Isha, IshaAr)
  ]

  /** The five obligatory prayers that carry an adhan and notifications, in day order. */
  const FivePrayers: seq<PrayerName> := [
    PrayerName(Fajr, FajrAr),
    PrayerName(Dhuhr, DhuhrAr),
    PrayerName(Asr, AsrAr),
    PrayerName(Maghrib, MaghribAr),
    PrayerName(Isha, IshaAr)
  ]

  /** `PRAYER_NAMES.find(p => p.ar === name)`. */
  function FindByAr(name: string): (r: Option<PrayerName>)
    ensures r.Some? ==> r.value in PrayerNames && r.value.ar == name
    ensures r.None? ==> forall i :: 0 <= i < |PrayerNames| ==> PrayerNames[i].ar != name
  {
    FindByArIn(PrayerNames, name)
  }

  /** `find` over any table: the first entry carrying the name. */
  function FindByArIn(names: seq<PrayerName>, name: string): (r: Option<PrayerName>)
    ensures r.Some? ==> r.value in names && r.value.ar == name
    ensures r.Some? ==> exists j :: 0 <= j < |names| && names[j] == r.value &&
                          forall i :: 0 <= i < j ==> names[i].ar != name
    ensures r.None? ==> forall i :: 0 <= i < |names| ==> names[i].ar != name
  {
    if |names| == 0 then None
    else if names[0].ar == name then Some(names[0])
    else FindByArIn(names[1..], name)
  }

  /**
   * `AdhanSettings` as the running object holds it: the type declares the five
   * obligatory prayers, but the grid's toggle writes any card's key into it,
   * so a switch may exist for every key; a key never written is undefined, i.e. off.
   */
  datatype AdhanFor = AdhanFor(on: map<PrayerKey, bool>) {

    /** `adhanFor[key]`, with undefined read as off. */
    function Get(k: PrayerKey): bool
    {
      k in on && on[k]
    }

    /** `{ ...adhanFor, [k]: !adhanFor[k] }`: flips one switch (undefined becomes on). */
    function Flip(k: PrayerKey): (r: AdhanFor)
      ensures r.Get(k) == !Get(k)
      ensures forall j :: j != k ==> r.Get(j) == Get(j)
    {
      AdhanFor(on[k := !Get(k)])
    }
  }

  /** `Settings` (the theme is presentation only and is not modelled). */
  datatype Settings = Settings(
    city: string,
    country: string,
    methodId: int, // `method`, the calculation method id
    is24HourFormat: bool,
    isAdhanEnabled: bool,
    adhanFor: AdhanFor,
    adhanSound: string,
    adhanSounds: map<PrayerKey, string>,
    volume: real,
    showDuha: bool,
    isHanafiAsr: bool,
    showImsak: bool,
    showMidnight: bool,
    showSeconds: bool,
    showCountdownSeconds: bool,
    desktopNotifications: bool,
    adhanPreNotification: int,
    showAdhkar: bool,
    showJumuah: bool,
    showQiyam: bool
  )

  /** `volume || 1.0`: a volume of 0 plays at full volume. */
  function OrFull(v: real): (r: real)
    ensures v != 0.0 ==> r == v
    ensures v == 0.0 ==> r == 1.0
  {
    if v == 0.0 then 1.0 else v
  }

  /** `PrayerData`: the hijri and gregorian labels and the raw tables of today and tomorrow. */
  datatype PrayerData = PrayerData(hijri: string, date: string, today: Times, tomorrow: Times)

  /** `Prayer`: a named instant of the schedule. */
  datatype Event = Event(name: string, time: int)

  /** An entry of `ADHAN_SOUNDS`. */
  datatype Sound = Sound(name: string, url: string)

  const AdhanSounds: seq<Sound> := [
    Sound("أذان مكة", "https://www.islamcan.com/audio/adhan/azan1.mp3"),
    Sound("أذان المدينة", "https://www.islamcan.com/audio/adhan/azan2.mp3"),
    Sound("أذان مشاري العفاسي", "https://www.islamcan.com/audio/adhan/azan20.mp3")
  ]

  /** `ADHAN_SOUNDS.find(s => s.name === name)`. */
  function FindSound(name: string): (r: Option<Sound>)
    ensures r.Some? ==> r.value in AdhanSounds && r.value.name == name
    ensures r.None? ==> forall i :: 0 <= i < |AdhanSounds| ==> AdhanSounds[i].name != name
  {
    if AdhanSounds[0].name == name then Some(AdhanSounds[0])
    else if AdhanSounds[1].name == name then Some(AdhanSounds[1])
    else if AdhanSounds[2].name == name then Some(AdhanSounds[2])
    else None
  }

  /** `ADHAN_SOUNDS.find(...) || ADHAN_SOUNDS[0]`: an unknown name falls back to the first sound. */
  function SoundOrFirst(name: string): (s: Sound)
    ensures s in AdhanSounds
    ensures FindSound(name).Some? ==> s.name == name
    ensures FindSound(name).None? ==> s == AdhanSounds[0]
  {
    FindSound(name).GetOr(AdhanSounds[0])
  }
}

=== FILE: schedule.dfy ===
/**
 * The day's event list (`prayerSchedule` in App.tsx): today's prayers in
 * `PRAYER_NAMES` order at their adjusted instants, the night midpoint (moved to
 * the next day when it would fall before the last pushed prayer), tomorrow's
 * adjusted dawn, then a stable sort by instant.
 */
module Schedule {
  import opened Wrappers
  import opened Clock
  import opened Prayers
  import Adjust

  // ---------------------------------------------------------------------------
  // Ordering
  // ---------------------------------------------------------------------------

  /** Events in non-decreasing order of their instants. */
  predicate Sorted(s: seq<Event>)
  {
    forall i, j :: 0 <= i < j < |s| ==> s[i].time <= s[j].time
  }

  /**
   * Inserting `e` into a sorted list right after the last event that is not
   * later than it (so events with equal instants keep their relative order).
   */
  function Insert(e: Event, s: seq<Event>): (r: seq<Event>)
    requires Sorted(s)
    ensures Sorted(r)
    ensures multiset(r) == multiset(s) + multiset{e}
    ensures |r| == |s| + 1
    ensures forall x :: x in r ==> x == e || x in s
  {
    if |s| == 0 then [e]
    else if s[|s| - 1].time <= e.time then s + [e]
    else
      var last := s[|s| - 1];
      var front := s[..|s| - 1];
      assert s == front + [last];
      var r' := Insert(e, front);
      assert forall x :: x in r' ==> x.time <= last.time;
      SortedAppend(r', last);
      r' + [last]
  }

  /** An event no earlier than every event of a sorted list can follow it. */
  lemma SortedAppend(a: seq<Event>, x: Event)
    requires Sorted(a)
    requires forall y :: y in a ==> y.time <= x.time
    ensures Sorted(a + [x])
  {
    var b := a + [x];
    forall i, j | 0 <= i < j < |b|
      ensures b[i].time <= b[j].time
    {
      assert b[i] == a[i];
      if j < |a| {
        assert b[j] == a[j];
      }
    }
  }

  /**
   * `schedule.sort((a, b) => a.time - b.time)`: the ECMAScript sort is stable,
   * modelled as insertion of each event, from the first, behind the earlier
   * events with the same or an earlier instant.
   */
  function SortByTime(s: seq<Event>): (r: seq<Event>)
    ensures Sorted(r)
    ensures multiset(r) == multiset(s)
    ensures |r| == |s|
  {
    if |s| == 0 then []
    else
      var front := s[..|s| - 1];
      assert s == front + [s[|s| - 1]];
      Insert(s[|s| - 1], SortByTime(front))
  }

  /** A prefix of a sorted list is sorted. */
  lemma SortedFront(s: seq<Event>)
    requires Sorted(s) && |s| > 0
    ensures Sorted(s[..|s| - 1])
  {
  }

  /** Inserting the last event of a sorted list into the rest puts it back at the end. */
  lemma InsertLastBack(s: seq<Event>)
    requires Sorted(s) && |s| > 0
    ensures Insert(s[|s| - 1], s[..|s| - 1]) == s
  {
    var front := s[..|s| - 1];
    assert |front| == 0 || front[|front| - 1].time <= s[|s| - 1].time;
    assert front + [s[|s| - 1]] == s;
  }

  /** Sorting a list that is already in order changes nothing. */
  lemma {:induction false} SortSortedIsIdentity(s: seq<Event>)
    requires Sorted(s)
    ensures SortByTime(s) == s
  {
    if |s| > 0 {
      SortedFront(s);
      SortSortedIsIdentity(s[..|s| - 1]);
      InsertLastBack(s);
    }
  }

  // ---------------------------------------------------------------------------
  // Building the list
  // ---------------------------------------------------------------------------

  /** `e` is the event of prayer `p`: its usable raw time today, moved by its adjustment. */
  predicate IsEventOf(p: PrayerName, raw: Times, adj: Adjustments, today: int, e: Event)
  {
    Raw(raw, p.key).Some? && e == Event(p.ar, At(today, Raw(raw, p.key).value, Offset(adj, p.key)))
  }

  /** `e` is the event of one of `names`. */
  predicate FromTable(names: seq<PrayerName>, raw: Times, adj: Adjustments, today: int, e: Event)
  {
    exists j :: 0 <= j < |names| && IsEventOf(names[j], raw, adj, today, e)
  }

  /**
   * The `PRAYER_NAMES.forEach` step: every name whose raw time today is usable
   * becomes an event at its adjusted instant, in table order.
   */
  function TodayEvents(names: seq<PrayerName>, raw: Times, adj: Adjustments, today: int): (r: seq<Event>)
    ensures |r| == Usable(names, raw) <= |names|
    ensures forall i :: 0 <= i < |r| ==> FromTable(names, raw, adj, today, r[i])
  {
    if |names| == 0 then []
    else
      var rest := TodayEvents(names[1..], raw, adj, today);
      var k := names[0].key;
      FromTableTail(names, raw, adj, today);
      match Raw(raw, k)
      case Some(hm) =>
        assert IsEventOf(names[0], raw, adj, today, Event(names[0].ar, At(today, hm, Offset(adj, k))));
        [Event(names[0].ar, At(today, hm, Offset(adj, k)))] + rest
      case None => rest
  }

  /** An event of the later names is an event of the table. */
  lemma FromTableTail(names: seq<PrayerName>, raw: Times, adj: Adjustments, today: int)
    requires |names| > 0
    ensures forall e :: FromTable(names[1..], raw, adj, today, e) ==> FromTable(names, raw, adj, today, e)
  {
    forall e | FromTable(names[1..], raw, adj, today, e)
      ensures FromTable(names, raw, adj, today, e)
    {
      var j :| 0 <= j < |names[1..]| && IsEventOf(names[1..][j], raw, adj, today, e);
      assert names[j + 1] == names[1..][j];
    }
  }

  /**
   * The night midpoint event: its clock time placed on today, moved one day
   * later when it is earlier than the last event pushed so far.
   */
  function MidnightEvent(mid: HM, pushed: seq<Event>, today: int): (e: Event)
    ensures e.name == MidnightAr
    ensures |pushed| > 0 && At(today, mid, 0) < pushed[|pushed| - 1].time ==> e.time == At(today, mid, 0) + DayMs
    ensures !(|pushed| > 0 && At(today, mid, 0) < pushed[|pushed| - 1].time) ==> e.time == At(today, mid, 0)
  {
    var t := At(today, mid, 0);
    if |pushed| > 0 && t < pushed[|pushed| - 1].time then Event(MidnightAr, t + DayMs)
    else Event(MidnightAr, t)
  }

  /** The list before sorting: today's events, the midpoint, tomorrow's dawn. */
  function Unsorted(data: PrayerData, adj: Adjustments, showMidnight: bool, adjusted: Times, today: int): seq<Event>
  {
    var pushed := TodayEvents(PrayerNames, data.today, adj, today);
    var withMid :=
      if showMidnight && Present(adjusted, Midnight) then
        match ParseHM(adjusted[Midnight])
        case Some(mid) => pushed + [MidnightEvent(mid, pushed, today)]
        case None => pushed
      else pushed;
    match Raw(data.tomorrow, Fajr)
    case Some(f) => withMid + [Event(FajrAr, At(today + 1, f, Offset(adj, Fajr)))]
    case None => withMid
  }

  /**
   * `prayerSchedule`: no data gives the empty list; otherwise the events of
   * the day, sorted by instant. `adjusted` is the adjusted table, read for its
   * midnight entry: the component passes `Adjust.AdjustedPrayersToday` of the
   * same data and settings, and `MidnightInAdjustedSchedule` states the schedule for it.
   */
  function PrayerSchedule(data: Option<PrayerData>, adj: Adjustments, showMidnight: bool,
                          adjusted: Times, today: int): (r: seq<Event>)
    ensures Sorted(r)
    ensures data.None? ==> r == []
    ensures data.Some? ==> multiset(r) == multiset(Unsorted(data.value, adj, showMidnight, adjusted, today))
  {
    match data
    case None => []
    case Some(d) => SortByTime(Unsorted(d, adj, showMidnight, adjusted, today))
  }

  // ---------------------------------------------------------------------------
  // What the list holds
  // ---------------------------------------------------------------------------

  /** Each usable raw time of today gives its named event at the adjusted instant. */
  lemma {:induction false} TodayEventPresent(names: seq<PrayerName>, raw: Times, adj: Adjustments, today: int, j: int)
    requires 0 <= j < |names|
    requires Raw(raw, names[j].key).Some?
    ensures Event(names[j].ar, At(today, Raw(raw, names[j].key).value, Offset(adj, names[j].key)))
            in TodayEvents(names, raw, adj, today)
    decreases |names|
  {
    if j > 0 {
      TodayEventPresent(names[1..], raw, adj, today, j - 1);
      assert names[1..][j - 1] == names[j];
    }
  }

  /** No two entries of a name table share a display name, as in `PRAYER_NAMES`. */
  predicate DistinctNames(names: seq<PrayerName>)
  {
    forall i, j :: 0 <= i < j < |names| ==> names[i].ar != names[j].ar
  }

  /** No two events of a list share a name. */
  predicate OnePerName(r: seq<Event>)
  {
    forall a, b :: 0 <= a < b < |r| ==> r[a].name != r[b].name
  }

  /** With distinct display names, today's events carry distinct names: at most one event per prayer. */
  lemma {:induction false} TodayEventsOnePerName(names: seq<PrayerName>, raw: Times, adj: Adjustments, today: int)
    requires DistinctNames(names)
    ensures OnePerName(TodayEvents(names, raw, adj, today))
    decreases |names|
  {
    if |names| > 0 {
      var rest := TodayEvents(names[1..], raw, adj, today);
      assert DistinctNames(names[1..]);
      TodayEventsOnePerName(names[1..], raw, adj, today);
      if Raw(raw, names[0].key).Some? {
        LaterNamesDiffer(names, raw, adj, today);
        ConsOnePerName(TodayEvents(names, raw, adj, today)[0], rest);
      }
    }
  }

  /** The events of the later names never carry the first name. */
  lemma LaterNamesDiffer(names: seq<PrayerName>, raw: Times, adj: Adjustments, today: int)
    requires DistinctNames(names) && |names| > 0
    ensures forall b :: 0 <= b < |TodayEvents(names[1..], raw, adj, today)| ==>
              TodayEvents(names[1..], raw, adj, today)[b].name != names[0].ar
  {
    var rest := TodayEvents(names[1..], raw, adj, today);
    forall b | 0 <= b < |rest|
      ensures rest[b].name != names[0].ar
    {
      assert FromTable(names[1..], raw, adj, today, rest[b]);
      var j :| 0 <= j < |names[1..]| && IsEventOf(names[1..][j], raw, adj, today, rest[b]);
      assert names[1..][j] == names[j + 1];
    }
  }

  /** Putting an event with a new name in front keeps one event per name. */
  lemma ConsOnePerName(e: Event, rest: seq<Event>)
    requires OnePerName(rest)
    requires forall b :: 0 <= b < |rest| ==> rest[b].name != e.name
    ensures OnePerName([e] + rest)
  {
    var r := [e] + rest;
    forall a, b | 0 <= a < b < |r|
      ensures r[a].name != r[b].name
    {
      assert r[b] == rest[b - 1];
      if a > 0 {
        assert r[a] == rest[a - 1];
      }
    }
  }

  /** `PRAYER_NAMES` has distinct display names. */
  lemma PrayerNamesDistinct()
    ensures DistinctNames(PrayerNames)
  {
  }

  /** The number of names whose raw time is usable. */
  function Usable(names: seq<PrayerName>, raw: Times): nat
  {
    if |names| == 0 then 0
    else (if Raw(raw, names[0].key).Some? then 1 else 0) + Usable(names[1..], raw)
  }

  /** The schedule holds every usable prayer of today at its adjusted instant. */
  lemma PrayerInSchedule(data: PrayerData, adj: Adjustments, showMidnight: bool, adjusted: Times, today: int, j: int)
    requires 0 <= j < |PrayerNames|
    requires Raw(data.today, PrayerNames[j].key).Some?
    ensures Event(PrayerNames[j].ar, At(today, Raw(data.today, PrayerNames[j].key).value, Offset(adj, PrayerNames[j].key)))
            in PrayerSchedule(Some(data), adj, showMidnight, adjusted, today)
  {
    var e := Event(PrayerNames[j].ar, At(today, Raw(data.today, PrayerNames[j].key).value, Offset(adj, PrayerNames[j].key)));
    TodayEventPresent(PrayerNames, data.today, adj, today, j);
    var u := Unsorted(data, adj, showMidnight, adjusted, today);
    assert e in u;
    assert e in multiset(u);
  }

  /** Tomorrow's dawn, when usable, is in the schedule at tomorrow's adjusted instant. */
  lemma TomorrowFajrInSchedule(data: PrayerData, adj: Adjustments, showMidnight: bool, adjusted: Times, today: int)
    requires Raw(data.tomorrow, Fajr).Some?
    ensures Event(FajrAr, At(today + 1, Raw(data.tomorrow, Fajr).value, Offset(adj, Fajr)))
            in PrayerSchedule(Some(data), adj, showMidnight, adjusted, today)
  {
    var u := Unsorted(data, adj, showMidnight, adjusted, today);
    var e := Event(FajrAr, At(today + 1, Raw(data.tomorrow, Fajr).value, Offset(adj, Fajr)));
    assert u[|u| - 1] == e;
    assert e in multiset(u);
  }

  /** The schedule has one event per usable prayer, plus the midpoint and tomorrow's dawn when present. */
  lemma ScheduleLength(data: PrayerData, adj: Adjustments, showMidnight: bool, adjusted: Times, today: int)
    ensures |PrayerSchedule(Some(data), adj, showMidnight, adjusted, today)| ==
      Usable(PrayerNames, data.today)
      + (if showMidnight && Present(adjusted, Midnight) && ParseHM(adjusted[Midnight]).Some? then 1 else 0)
      + (if Raw(data.tomorrow, Fajr).Some? then 1 else 0)
  {
    var u := Unsorted(data, adj, showMidnight, adjusted, today);
    assert |multiset(u)| == |u|;
  }

  /**
   * When today's events, the midpoint and tomorrow's dawn already come in
   * order (the usual evening: isha, then midnight, then dawn), the sort keeps
   * them, so the midpoint is the second-to-last event and dawn the last.
   */
  lemma MidnightSecondToLast(data: PrayerData, adj: Adjustments, adjusted: Times, today: int)
    requires Present(adjusted, Midnight) && ParseHM(adjusted[Midnight]).Some?
    requires Raw(data.tomorrow, Fajr).Some?
    requires Sorted(Unsorted(data, adj, true, adjusted, today))
    ensures var s := PrayerSchedule(Some(data), adj, true, adjusted, today);
      |s| >= 2 && s[|s| - 2].name == MidnightAr && s[|s| - 1].name == FajrAr
  {
    var u := Unsorted(data, adj, true, adjusted, today);
    SortSortedIsIdentity(u);
    UnsortedEndsWithMidnightAndFajr(data, adj, adjusted, today);
  }

  /** With the midpoint shown and dawn usable, the unsorted list ends with the two of them. */
  lemma UnsortedEndsWithMidnightAndFajr(data: PrayerData, adj: Adjustments, adjusted: Times, today: int)
    requires Present(adjusted, Midnight) && ParseHM(adjusted[Midnight]).Some?
    requires Raw(data.tomorrow, Fajr).Some?
    ensures var u := Unsorted(data, adj, true, adjusted, today);
      |u| >= 2 && u[|u| - 2].name == MidnightAr && u[|u| - 1].name == FajrAr
  {
  }
  /**
   * The schedule built from the table the component adjusts, with the
   * midpoint shown and computable (today's sunset and tomorrow's dawn usable):
   * it holds a midpoint event, and one event more than the usable prayers and dawn.
   */
  lemma MidnightInAdjustedSchedule(data: PrayerData, adj: Adjustments, showDuha: bool, today: int)
    requires Raw(data.today, Maghrib).Some? && Raw(data.tomorrow, Fajr).Some?
    ensures var s := PrayerSchedule(Some(data), adj, true, Adjust.AdjustedPrayersToday(Some(data), adj, showDuha, true, today), today);
      |s| == Usable(PrayerNames, data.today) + 2 && exists e :: e in s && e.name == MidnightAr
  {
    AdjustedMidnightParses(data, adj, showDuha, today);
    MidnightInSchedule(data, adj, Adjust.AdjustedPrayersToday(Some(data), adj, showDuha, true, today), today);
  }

  /** A readable midpoint in the table passed, with dawn usable, gives a midpoint event and two events beyond the prayers. */
  lemma MidnightInSchedule(data: PrayerData, adj: Adjustments, adjusted: Times, today: int)
    requires Present(adjusted, Midnight) && ParseHM(adjusted[Midnight]).Some?
    requires Raw(data.tomorrow, Fajr).Some?
    ensures var s := PrayerSchedule(Some(data), adj, true, adjusted, today);
      |s| == Usable(PrayerNames, data.today) + 2 && exists e :: e in s && e.name == MidnightAr
  {
    ScheduleLength(data, adj, true, adjusted, today);
    var u := Unsorted(data, adj, true, adjusted, today);
    UnsortedEndsWithMidnightAndFajr(data, adj, adjusted, today);
    assert u[|u| - 2] in multiset(PrayerSchedule(Some(data), adj, true, adjusted, today));
  }

  /** The adjusted table's midpoint, when shown and computable, is a clock time that parses. */
  lemma AdjustedMidnightParses(data: PrayerData, adj: Adjustments, showDuha: bool, today: int)
    requires Raw(data.today, Maghrib).Some? && Raw(data.tomorrow, Fajr).Some?
    ensures var adjusted := Adjust.AdjustedPrayersToday(Some(data), adj, showDuha, true, today);
      Present(adjusted, Midnight) && ParseHM(adjusted[Midnight]).Some?
  {
    var adjusted := Adjust.AdjustedPrayersToday(Some(data), adj, showDuha, true, today);
    var mid := Adjust.MidpointInstant(Raw(data.today, Maghrib).value, Offset(adj, Maghrib),
                                      Raw(data.tomorrow, Fajr).value, Offset(adj, Fajr), today);
    assert adjusted[Midnight] == FormatMinuteOfDay(MinuteOfDay(mid));
    ParseFormatted(MinuteOfDay(mid));
  }

  /**
   * With the midpoint hidden, the schedule holds no midpoint event: only the
   * usable prayers of today and tomorrow's dawn, whatever table is passed.
   */
  lemma NoMidnightWhenHidden(data: PrayerData, adj: Adjustments, adjusted: Times, today: int)
    ensures var s := PrayerSchedule(Some(data), adj, false, adjusted, today);
      |s| == Usable(PrayerNames, data.today) + (if Raw(data.tomorrow, Fajr).Some? then 1 else 0) &&
      forall e :: e in s ==> e.name != MidnightAr
  {
    ScheduleLength(data, adj, false, adjusted, today);
    var u := Unsorted(data, adj, false, adjusted, today);
    var pushed := TodayEvents(PrayerNames, data.today, adj, today);
    assert forall i :: 0 <= i < |PrayerNames| ==> PrayerNames[i].ar != MidnightAr;
    NoNameOutside(PrayerNames, data.today, adj, today, MidnightAr);
    assert forall e :: e in u ==> e in pushed || e.name == FajrAr;
    forall e | e in PrayerSchedule(Some(data), adj, false, adjusted, today)
      ensures e.name != MidnightAr
    {
      assert e in multiset(u);
    }
  }

  /** Today's events carry only names from the table. */
  lemma NoNameOutside(names: seq<PrayerName>, raw: Times, adj: Adjustments, today: int, name: string)
    requires forall i :: 0 <= i < |names| ==> names[i].ar != name
    ensures forall e :: e in TodayEvents(names, raw, adj, today) ==> e.name != name
  {
    var r := TodayEvents(names, raw, adj, today);
    forall e | e in r
      ensures e.name != name
    {
      var i :| 0 <= i < |r| && r[i] == e;
      assert FromTable(names, raw, adj, today, r[i]);
    }
  }
}

=== FILE: settings.dfy ===
/**
 * The settings form (components/SettingsPanel.tsx): the "City, Country"
 * location field, the switches that save themselves as soon as they change,
 * and the location save that also carries the method and the clock and Asr
 * choices.
 */
module SettingsForm {
  import opened Text
  import opened Wrappers
  import opened Prayers

  // ---------------------------------------------------------------------------
  // The location field
  // ---------------------------------------------------------------------------

  /** Every piece trimmed (`parts.map(p => p.trim())`). */
  function TrimAll(ps: seq<string>): (r: seq<string>)
    ensures |r| == |ps|
    ensures forall i :: 0 <= i < |ps| ==> r[i] == Trim(ps[i])
  {
    seq(|ps|, i requires 0 <= i < |ps| => Trim(ps[i]))
  }

  /**
   * `handleLocationSave`'s reading of the field: the city is the trimmed text
   * before the first comma; the country is the trimmed rest, each piece
   * trimmed and the pieces joined back with ',', or "" when there is no comma.
   */
  function ParseLocation(location: string): (r: (string, string))
    ensures r.0 == Trim(location[..IndexOf(location, ',')])
    ensures IndexOf(location, ',') == |location| ==> r.1 == ""
    ensures IsTrimmed(r.0) && IsTrimmed(r.1)
  {
    var parts := TrimAll(Split(location, ','));
    SplitHead(location, ',');
    var country := if |parts| > 1 then Trim(Join(parts[1..], ',')) else "";
    (parts[0], country)
  }

  /** The text the field starts with: `${city}, ${country}`. */
  function LocationText(city: string, country: string): string
  {
    city + ", " + country
  }

  /** A comma-free, trimmed city and country survive the field unchanged. */
  lemma {:induction false} LocationRoundTrip(city: string, country: string)
    requires ',' !in city && ',' !in country
    requires IsTrimmed(city) && IsTrimmed(country)
    ensures ParseLocation(LocationText(city, country)) == (city, country)
  {
    LocationPieces(city, country);
    ParseTwoPieces(LocationText(city, country), city, [' '] + country);
    TrimFixpoint(city);
    TrimFixpoint(country);
    TrimLeadingSpace(country);
  }

  /** A field with one comma reads as its two pieces, trimmed. */
  lemma ParseTwoPieces(location: string, a: string, b: string)
    requires Split(location, ',') == [a, b]
    ensures ParseLocation(location) == (Trim(a), Trim(Trim(b)))
  {
    var parts := TrimAll([a, b]);
    assert parts[1..] == [Trim(b)];
  }

  /** The field's text splits at its one comma into the city and the spaced country. */
  lemma {:induction false} LocationPieces(city: string, country: string)
    requires ',' !in city && ',' !in country
    ensures Split(LocationText(city, country), ',') == [city, [' '] + country]
  {
    var rest := [' '] + country;
    assert ',' !in rest;
    assert Join([city, rest], ',') == LocationText(city, country);
    SplitJoin([city, rest], ',');
  }

  // ---------------------------------------------------------------------------
  // The form
  // ---------------------------------------------------------------------------

  /** The switches of the form that save themselves. */
  datatype Switch = Is24Hour | ShowDuha | HanafiAsr | ShowImsak | ShowMidnight | ShowSeconds
                  | ShowCountdownSeconds | Desktop | ShowAdhkar | ShowJumuah | ShowQiyam

  /** The form's local state, one field per input. */
  datatype Form = Form(
    location: string,
    methodId: int,
    is24Hour: bool,
    showDuha: bool,
    isHanafiAsr: bool,
    showImsak: bool,
    showMidnight: bool,
    showSeconds: bool,
    showCountdownSeconds: bool,
    desktopNotifications: bool,
    lead: int,
    showAdhkar: bool,
    showJumuah: bool,
    showQiyam: bool
  )

  /** A switch as the form holds it. */
  function FormSwitch(f: Form, w: Switch): bool
  {
    match w
    case Is24Hour => f.is24Hour
    case ShowDuha => f.showDuha
    case HanafiAsr => f.isHanafiAsr
    case ShowImsak => f.showImsak
    case ShowMidnight => f.showMidnight
    case ShowSeconds => f.showSeconds
    case ShowCountdownSeconds => f.showCountdownSeconds
    case Desktop => f.desktopNotifications
    case ShowAdhkar => f.showAdhkar
    case ShowJumuah => f.showJumuah
    case ShowQiyam => f.showQiyam
  }

  /** A switch as the saved settings hold it. */
  function SavedSwitch(s: Settings, w: Switch): bool
  {
    match w
    case Is24Hour => s.is24HourFormat
    case ShowDuha => s.showDuha
    case HanafiAsr => s.isHanafiAsr
    case ShowImsak => s.showImsak
    case ShowMidnight => s.showMidnight
    case ShowSeconds => s.showSeconds
    case ShowCountdownSeconds => s.showCountdownSeconds
    case Desktop => s.desktopNotifications
    case ShowAdhkar => s.showAdhkar
    case ShowJumuah => s.showJumuah
    case ShowQiyam => s.showQiyam
  }

  /** Every switch of the form holds the saved value. */
  predicate AgreeSwitches(s: Settings, f: Form)
  {
    AgreeDisplay(s, f) &&
    s.showCountdownSeconds == f.showCountdownSeconds && s.desktopNotifications == f.desktopNotifications &&
    s.showAdhkar == f.showAdhkar && s.showJumuah == f.showJumuah && s.showQiyam == f.showQiyam
  }

  /** Agreement is agreement switch by switch. */
  lemma AgreeSwitchesEach(s: Settings, f: Form)
    ensures AgreeSwitches(s, f) <==> forall w :: SavedSwitch(s, w) == FormSwitch(f, w)
  {
    if !AgreeSwitches(s, f) {
      var w := if AgreeDisplay(s, f) then NotificationDifference(s, f) else DisplayDifference(s, f);
      assert SavedSwitch(s, w) != FormSwitch(f, w);
    }
  }

  /** The form agrees with the settings on the display switches. */
  predicate AgreeDisplay(s: Settings, f: Form)
  {
    s.is24HourFormat == f.is24Hour && s.showDuha == f.showDuha && s.isHanafiAsr == f.isHanafiAsr &&
    s.showImsak == f.showImsak && s.showMidnight == f.showMidnight && s.showSeconds == f.showSeconds
  }

  /** A display switch on which the form and the settings disagree. */
  function DisplayDifference(s: Settings, f: Form): (w: Switch)
    requires !AgreeDisplay(s, f)
    ensures SavedSwitch(s, w) != FormSwitch(f, w)
  {
    if s.is24HourFormat != f.is24Hour then Is24Hour
    else if s.showDuha != f.showDuha then ShowDuha
    else if s.isHanafiAsr != f.isHanafiAsr then HanafiAsr
    else if s.showImsak != f.showImsak then ShowImsak
    else if s.showMidnight != f.showMidnight then ShowMidnight
    else ShowSeconds
  }

  /** A countdown or notification switch on which the form and the settings disagree. */
  function NotificationDifference(s: Settings, f: Form): (w: Switch)
    requires AgreeDisplay(s, f) && !AgreeSwitches(s, f)
    ensures SavedSwitch(s, w) != FormSwitch(f, w)
  {
    if s.showCountdownSeconds != f.showCountdownSeconds then ShowCountdownSeconds
    else if s.desktopNotifications != f.desktopNotifications then Desktop
    else if s.showAdhkar != f.showAdhkar then ShowAdhkar
    else if s.showJumuah != f.showJumuah then ShowJumuah
    else ShowQiyam
  }

  /** The form filled from the saved settings (on mount and whenever they change). */
  function FormOf(s: Settings): (f: Form)
    ensures AgreeSwitches(s, f)
    ensures f.lead == s.adhanPreNotification && f.methodId == s.methodId
    ensures f.location == LocationText(s.city, s.country)
  {
    Form(LocationText(s.city, s.country), s.methodId, s.is24HourFormat, s.showDuha, s.isHanafiAsr,
         s.showImsak, s.showMidnight, s.showSeconds, s.showCountdownSeconds,
         s.desktopNotifications, s.adhanPreNotification, s.showAdhkar, s.showJumuah, s.showQiyam)
  }

  /** Some switch or the lead differs from the saved settings. */
  predicate Differs(s: Settings, f: Form)
  {
    !AgreeSwitches(s, f) || f.lead != s.adhanPreNotification
  }

  /**
   * The auto-save effect: nothing when no switch and not the lead differ;
   * otherwise the saved settings with every differing value taken from the
   * form. Equal values are the same on both sides, so that is the form's
   * value of every switch and of the lead.
   */
  function AutoSave(s: Settings, f: Form): (r: Option<Settings>)
    ensures r.None? <==> !Differs(s, f)
    ensures r.Some? ==> AgreeSwitches(r.value, f) && r.value.adhanPreNotification == f.lead
    ensures r.Some? ==> Untouched(r.value, s)
  {
    if !Differs(s, f) then None
    else
      Some(s.(is24HourFormat := f.is24Hour, showDuha := f.showDuha, isHanafiAsr := f.isHanafiAsr,
              showImsak := f.showImsak, showMidnight := f.showMidnight, showSeconds := f.showSeconds,
              showCountdownSeconds := f.showCountdownSeconds, desktopNotifications := f.desktopNotifications,
              adhanPreNotification := f.lead, showAdhkar := f.showAdhkar, showJumuah := f.showJumuah,
              showQiyam := f.showQiyam))
  }

  /** The fields the auto-save never writes. */
  predicate Untouched(r: Settings, s: Settings)
  {
    r.city == s.city && r.country == s.country && r.methodId == s.methodId &&
    r.isAdhanEnabled == s.isAdhanEnabled && r.adhanFor == s.adhanFor && r.adhanSound == s.adhanSound &&
    r.adhanSounds == s.adhanSounds && r.volume == s.volume
  }

  /** Opening the form saves nothing. */
  lemma MountSavesNothing(s: Settings)
    ensures AutoSave(s, FormOf(s)).None?
  {
  }

  /** After a save the effect runs again with the new settings and saves nothing more. */
  lemma AutoSaveSettles(s: Settings, f: Form)
    requires AutoSave(s, f).Some?
    ensures AutoSave(AutoSave(s, f).value, f).None?
  {
  }

  /** Flipping one switch saves exactly that switch, flipped. */
  lemma {:induction false} FlipSavesOne(s: Settings, w: Switch)
    ensures var r := AutoSave(s, Flip(FormOf(s), w));
      r.Some? && SavedSwitch(r.value, w) == !SavedSwitch(s, w) &&
      (forall v :: v != w ==> SavedSwitch(r.value, v) == SavedSwitch(s, v)) &&
      r.value.adhanPreNotification == s.adhanPreNotification && Untouched(r.value, s)
  {
    var f := FormOf(s);
    var g := Flip(f, w);
    FlipDiffers(s, w);
    SavedFollowsForm(s, g);
    AgreeSwitchesEach(s, f);
    forall v | v != w
      ensures FormSwitch(g, v) == FormSwitch(f, v)
    {
      FlipOthers(f, w, v);
    }
  }

  /** A flipped switch makes the form differ from the settings it was filled from. */
  lemma FlipDiffers(s: Settings, w: Switch)
    ensures Differs(s, Flip(FormOf(s), w))
  {
    AgreeSwitchesEach(s, FormOf(s));
    AgreeSwitchesEach(s, Flip(FormOf(s), w));
  }

  /** A save takes every switch from the form. */
  lemma SavedFollowsForm(s: Settings, f: Form)
    requires AutoSave(s, f).Some?
    ensures forall v :: SavedSwitch(AutoSave(s, f).value, v) == FormSwitch(f, v)
  {
    AgreeSwitchesEach(AutoSave(s, f).value, f);
  }

  // ---------------------------------------------------------------------------
  // Editing the form
  // ---------------------------------------------------------------------------

  /** A click on a switch. */
  function Flip(f: Form, w: Switch): (r: Form)
    ensures FormSwitch(r, w) == !FormSwitch(f, w)
    ensures r.lead == f.lead && r.location == f.location && r.methodId == f.methodId
  {
    match w
    case Is24Hour => f.(is24Hour := !f.is24Hour)
    case ShowDuha => f.(showDuha := !f.showDuha)
    case HanafiAsr => f.(isHanafiAsr := !f.isHanafiAsr)
    case ShowImsak => f.(showImsak := !f.showImsak)
    case ShowMidnight => f.(showMidnight := !f.showMidnight)
    case ShowSeconds => f.(showSeconds := !f.showSeconds)
    case ShowCountdownSeconds => f.(showCountdownSeconds := !f.showCountdownSeconds)
    case Desktop => f.(desktopNotifications := !f.desktopNotifications)
    case ShowAdhkar => f.(showAdhkar := !f.showAdhkar)
    case ShowJumuah => f.(showJumuah := !f.showJumuah)
    case ShowQiyam => f.(showQiyam := !f.showQiyam)
  }

  /** A click on one switch leaves the others alone. */
  lemma FlipOthers(f: Form, w: Switch, v: Switch)
    requires v != w
    ensures FormSwitch(Flip(f, w), v) == FormSwitch(f, v)
  {
  }

  /** The minutes the pre-adhan buttons offer. */
  const LeadChoices: seq<int> := [5, 10, 15]

  /** The form's edits: a switch, one of the lead buttons, the location text, the method. */
  datatype Edit = FlipSwitch(w: Switch) | ChooseLead(i: nat) | TypeLocation(text: string) | ChooseMethod(m: int)

  /** An edit the form can produce: the lead buttons are the three choices. */
  predicate Offered(e: Edit)
  {
    e.ChooseLead? ==> e.i < |LeadChoices|
  }

  function ApplyEdit(f: Form, e: Edit): (r: Form)
    requires Offered(e)
    ensures e.ChooseLead? ==> r.lead == LeadChoices[e.i]
    ensures !e.ChooseLead? ==> r.lead == f.lead
  {
    match e
    case FlipSwitch(w) => Flip(f, w)
    case ChooseLead(i) => f.(lead := LeadChoices[i])
    case TypeLocation(text) => f.(location := text)
    case ChooseMethod(m) => f.(methodId := m)
  }

  /** The form after a run of edits. */
  function ApplyEdits(f: Form, es: seq<Edit>): Form
    requires forall i :: 0 <= i < |es| ==> Offered(es[i])
    decreases |es|
  {
    if |es| == 0 then f else ApplyEdits(ApplyEdit(f, es[0]), es[1..])
  }

  /** Starting from one of the choices, the lead is always 5, 10 or 15. */
  lemma {:induction false} LeadStaysAChoice(f: Form, es: seq<Edit>)
    requires f.lead in LeadChoices
    requires forall i :: 0 <= i < |es| ==> Offered(es[i])
    ensures ApplyEdits(f, es).lead in LeadChoices
    decreases |es|
  {
    if |es| > 0 {
      LeadStaysAChoice(ApplyEdit(f, es[0]), es[1..]);
    }
  }

  /**
   * `handleLocationSave`: the parsed city and country, the chosen method, the
   * clock format and the Asr school are written; nothing else changes.
   */
  function SaveLocation(s: Settings, f: Form): (r: Settings)
    ensures (r.city, r.country) == ParseLocation(f.location)
    ensures r.methodId == f.methodId && r.is24HourFormat == f.is24Hour && r.isHanafiAsr == f.isHanafiAsr
    ensures r.(city := s.city, country := s.country, methodId := s.methodId,
               is24HourFormat := s.is24HourFormat, isHanafiAsr := s.isHanafiAsr) == s
  {
    var (city, country) := ParseLocation(f.location);
    s.(city := city, country := country, methodId := f.methodId, is24HourFormat := f.is24Hour, isHanafiAsr := f.isHanafiAsr)
  }

  /** Saving the untouched form of comma-free, trimmed names writes the settings back unchanged. */
  lemma SaveUnchangedForm(s: Settings)
    requires ',' !in s.city && ',' !in s.country
    requires IsTrimmed(s.city) && IsTrimmed(s.country)
    ensures SaveLocation(s, FormOf(s)) == s
  {
    LocationRoundTrip(s.city, s.country);
  }
}

=== FILE: text.dfy ===
/**
 * The string primitives the extension relies on: `String.prototype.split`
 * with a one-character separator, `join`, `trim`, decimal printing
 * (`String(n)`, `padStart(2, '0')`) and parsing (`Number`, `parseInt`).
 */
module Text {
  import opened Wrappers

  // ---------------------------------------------------------------------------
  // Searching, splitting and joining
  // ---------------------------------------------------------------------------

  /** Position of the first `c` in `s`, or `|s|` when `s` has none. */
  function IndexOf(s: string, c: char): (i: nat)
    ensures i <= |s|
    ensures i < |s| ==> s[i] == c
  {
    if |s| == 0 then 0
    else if s[0] == c then 0
    else 1 + IndexOf(s[1..], c)
  }

  /** `parts.join(sep)`. */
  function Join(parts: seq<string>, sep: char): string
  {
    if |parts| == 0 then ""
    else if |parts| == 1 then parts[0]
    else parts[0] + [sep] + Join(parts[1..], sep)
  }

  /**
   * `s.split(sep)`: the maximal separator-free pieces of `s`, in order; there
   * is always at least one piece.
   */
  function Split(s: string, sep: char): (parts: seq<string>)
    ensures |parts| >= 1
    decreases |s|
  {
    var i := IndexOf(s, sep);
    if i == |s| then [s]
    else
      var rest := Split(s[i + 1..], sep);
      assert ([s[..i]] + rest)[1..] == rest;
      [s[..i]] + rest
  }

  /** No `c` occurs before its first index. */
  lemma {:induction false} IndexOfFirst(s: string, c: char)
    ensures c !in s[..IndexOf(s, c)]
    decreases |s|
  {
    if |s| > 0 && s[0] != c {
      IndexOfFirst(s[1..], c);
      assert s[..IndexOf(s, c)] == [s[0]] + s[1..][..IndexOf(s[1..], c)];
    }
  }

  /** No piece of a split contains the separator. */
  lemma {:induction false} SplitPieces(s: string, sep: char)
    ensures forall i :: 0 <= i < |Split(s, sep)| ==> sep !in Split(s, sep)[i]
    decreases |s|
  {
    var i := IndexOf(s, sep);
    IndexOfFirst(s, sep);
    if i < |s| {
      SplitPieces(s[i + 1..], sep);
      assert Split(s, sep) == [s[..i]] + Split(s[i + 1..], sep);
    } else {
      assert s[..i] == s;
    }
  }

  /** Joining the pieces back with the separator rebuilds the text. */
  lemma {:induction false} JoinSplit(s: string, sep: char)
    ensures Join(Split(s, sep), sep) == s
    decreases |s|
  {
    var i := IndexOf(s, sep);
    if i == |s| {
      assert s[..i] == s;
    } else {
      var rest := Split(s[i + 1..], sep);
      JoinSplit(s[i + 1..], sep);
      assert Split(s, sep) == [s[..i]] + rest;
      assert ([s[..i]] + rest)[1..] == rest;
      assert s == s[..i] + [sep] + s[i + 1..];
    }
  }

  /** Splitting a joined list of separator-free pieces gives the pieces back. */
  lemma {:induction false} SplitJoin(parts: seq<string>, sep: char)
    requires |parts| >= 1
    requires forall i :: 0 <= i < |parts| ==> sep !in parts[i]
    ensures Split(Join(parts, sep), sep) == parts
    decreases |parts|
  {
    var s := Join(parts, sep);
    if |parts| == 1 {
      assert IndexOf(s, sep) == |s|;
    } else {
      var tail := Join(parts[1..], sep);
      assert s == parts[0] + [sep] + tail;
      IndexOfPrefix(parts[0], sep, tail);
      assert s[..|parts[0]|] == parts[0];
      assert s[|parts[0]| + 1..] == tail;
      SplitJoin(parts[1..], sep);
      assert parts == [parts[0]] + parts[1..];
    }
  }

  /** The first separator of `a + [sep] + b` is the one right after `a`. */
  lemma {:induction false} IndexOfPrefix(a: string, sep: char, b: string)
    requires sep !in a
    ensures IndexOf(a + [sep] + b, sep) == |a|
    decreases |a|
  {
    var s := a + [sep] + b;
    if |a| > 0 {
      assert s[0] == a[0];
      assert a[0] in a;
      assert s[1..] == a[1..] + [sep] + b;
      IndexOfPrefix(a[1..], sep, b);
    }
  }

  /** Text without the separator splits into itself alone. */
  lemma SplitNoSeparator(s: string, sep: char)
    requires sep !in s
    ensures Split(s, sep) == [s]
  {
    assert IndexOf(s, sep) == |s|;
  }

  /** A text that starts with a separator-free piece and a separator splits into that piece and the rest's pieces. */
  lemma SplitAfterPiece(s: string, sep: char, head: string, rest: string)
    requires sep !in head && s == head + [sep] + rest
    ensures Split(s, sep) == [head] + Split(rest, sep)
  {
    IndexOfPrefix(head, sep, rest);
    assert s[..|head|] == head && s[|head| + 1..] == rest;
  }

  /** The inductive step of SplitConcat: a leading piece of `a` comes off both sides alike. */
  lemma SplitConcatStep(a: string, sep: char, b: string, head: string, tail: string)
    requires sep !in head && a == head + [sep] + tail
    requires Split(tail + [sep] + b, sep) == Split(tail, sep) + Split(b, sep)
    ensures Split(a + [sep] + b, sep) == Split(a, sep) + Split(b, sep)
  {
    assert a + [sep] + b == head + [sep] + (tail + [sep] + b);
    SplitAfterPiece(a + [sep] + b, sep, head, tail + [sep] + b);
    SplitAfterPiece(a, sep, head, tail);
  }

  /** Splitting at a separator placed between two texts splits each of them. */
  lemma {:induction false} SplitConcat(a: string, sep: char, b: string)
    ensures Split(a + [sep] + b, sep) == Split(a, sep) + Split(b, sep)
    decreases |a|
  {
    var i := IndexOf(a, sep);
    IndexOfFirst(a, sep);
    if i == |a| {
      assert a[..i] == a;
      SplitAfterPiece(a + [sep] + b, sep, a, b);
      SplitNoSeparator(a, sep);
    } else {
      var tail := a[i + 1..];
      assert a == a[..i] + [sep] + tail;
      SplitConcat(tail, sep, b);
      SplitConcatStep(a, sep, b, a[..i], tail);
    }
  }

  /** The first piece of a split is the text before the first separator. */
  lemma SplitHead(s: string, sep: char)
    ensures Split(s, sep)[0] == s[..IndexOf(s, sep)]
  {
  }

  // ---------------------------------------------------------------------------
  // Trimming
  // ---------------------------------------------------------------------------

  /** The white-space and line-terminator characters `String.prototype.trim` removes. */
  predicate IsSpace(c: char)
  {
    c == ' ' || c == '\t' || c == '\n' || c == '\r' || c == '\U{000B}' || c == '\U{000C}'
    || c == '\U{00A0}' || c == '\U{1680}' || ('\U{2000}' <= c <= '\U{200A}')
    || c == '\U{2028}' || c == '\U{2029}' || c == '\U{202F}' || c == '\U{205F}'
    || c == '\U{3000}' || c == '\U{FEFF}'
  }

  /** `s` has no white space at either end. */
  predicate IsTrimmed(s: string)
  {
    |s| == 0 || (!IsSpace(s[0]) && !IsSpace(s[|s| - 1]))
  }

  /** `s.trimStart()`: the suffix left after dropping leading white space. */
  function TrimStart(s: string): (r: string)
    ensures |r| <= |s| && r == s[|s| - |r|..]
    ensures |r| > 0 ==> !IsSpace(r[0])
    ensures forall k :: 0 <= k < |s| - |r| ==> IsSpace(s[k])
  {
    if |s| > 0 && IsSpace(s[0]) then TrimStart(s[1..]) else s
  }

  /** `s.trimEnd()`: the prefix left after dropping trailing white space. */
  function TrimEnd(s: string): (r: string)
    ensures |r| <= |s| && r == s[..|r|]
    ensures |r| > 0 ==> !IsSpace(r[|r| - 1])
    ensures forall k :: |r| <= k < |s| ==> IsSpace(s[k])
  {
    if |s| > 0 && IsSpace(s[|s| - 1]) then TrimEnd(s[..|s| - 1]) else s
  }

  /** `s.trim()`: the middle of `s` left after dropping white space at both ends. */
  function Trim(s: string): (r: string)
    ensures IsTrimmed(r)
    ensures |r| <= |s|
    ensures exists a :: Surrounded(s, r, a)
  {
    TrimMiddle(s);
    TrimEnd(TrimStart(s))
  }

  /** Trimming both ends leaves the text found after the leading white space. */
  lemma TrimMiddle(s: string)
    ensures Surrounded(s, TrimEnd(TrimStart(s)), |s| - |TrimStart(s)|)
  {
    var t := TrimStart(s);
    var a := |s| - |t|;
    TrimEndInside(t, s, a);
    SurroundedBy(s, TrimEnd(t), a);
  }

  /** White space before offset `a` and after the slice there makes `r` surrounded. */
  lemma SurroundedBy(s: string, r: string, a: int)
    requires 0 <= a && a + |r| <= |s| && r == s[a..a + |r|]
    requires forall k :: 0 <= k < a ==> IsSpace(s[k])
    requires forall k :: a + |r| <= k < |s| ==> IsSpace(s[k])
    ensures Surrounded(s, r, a)
  {
  }

  /** Trimming the end of the suffix of `s` from `a` leaves a slice of `s` followed by white space. */
  lemma TrimEndInside(t: string, s: string, a: int)
    requires 0 <= a <= |s| && t == s[a..]
    ensures var r := TrimEnd(t);
      a + |r| <= |s| && r == s[a..a + |r|] && forall k :: a + |r| <= k < |s| ==> IsSpace(s[k])
  {
    var r := TrimEnd(t);
    assert r == t[..|r|];
    forall k | a + |r| <= k < |s|
      ensures IsSpace(s[k])
    {
      assert s[k] == t[k - a];
    }
  }

  /** `r` sits at offset `a` of `s`, with only white space before and after it. */
  predicate Surrounded(s: string, r: string, a: int)
  {
    0 <= a && a + |r| <= |s| && r == s[a..a + |r|] &&
    (forall k :: 0 <= k < a ==> IsSpace(s[k])) &&
    (forall k :: a + |r| <= k < |s| ==> IsSpace(s[k]))
  }

  /** Trimming changes nothing exactly when the text is already trimmed. */
  lemma TrimFixpoint(s: string)
    ensures Trim(s) == s <==> IsTrimmed(s)
  {
    if IsTrimmed(s) {
      assert TrimStart(s) == s;
      assert TrimEnd(s) == s;
    }
  }

  /** A single leading space in front of trimmed text is trimmed away. */
  lemma TrimLeadingSpace(s: string)
    requires IsTrimmed(s)
    ensures Trim([' '] + s) == s
  {
    var t := [' '] + s;
    assert t[0] == ' ' && t[1..] == s;
    assert TrimStart(t) == TrimStart(s);
    TrimFixpoint(s);
  }

  // ---------------------------------------------------------------------------
  // Decimal digits
  // ---------------------------------------------------------------------------

  predicate IsDigit(c: char)
  {
    '0' <= c <= '9'
  }

  predicate AllDigits(s: string)
  {
    forall i :: 0 <= i < |s| ==> IsDigit(s[i])
  }

  function DigitValue(c: char): nat
    requires IsDigit(c)
  {
    c as int - '0' as int
  }

  function DigitChar(d: nat): (c: char)
    requires d < 10
    ensures IsDigit(c) && DigitValue(c) == d
  {
    ('0' as int + d) as char
  }

  /** The number a run of decimal digits denotes (most significant first). */
  function DigitsValue(s: string): nat
    requires AllDigits(s)
  {
    if |s| == 0 then 0 else DigitsValue(s[..|s| - 1]) * 10 + DigitValue(s[|s| - 1])
  }

  /** `String(n)` for a natural number: its shortest decimal form. */
  function NatToString(n: nat): (s: string)
    ensures |s| >= 1 && AllDigits(s)
    ensures n < 10 <==> |s| == 1
    ensures n < 100 ==> |s| <= 2
    ensures |s| > 1 ==> s[0] != '0'
    decreases n
  {
    if n < 10 then [DigitChar(n)] else NatToString(n / 10) + [DigitChar(n % 10)]
  }

  /** `String(i)` for any integer. */
  function IntToString(i: int): (s: string)
    ensures |s| >= 1
    ensures s[0] == '-' <==> i < 0
  {
    if i < 0 then "-" + NatToString(-i) else NatToString(i)
  }

  /** `String(n).padStart(2, '0')`. */
  function Pad2(n: nat): (s: string)
    ensures |s| >= 2 && AllDigits(s)
    ensures n < 100 ==> |s| == 2
  {
    if n < 10 then "0" + NatToString(n) else NatToString(n)
  }

  /** `s.padStart(2, '0')`: zeros in front up to two characters; longer text unchanged. */
  function PadStart2(s: string): (r: string)
    ensures |r| == if |s| < 2 then 2 else |s|
    ensures r[|r| - |s|..] == s
    ensures forall i :: 0 <= i < |r| - |s| ==> r[i] == '0'
  {
    if |s| == 0 then "00" else if |s| == 1 then "0" + s else s
  }

  /** Padding the decimal form of a natural number is `Pad2`. */
  lemma PadStartOfNat(n: nat)
    ensures PadStart2(NatToString(n)) == Pad2(n)
  {
  }

  /** Two decimal digits for a number below 100: tens, then units. */
  function TwoDigits(n: nat): (s: string)
    requires n < 100
    ensures |s| == 2 && IsDigit(s[0]) && IsDigit(s[1])
  {
    [DigitChar(n / 10), DigitChar(n % 10)]
  }

  /** Below 100, padding to two places writes exactly the two digits. */
  lemma {:induction false} Pad2TwoDigits(n: nat)
    requires n < 100
    ensures Pad2(n) == TwoDigits(n)
  {
    if n >= 10 {
      assert NatToString(n / 10) == [DigitChar(n / 10)];
    }
  }

  /** Reading two digits back gives the number. */
  lemma TwoDigitsValue(n: nat)
    requires n < 100
    ensures AllDigits(TwoDigits(n)) && ParseNat(TwoDigits(n)) == Some(n)
  {
    var s := TwoDigits(n);
    assert s[..1] == [s[0]];
    assert DigitsValue(s[..1]) == n / 10;
  }

  /** `Number(s)` restricted to plain decimal numerals; anything else is NaN (None). */
  function ParseNat(s: string): (r: Option<nat>)
    ensures r.Some? <==> |s| > 0 && AllDigits(s)
  {
    if |s| > 0 && AllDigits(s) then Some(DigitsValue(s)) else None
  }

  /** `Number(String(n)) === n`. */
  lemma {:induction false} NatToStringRoundTrip(n: nat)
    ensures ParseNat(NatToString(n)) == Some(n)
    ensures DigitsValue(NatToString(n)) == n
    decreases n
  {
    var s := NatToString(n);
    if n >= 10 {
      NatToStringRoundTrip(n / 10);
      assert s[..|s| - 1] == NatToString(n / 10);
      assert DigitValue(s[|s| - 1]) == n % 10;
      assert DigitsValue(s) == (n / 10) * 10 + n % 10;
    }
  }

  /** Leading zeros do not change a numeral's value. */
  lemma LeadingZero(s: string)
    requires AllDigits(s)
    ensures AllDigits("0" + s) && DigitsValue("0" + s) == DigitsValue(s)
    decreases |s|
  {
    var t := "0" + s;
    if |s| > 0 {
      assert t[..|t| - 1] == "0" + s[..|s| - 1];
      LeadingZero(s[..|s| - 1]);
    }
  }

  /** `Number(String(n).padStart(2, '0')) === n`. */
  lemma Pad2RoundTrip(n: nat)
    ensures ParseNat(Pad2(n)) == Some(n)
  {
    NatToStringRoundTrip(n);
    if n < 10 {
      LeadingZero(NatToString(n));
    }
  }

  /** The longest prefix of `s` made of decimal digits. */
  function LeadingDigits(s: string): (d: string)
    ensures AllDigits(d) && d <= s
    ensures |d| < |s| ==> !IsDigit(s[|d|])
  {
    if |s| > 0 && IsDigit(s[0]) then [s[0]] + LeadingDigits(s[1..]) else ""
  }

  /**
   * `parseInt(s)` read in base 10: leading white space, an optional sign, then the longest
   * run of digits; NaN (None) when there is no digit.
   */
  function ParseIntPrefix(s: string): (r: Option<int>)
  {
    var t := TrimStart(s);
    var negative := |t| > 0 && t[0] == '-';
    var body := if |t| > 0 && (t[0] == '-' || t[0] == '+') then t[1..] else t;
    var digits := LeadingDigits(body);
    var v: int := if |digits| == 0 then 0 else DigitsValue(digits);
    if |digits| == 0 then None
    else if negative then Some(-v)
    else Some(v)
  }

  /** On a plain numeral `parseInt` agrees with `Number`. */
  lemma ParseIntOfDigits(s: string)
    requires |s| > 0 && AllDigits(s)
    ensures ParseIntPrefix(s) == Some(DigitsValue(s))
  {
    assert !IsSpace(s[0]);
    assert TrimStart(s) == s;
    AllDigitsLeading(s);
  }

  /** A string of digits is its own longest digit prefix. */
  lemma AllDigitsLeading(s: string)
    requires AllDigits(s)
    ensures LeadingDigits(s) == s
  {
    if |s| > 0 {
      AllDigitsLeading(s[1..]);
    }
  }

  /** `parseInt` stops at the first non-digit: a numeral followed by other text reads as the numeral. */
  lemma ParseIntStopsAtNonDigit(s: string, rest: string)
    requires |s| > 0 && AllDigits(s)
    requires |rest| > 0 && !IsDigit(rest[0])
    ensures ParseIntPrefix(s + rest) == Some(DigitsValue(s))
  {
    var t := s + rest;
    assert !IsSpace(t[0]);
    assert TrimStart(t) == t;
    DigitsThenStop(s, rest);
  }

  lemma DigitsThenStop(s: string, rest: string)
    requires AllDigits(s)
    requires |rest| > 0 && !IsDigit(rest[0])
    ensures LeadingDigits(s + rest) == s
  {
    if |s| == 0 {
      assert s + rest == rest;
    } else {
      assert (s + rest)[1..] == s[1..] + rest;
      DigitsThenStop(s[1..], rest);
    }
  }
}

=== FILE: tracker.dfy ===
/**
 * The active/next tracker of App.tsx: which event of the schedule is current
 * and which comes next, the countdown to the next one, the time elapsed since
 * the current one, and the arithmetic that splits a duration for display.
 */
module Tracker {
  import opened Wrappers
  import opened Text
  import opened Clock
  import opened Prayers
  import opened Schedule

  // ---------------------------------------------------------------------------
  // Searching the schedule
  // ---------------------------------------------------------------------------

  /**
   * `findIndex(p => p.time > now)`: the position of the first event strictly
   * after `now`, or -1 when every event is at or before `now`.
   */
  function NextIndex(s: seq<Event>, now: int): (i: int)
    ensures -1 <= i < |s|
    ensures i >= 0 ==> s[i].time > now
    ensures i >= 0 ==> forall j :: 0 <= j < i ==> s[j].time <= now
    ensures i == -1 ==> forall j :: 0 <= j < |s| ==> s[j].time <= now
  {
    if |s| == 0 then -1
    else if s[0].time > now then 0
    else
      var i := NextIndex(s[1..], now);
      if i == -1 then -1 else i + 1
  }

  /**
   * The same search as a loop over the positions, as the runtime performs it.
   */
  method FindNext(s: seq<Event>, now: int) returns (i: int)
    ensures i == NextIndex(s, now)
  {
    i := 0;
    while i < |s|
      invariant 0 <= i <= |s|
      invariant forall j :: 0 <= j < i ==> s[j].time <= now
    {
      if s[i].time > now {
        FirstAfterIsNextIndex(s, now, i);
        return;
      }
      i := i + 1;
    }
    i := -1;
  }

  /** Any position satisfying the `findIndex` description is the one NextIndex returns. */
  lemma FirstAfterIsNextIndex(s: seq<Event>, now: int, i: int)
    requires 0 <= i < |s| && s[i].time > now
    requires forall j :: 0 <= j < i ==> s[j].time <= now
    ensures NextIndex(s, now) == i
  {
  }

  /** What a `find` on the schedule looks for: an event of the given name that is (or is not) dated today. */
  predicate Matches(e: Event, name: string, today: int, sameDay: bool)
  {
    e.name == name && (DayOf(e.time) == today) == sameDay
  }

  /** `schedule.find(p => p.name === name && (p.time.getDate() === today) === sameDay)`. */
  function FindEvent(s: seq<Event>, name: string, today: int, sameDay: bool): (r: Option<Event>)
    ensures r.Some? ==> r.value in s && Matches(r.value, name, today, sameDay)
    ensures r.None? ==> forall j :: 0 <= j < |s| ==> !Matches(s[j], name, today, sameDay)
    ensures r.Some? ==> exists j :: 0 <= j < |s| && s[j] == r.value &&
                                     forall k :: 0 <= k < j ==> !Matches(s[k], name, today, sameDay)
  {
    if |s| == 0 then None
    else if Matches(s[0], name, today, sameDay) then Some(s[0])
    else
      var r := FindEvent(s[1..], name, today, sameDay);
      if r.Some? then
        var j :| 0 <= j < |s[1..]| && s[1..][j] == r.value &&
          forall k :: 0 <= k < j ==> !Matches(s[1..][k], name, today, sameDay);
        assert s[j + 1] == r.value;
        r
      else r
  }

  /** `schedule[i]`: an index outside the list reads `undefined`. */
  function Element(s: seq<Event>, i: int): (r: Option<Event>)
    ensures r.Some? <==> 0 <= i < |s|
    ensures r.Some? ==> r.value == s[i]
  {
    if 0 <= i < |s| then Some(s[i]) else None
  }

  // ---------------------------------------------------------------------------
  // Choosing the active and next events
  // ---------------------------------------------------------------------------

  /** The pair the effect stores: the active event (possibly undefined) and the next one. */
  datatype Pick = Pick(active: Option<Event>, next: Event)

  /**
   * The active/next effect at instant `now`. An empty schedule leaves the
   * previous pair in place (None). Otherwise next is the first event after
   * `now` and active the one before it; before the first event the active one
   * is the second-to-last; after the last event the active one is today's
   * isha (or the second-to-last) and the next one the dawn not dated today (or
   * the last).
   */
  function ActiveNext(s: seq<Event>, now: int): (r: Option<Pick>)
    ensures r.None? <==> |s| == 0
    ensures r.Some? ==> r.value.next in s
    ensures r.Some? && r.value.active.Some? ==> r.value.active.value in s
  {
    if |s| == 0 then None
    else
      var i := NextIndex(s, now);
      var today := DayOf(now);
      if i == -1 then
        var isha := FindEvent(s, IshaAr, today, true);
        var fajr := FindEvent(s, FajrAr, today, false);
        Some(Pick(if isha.Some? then isha else Element(s, |s| - 2),
                  fajr.GetOr(s[|s| - 1])))
      else
        Some(Pick(Element(s, if i == 0 then |s| - 2 else i - 1), s[i]))
  }

  /**
   * Inside the day, on a sorted schedule, the pair brackets `now`: the active
   * event is the latest one at or before `now`, the next one the earliest one
   * after it.
   */
  lemma {:induction false} ActiveNextBrackets(s: seq<Event>, now: int)
    requires Sorted(s)
    requires |s| > 0 && s[0].time <= now < s[|s| - 1].time
    ensures var r := ActiveNext(s, now);
      r.Some? && r.value.active.Some? &&
      r.value.active.value.time <= now < r.value.next.time
    ensures var r := ActiveNext(s, now);
      forall j :: 0 <= j < |s| && s[j].time <= now ==> s[j].time <= r.value.active.value.time
    ensures var r := ActiveNext(s, now);
      forall j :: 0 <= j < |s| && s[j].time > now ==> r.value.next.time <= s[j].time
  {
    var i := NextIndex(s, now);
    assert s[|s| - 1].time > now;
    assert i != -1;
    assert i != 0;
  }

  /** Before the first event of the day the next event is the first one and the active one the second-to-last. */
  lemma BeforeFirst(s: seq<Event>, now: int)
    requires |s| >= 2 && now < s[0].time
    ensures var r := ActiveNext(s, now);
      r.Some? && r.value.next == s[0] && r.value.active == Some(s[|s| - 2])
  {
  }

  /**
   * After the last event the next one is tomorrow's dawn when the list holds a
   * dawn not dated today, and the active one today's isha when it holds one.
   */
  lemma AfterLast(s: seq<Event>, now: int)
    requires Sorted(s)
    requires |s| > 0 && s[|s| - 1].time <= now
    ensures var r := ActiveNext(s, now);
      r.Some? &&
      (FindEvent(s, FajrAr, DayOf(now), false).Some? ==> Matches(r.value.next, FajrAr, DayOf(now), false)) &&
      (FindEvent(s, FajrAr, DayOf(now), false).None? ==> r.value.next == s[|s| - 1]) &&
      (FindEvent(s, IshaAr, DayOf(now), true).Some? ==>
        r.value.active.Some? && Matches(r.value.active.value, IshaAr, DayOf(now), true)) &&
      (FindEvent(s, IshaAr, DayOf(now), true).None? ==> r.value.active == Element(s, |s| - 2))
  {
    assert forall j :: 0 <= j < |s| ==> s[j].time <= now by {
      forall j | 0 <= j < |s|
        ensures s[j].time <= now
      {
        assert j == |s| - 1 || s[j].time <= s[|s| - 1].time;
      }
    }
    assert NextIndex(s, now) == -1;
    var today := DayOf(now);
    var isha := FindEvent(s, IshaAr, today, true);
    var fajr := FindEvent(s, FajrAr, today, false);
    assert ActiveNext(s, now) ==
      Some(Pick(if isha.Some? then isha else Element(s, |s| - 2), fajr.GetOr(s[|s| - 1])));
  }

  /**
   * With the night midpoint shown and already in order, the wraparound before
   * the first event picks the midpoint as the active event, not isha.
   */
  lemma WraparoundIsMidnight(data: PrayerData, adj: Adjustments, adjusted: Times, today: int, now: int)
    requires Present(adjusted, Midnight) && ParseHM(adjusted[Midnight]).Some?
    requires Raw(data.tomorrow, Fajr).Some?
    requires Sorted(Unsorted(data, adj, true, adjusted, today))
    requires var s := PrayerSchedule(Some(data), adj, true, adjusted, today);
      |s| > 0 && now < s[0].time
    ensures var r := ActiveNext(PrayerSchedule(Some(data), adj, true, adjusted, today), now);
      r.Some? && r.value.active.Some? && r.value.active.value.name == MidnightAr
  {
    MidnightSecondToLast(data, adj, adjusted, today);
    BeforeFirst(PrayerSchedule(Some(data), adj, true, adjusted, today), now);
  }

  // ---------------------------------------------------------------------------
  // Countdown and elapsed time
  // ---------------------------------------------------------------------------

  /** `timeToNextPrayer`: milliseconds until the next event, never negative; 0 when there is none. */
  function TimeToNext(next: Option<Event>, now: int): (ms: nat)
    ensures next.Some? && now <= next.value.time ==> ms == next.value.time - now
    ensures next.None? || next.value.time <= now ==> ms == 0
  {
    if next.None? || next.value.time <= now then 0 else next.value.time - now
  }

  /** `timeSinceActivePrayer`: milliseconds since the active event, never negative; 0 when there is none. */
  function TimeSinceActive(active: Option<Event>, now: int): (ms: nat)
    ensures active.Some? && active.value.time <= now ==> ms == now - active.value.time
    ensures active.None? || now <= active.value.time ==> ms == 0
  {
    if active.None? || now <= active.value.time then 0 else now - active.value.time
  }

  /** Between the two events the countdown and the elapsed time add up to the gap between them. */
  lemma CountdownPlusElapsed(p: Pick, now: int)
    requires p.active.Some? && p.active.value.time <= now <= p.next.time
    ensures TimeSinceActive(p.active, now) + TimeToNext(Some(p.next), now) == p.next.time - p.active.value.time
  {
  }

  /** The tracker's own pair always gives a countdown within the gap of a sorted day. */
  lemma CountdownWithinGap(s: seq<Event>, now: int)
    requires Sorted(s)
    requires |s| > 0 && s[0].time <= now < s[|s| - 1].time
    ensures var p := ActiveNext(s, now).value;
      TimeSinceActive(p.active, now) + TimeToNext(Some(p.next), now) == p.next.time - p.active.value.time
  {
    ActiveNextBrackets(s, now);
    CountdownPlusElapsed(ActiveNext(s, now).value, now);
  }

  /** A duration split into whole hours, minutes and seconds for display. */
  datatype Clockface = Clockface(hours: nat, minutes: nat, seconds: nat)

  /**
   * `renderCountdown`'s arithmetic: whole seconds, then hours, the minutes of
   * the remaining part of the hour, and the seconds of the minute. It is only
   * given the non-negative countdown.
   */
  function CountdownParts(ms: nat): (c: Clockface)
    ensures c.minutes < 60 && c.seconds < 60
    ensures c.hours * 3600 + c.minutes * 60 + c.seconds == ms / 1000
  {
    var total := ms / 1000;
    Clockface(total / 3600, (total % 3600) / 60, total % 60)
  }

  /** The display parts never lose more than the milliseconds below one second. */
  lemma CountdownPartsBounds(ms: nat)
    ensures var c := CountdownParts(ms);
      (c.hours * 3600 + c.minutes * 60 + c.seconds) * 1000 <= ms <
      (c.hours * 3600 + c.minutes * 60 + c.seconds + 1) * 1000
  {
  }

  /**
   * `formatElapsedTime`: whole hours, a colon, and the whole minutes of the
   * remaining part of the hour padded to two digits. It is only given the
   * non-negative elapsed time.
   */
  function FormatElapsed(ms: nat): string
  {
    var total := ms / 1000;
    NatToString(total / 3600) + ":" + Pad2((total % 3600) / 60)
  }

  /** Read back as hours and minutes, the elapsed text gives the whole minutes elapsed. */
  lemma {:induction false} FormatElapsedReadsBack(ms: nat)
    ensures ParseHM(FormatElapsed(ms)).Some?
    ensures var hm := ParseHM(FormatElapsed(ms)).value;
      hm.minute < 60 && hm.hour * 60 + hm.minute == ms / MinuteMs
  {
    var total := ms / 1000;
    var m := (total % 3600) / 60;
    Pad2TwoDigits(m);
    ParseHoursMinutes(total / 3600, m);
    WholeMinutes(ms);
  }

  /** Whole hours and the whole minutes of the rest of the hour make up the whole minutes. */
  lemma WholeMinutes(ms: nat)
    ensures var total := ms / 1000;
      (total % 3600) / 60 < 60 && (total / 3600) * 60 + (total % 3600) / 60 == ms / MinuteMs
  {
    var total := ms / 1000;
    var q := total / 3600;
    var r := total % 3600;
    assert total == 3600 * q + r;
    DivModUnique(total, 60, 60 * q + r / 60, r % 60);
    DivModUnique(ms, MinuteMs, total / 60, (total % 60) * 1000 + ms % 1000);
  }
}

=== FILE: wrappers.dfy ===
/** Failure-compatible result types shared by every module of the model. */
module Wrappers {

  /** A value that may be missing: JavaScript's `null` / `undefined` / falsy. */
  datatype Option<+T> = None | Some(value: T) {

    /** The value, or `default` when it is missing (JavaScript's `x || d` / `x ?? d`). */
    function GetOr(default: T): T {
      match this
      case Some(v) => v
      case None => default
    }
  }

  /** The outcome of an operation that may throw. */
  datatype Result<+T, +E> = Ok(value: T) | Err(error: E)
}
